=== FILE: README.md ===
# Backwards-compatibility checks of code-insight, in Dafny

code-insight stores two snapshots of a PHP code base: an old release and a
new one. Each snapshot is a knowledge base of classes, their constants,
properties, methods and parameters, plus the global functions and
constants. The backwards-compatibility (BC) engine compares the two
snapshots and reports every change that can break code written against the
old release. These changes are called *incidents*, or *BC breaks*. Each one
has a type (`class.deleted`, `method.signature_changed`, ...), an element
(`Foo::bar`, `Foo::$baz`, a function name, ...) and, for changes of value,
an old and a new value.

This project models that engine as pure functions over two in-memory
snapshots:

- **AbstractChecker** (`abstract_checker.dfy`):
  - `check` (sort by type) and `addIncident`;
  - rendering a parameter as text (`paramToString`) and joining the texts into a signature;
  - the rule that decides whether a new function signature is still compatible with the old one (`isParamSignatureCompatible`);
  - `signature_proofs.dfy`: what that rule accepts and rejects, stated over lists of parameters.
- **ClassChecker and InPortalClassChecker**:
  - `class_checker.dfy`: the per-class walk over constants, properties and methods, the PHP4/PHP5 constructor renaming and the scopes that are covered;
  - `inportal.dfy`: the In-Portal conventions (event handlers, tag processors) that suppress some scope and signature changes;
  - `inportal_proofs.dfy`: why a change of event-parameter spelling is never a signature change;
  - `class_checker_proofs.dfy`: the checker's results stated per class name, and the order of a class's incidents;
  - `snapshot.dfy`: the recursive member lookups through class relations.
- **FunctionChecker** and **ConstantChecker** (`function_checker.dfy`, `constant_checker.dfy`).
- **BreakFilter** (`break_filter.dfy`): removing the incidents that a list of ignore rules matches.
- **CheckerFactory / ReporterFactory** (`registry.dfy`, `checkers.dfy`): name-keyed registries, and the registration the application's container does at start-up.
- **AbstractReporter** (`reporter.dfy`): grouping incidents by type and sorting them by element.

Support modules:
- `wrappers.dfy`: `Option` and `Result`.
- `php_strings.dfy`: the PHP string functions the code uses: `explode`/`implode`, `strcmp`, `str_replace`, truthiness.
- `sequences.dfy`: filter, stable insertion sort, flat-map, and sequences ordered by a rank.
- `assoc.dfy`: PHP associative arrays as key-ordered sequences, including `fetchAssoc`, where a later row overwrites an earlier one with the same key.
- `incidents.dfy`: incident types, categories and the incident record.

The database is not modelled. Each SQL query becomes a function over the
rows of a snapshot that selects the same rows in the same order. The JSON
decoding of stored default values (`decodeValue`) is passed in as a
function parameter.

## Model

| member | source | states |
|---|---|---|
| Incidents.AddIncident | src/CodeInsight/BackwardsCompatibility/Checker/AbstractChecker.php:238-251 | an incident always has the given type and element; it carries old and new values exactly when at least one was given, and then carries both as given |
| AbstractChecker.ParamToString | src/CodeInsight/BackwardsCompatibility/Checker/AbstractChecker.php:126-162 | a parameter's text contains `$`; a type, when there is one, comes first, followed by a space; without a default the text ends in `$name`; when type and name contain no `=`, the text contains `=` exactly when the parameter has a default value |
| AbstractChecker.Split | src/CodeInsight/BackwardsCompatibility/Checker/AbstractChecker.php:178-179 | splitting a signature at `, ` and joining the pieces gives back the signature; the result is empty exactly when the signature is empty or `"0"` |
| AbstractChecker.IsParamSignatureCompatible | src/CodeInsight/BackwardsCompatibility/Checker/AbstractChecker.php:172-210 | the compatibility rule as written; an unchanged signature is compatible |
| AbstractChecker.IsParamSignatureCompatibleFixed | src/CodeInsight/BackwardsCompatibility/Checker/AbstractChecker.php:172-210 | the compatibility rule with the prefix compared parameter by parameter; an unchanged signature is compatible |
| AbstractChecker.AsWrittenImpliesFixed | src/CodeInsight/BackwardsCompatibility/Checker/AbstractChecker.php:182-190 | whatever the rule as written accepts, the corrected rule accepts too |
| AbstractChecker.SortByType | src/CodeInsight/BackwardsCompatibility/Checker/AbstractChecker.php:100-110 | the comparison returns -1, 0 or 1; it returns 0 exactly when both types have the same sort key; with no sort table every pair ties |
| AbstractChecker.SortByTypeAntisymmetric | src/CodeInsight/BackwardsCompatibility/Checker/AbstractChecker.php:100-110 | swapping the two incidents negates the comparison, provided no sort key is 0 |
| AbstractChecker.TypeLeTotalPreorder | src/CodeInsight/BackwardsCompatibility/Checker/AbstractChecker.php:100-110 | "sorts no later than" under the type comparison is total and transitive, so the sort is well defined |
| AbstractChecker.SortIncidents | src/CodeInsight/BackwardsCompatibility/Checker/AbstractChecker.php:80-90 | `check` returns a permutation of the collected incidents in which neighbours are in type order |
| AbstractChecker.SortIncidentsKeepsOrder | src/CodeInsight/BackwardsCompatibility/Checker/AbstractChecker.php:53 | with the empty sort table every checker has, sorting keeps the order in which incidents were found |
| SignatureProofs.SplitImplode | src/CodeInsight/BackwardsCompatibility/Checker/AbstractChecker.php:178-179 | joining comma-free, non-empty parameter texts and splitting them again gives back the same list |
| SignatureProofs.AsWrittenOnTokens | src/CodeInsight/BackwardsCompatibility/Checker/AbstractChecker.php:172-210 | on well-formed parameter lists, the rule as written accepts exactly the unchanged lists and those its prefix and added-optional conditions accept |
| SignatureProofs.FixedOnTokens | src/CodeInsight/BackwardsCompatibility/Checker/AbstractChecker.php:172-210 | on well-formed parameter lists, the corrected rule accepts exactly the unchanged lists and those whose prefix agrees per parameter and whose added parameters are all optional |
| SignatureProofs.AddOptionalCompatible | src/CodeInsight/BackwardsCompatibility/Checker/AbstractChecker.php:192-209 | appending only parameters that have defaults keeps a signature compatible, under both rules |
| SignatureProofs.AddRequiredIncompatible | src/CodeInsight/BackwardsCompatibility/Checker/AbstractChecker.php:199-209 | appending any parameter without a default breaks compatibility, under both rules |
| SignatureProofs.FewerParametersIncompatible | src/CodeInsight/BackwardsCompatibility/Checker/AbstractChecker.php:182-190 | removing parameters breaks compatibility, under both rules |
| SignatureProofs.FirstParameterChanged | src/CodeInsight/BackwardsCompatibility/Checker/AbstractChecker.php:182-190 | changing the first parameter other than by adding a default to it breaks compatibility, under both rules |
| SignatureProofs.ParamToken | src/CodeInsight/BackwardsCompatibility/Checker/AbstractChecker.php:126-162 | a well-formed parameter's text contains `=` exactly when the parameter has a default value, and removing the default gives the text without it |
| SignatureProofs.TokensWellFormed | src/CodeInsight/BackwardsCompatibility/Checker/FunctionChecker.php:88-103 | a signature is the parameters' texts joined with `, `, and those texts are well-formed pieces |
| SignatureProofs.FixedAcceptsMadeOptional | src/CodeInsight/BackwardsCompatibility/Checker/AbstractChecker.php:182-209 | under the corrected rule, giving any existing parameters defaults and appending optional parameters is compatible |
| SignatureProofs.RequiredParameterAddedRejected | src/CodeInsight/BackwardsCompatibility/Checker/AbstractChecker.php:202-206 | appending parameters to a function, one of them without a default, is incompatible under both rules |
| SignatureProofs.AsWrittenRejectsMadeOptional | src/CodeInsight/BackwardsCompatibility/Checker/AbstractChecker.php:182-190 | the rule as written rejects giving a default to a parameter that precedes an optional one, and the corrected rule accepts it |
| SignatureProofs.AsWrittenRejectsExample | src/CodeInsight/BackwardsCompatibility/Checker/AbstractChecker.php:182-190 | `$a, $b = 1` changed to `$a = 0, $b = 1` is rejected as written and accepted by the corrected rule |
| SignatureProofs.FixtureArityChanges | tests/CodeInsight/BackwardsCompatibility/Checker/FunctionCheckerTest.php:39-56 | from no parameters to `$p1`, from `$p1` to none, and from `$p1` to `$p1, $p2` are all signature changes |
| SignatureProofs.FixtureReorderChange | tests/CodeInsight/BackwardsCompatibility/Checker/FunctionCheckerTest.php:33-38 | `$p1` changed to `$p2, $p1 = NULL` is a signature change |
| Snapshots.RelatedIds | src/CodeInsight/BackwardsCompatibility/Checker/ClassChecker.php:503-519 | the related class ids are exactly those of the class's relations, apart from the unresolved id 0, each listed once |
| Snapshots.RecursiveVisible | src/CodeInsight/BackwardsCompatibility/Checker/ClassChecker.php:359-388 | a recursive member lookup has a member of a given name exactly when the class or some class it relates to, transitively, declares one in the requested scopes |
| Snapshots.OwnRowsWin | src/CodeInsight/BackwardsCompatibility/Checker/ClassChecker.php:359-388 | a member the class declares itself shadows the same-named members of related classes |
| Snapshots.MergeRelatedKeeps | src/CodeInsight/BackwardsCompatibility/Checker/ClassChecker.php:375-381 | merging a related class's members never overwrites a name already collected |
| Snapshots.RecursiveRows | src/CodeInsight/BackwardsCompatibility/Checker/ClassChecker.php:359-388 | every member the lookup returns is a row of the table in the requested scopes |
| Snapshots.RecursiveDistinct | src/CodeInsight/BackwardsCompatibility/Checker/ClassChecker.php:359-388 | the lookup returns each member name at most once |
| Snapshots.ParametersOf | src/CodeInsight/BackwardsCompatibility/Checker/ClassChecker.php:398-413 | a callable's parameters are exactly its rows of the parameter table, ordered by position |
| ClassChecker.CoveredScopes | src/CodeInsight/BackwardsCompatibility/Checker/ClassChecker.php:485-493 | public members are always checked, private never, and protected members unless the class is final in both snapshots |
| ClassChecker.ScopeName | src/CodeInsight/BackwardsCompatibility/Checker/ClassChecker.php:469-478 | a scope has a name exactly when it is private, protected or public |
| ClassChecker.TargetMethodName | src/CodeInsight/BackwardsCompatibility/Checker/ClassChecker.php:314-322 | a method present in the target, or named neither like the class nor `__construct`, is looked up under its own name; a missing class-named constructor is looked up as `__construct` when the target has one; a missing `__construct` is always looked up under the class name; the name changes only when the method is missing |
| ClassChecker.ProcessProperty | src/CodeInsight/BackwardsCompatibility/Checker/ClassChecker.php:270-293 | a property made static, made non-static or reduced in scope is reported exactly when that change happened, with the scope names as old and new values; no other kind of incident is reported, at most three in all; an unchanged property reports nothing |
| ClassChecker.ProcessPropertyOrder | src/CodeInsight/BackwardsCompatibility/Checker/ClassChecker.php:277-292 | a property's incidents come in the order of its checks (static, non-static, scope), each at most once |
| ClassChecker.MethodModifierIncidents | src/CodeInsight/BackwardsCompatibility/Checker/ClassChecker.php:427-441 | a method made abstract, final, static or non-static is reported exactly when that flag changed in that direction |
| ClassChecker.MethodChangeIncidents | src/CodeInsight/BackwardsCompatibility/Checker/ClassChecker.php:443-459 | a method's signature change is reported exactly when the two signatures differ, and a scope reduction exactly when the scope shrank, each with old and new values |
| ClassChecker.ProcessMethod | src/CodeInsight/BackwardsCompatibility/Checker/ClassChecker.php:420-460 | every incident names `Class::method` and is one of the six kinds of the method checks (never `method.deleted`); an unchanged method reports nothing |
| ClassChecker.ProcessMethodOrder | src/CodeInsight/BackwardsCompatibility/Checker/ClassChecker.php:427-459 | a method's incidents come in the order of its checks (abstract, final, static, non-static, signature, scope), each at most once |
| ClassChecker.ProcessMethodIncidents | src/CodeInsight/BackwardsCompatibility/Checker/ClassChecker.php:420-460 | each kind of method incident is reported exactly when its change happened; a scope reduction is judged against the scope that the In-Portal conventions may have kept; no other kind is reported |
| ClassChecker.ConstantIncidents | src/CodeInsight/BackwardsCompatibility/Checker/ClassChecker.php:130-152 | a class constant is reported deleted exactly when the class declares it itself and the target class no longer has it |
| ClassChecker.PropertyIncidents | src/CodeInsight/BackwardsCompatibility/Checker/ClassChecker.php:195-223 | inherited properties are skipped; an own property missing from the target is reported deleted; otherwise the property's changes are reported |
| ClassChecker.MethodIncidents | src/CodeInsight/BackwardsCompatibility/Checker/ClassChecker.php:300-348 | inherited methods are skipped; an own method missing from the target, even under the other constructor spelling, is reported deleted; otherwise it is compared with the target method found under that name, each side's signature rendered from its own parameters |
| ClassChecker.ClassIncidents | src/CodeInsight/BackwardsCompatibility/Checker/ClassChecker.php:102-107 | a class missing from the target yields exactly one `class.deleted` and nothing else |
| ClassCheckerProofs.OwnMemberFound | src/CodeInsight/BackwardsCompatibility/Checker/ClassChecker.php:359-388 | a member a class declares itself is found under its name in the unfiltered lookup of that class |
| ClassCheckerProofs.ClassUnchanged | src/CodeInsight/BackwardsCompatibility/Checker/ClassChecker.php:130-348 | a class compared with itself reports no constant, property or method incident |
| ClassCheckerProofs.DoCheckIdentity | src/CodeInsight/BackwardsCompatibility/Checker/ClassChecker.php:95-123 | a snapshot compared with itself reports nothing, under either dialect |
| ClassCheckerProofs.MemberIncidentsCategory | src/CodeInsight/BackwardsCompatibility/Checker/ClassChecker.php:119-121 | constant, property and method processing each report only incidents of their own category |
| ClassCheckerProofs.ClassDeletedExactly | src/CodeInsight/BackwardsCompatibility/Checker/ClassChecker.php:95-123 | `class.deleted` is reported for a name exactly when the source has the class and the target does not |
| ClassCheckerProofs.ClassChangesAbstract | src/CodeInsight/BackwardsCompatibility/Checker/ClassChecker.php:111-113 | a class on both sides yields `class.made_abstract` exactly when it was not abstract and now is |
| ClassCheckerProofs.ClassChangesFinal | src/CodeInsight/BackwardsCompatibility/Checker/ClassChecker.php:115-117 | a class on both sides yields `class.made_final` exactly when it was not final and now is |
| ClassCheckerProofs.ClassChangesOrder | src/CodeInsight/BackwardsCompatibility/Checker/ClassChecker.php:111-121 | a class's incidents come in the order of its checks: made abstract, made final, then its constants, properties and methods |
| ClassCheckerProofs.ClassMadeAbstractExactly | src/CodeInsight/BackwardsCompatibility/Checker/ClassChecker.php:95-123 | `class.made_abstract` is reported for a name exactly when both snapshots have a class of that name, not abstract in the source and abstract in the target |
| ClassCheckerProofs.ClassMadeFinalExactly | src/CodeInsight/BackwardsCompatibility/Checker/ClassChecker.php:95-123 | `class.made_final` is reported for a name exactly when both snapshots have a class of that name, not final in the source and final in the target |
| ClassCheckerProofs.GenericScopeReduced | src/CodeInsight/BackwardsCompatibility/Checker/ClassChecker.php:452-459 | without the In-Portal conventions, a method scope reduction is reported exactly when the source scope is greater than the target scope |
| ClassCheckerProofs.EventScopeNeverReduced | src/CodeInsight/BackwardsCompatibility/Checker/InPortalClassChecker.php:41-43 | an event handler's events and its `mapPermissions`/`SetCustomQuery` methods never report a scope reduction |
| ClassCheckerProofs.TagScopeNeverReduced | src/CodeInsight/BackwardsCompatibility/Checker/InPortalClassChecker.php:45-47 | a tag processor's `array $params` methods never report a scope reduction |
| InPortal.NormalizeToken | src/CodeInsight/BackwardsCompatibility/Checker/InPortalClassChecker.php:59-74 | outside event handlers and tag processors, and for texts without `$`, the parameter text is unchanged; what it does to the event spellings is stated by InPortal.NormalizeSplit, InPortal.EventHeadNormalized and InPortalProofs.EventParameterRendering |
| InPortal.EffectiveTargetScope | src/CodeInsight/BackwardsCompatibility/Checker/InPortalClassChecker.php:39-50 | events and scope-ignored methods of event handlers, and tag processor methods taking `array $params`, are compared against their own source scope; every other method against its target scope |
| InPortal.ScopeKeptOutsideConventions | src/CodeInsight/BackwardsCompatibility/Checker/InPortalClassChecker.php:79-96 | in a class that is neither an event handler nor a tag processor, the target scope is used as is |
| InPortal.EventParameterSpellings | src/CodeInsight/BackwardsCompatibility/Checker/InPortalClassChecker.php:63-67 | in an event handler, `&$event`, `kEvent $event` and `\kEvent $event` all read as `$event` |
| InPortal.NormalizeSplit | src/CodeInsight/BackwardsCompatibility/Checker/InPortalClassChecker.php:63-67 | in an event handler, the ` = default` part of a parameter text is normalised separately from what precedes it: no event spelling spans the ` =` |
| InPortal.EventHeadNormalized | src/CodeInsight/BackwardsCompatibility/Checker/InPortalClassChecker.php:63-67 | each of the six spellings of the event parameter (untyped, `kEvent` or `\kEvent`; by value or by reference) reads as `$event` |
| InPortalProofs.EventParameterRendering | src/CodeInsight/BackwardsCompatibility/Checker/InPortalClassChecker.php:59-74 | in an event handler, every spelling of the event parameter renders as `$event`, followed by its default part when it has one, so `kEvent $event = NULL` renders as `$event = NULL` |
| InPortalProofs.SpellingsSameSignature | src/CodeInsight/BackwardsCompatibility/Checker/InPortalClassChecker.php:59-74 | two parameter lists that differ only in how the event parameter is spelled have the same In-Portal signature |
| InPortalProofs.SpellingChangeNotReported | src/CodeInsight/BackwardsCompatibility/Checker/ClassChecker.php:443-450 | an event handler method whose parameters changed only in the spelling of the event parameter is not reported as `method.signature_changed` |
| InPortal.TagParameterSpellings | src/CodeInsight/BackwardsCompatibility/Checker/InPortalClassChecker.php:68-71 | in a tag processor, `$params` and `array $params` both read as `array $params` |
| FunctionChecker.ProcessFunction | src/CodeInsight/BackwardsCompatibility/Checker/FunctionChecker.php:110-125 | a function's signature change is reported, with old and new signatures, exactly when the new signature is not compatible with the old one under the chosen rule; the checker itself uses the rule as written |
| FunctionChecker.FunctionIncidents | src/CodeInsight/BackwardsCompatibility/Checker/FunctionChecker.php:58-77 | a function missing from the target yields `function.deleted`; each source function yields at most one incident, which names the function and is in the function category |
| FunctionChecker.SignatureOf | src/CodeInsight/BackwardsCompatibility/Checker/FunctionChecker.php:88-103 | a name has a signature exactly when the snapshot has a function of that name |
| FunctionChecker.FunctionIncidentsMeaning | src/CodeInsight/BackwardsCompatibility/Checker/FunctionChecker.php:51-78 | each incident for a source function is either its deletion, when the target lacks it, or an incompatible signature change carrying both signatures |
| FunctionChecker.DoCheckMeaning | src/CodeInsight/BackwardsCompatibility/Checker/FunctionChecker.php:51-78 | every reported incident names a source function, and is a deletion exactly when the target lacks that function |
| FunctionChecker.FunctionDeletedExactly | src/CodeInsight/BackwardsCompatibility/Checker/FunctionChecker.php:51-78 | `function.deleted` is reported for a name exactly when the source has the function and the target does not |
| FunctionChecker.SignatureChangedExactly | src/CodeInsight/BackwardsCompatibility/Checker/FunctionChecker.php:51-78 | `function.signature_changed` is reported for a name exactly when both snapshots have the function and the new signature is not compatible with the old |
| FunctionChecker.DoCheckIdentity | src/CodeInsight/BackwardsCompatibility/Checker/FunctionChecker.php:51-78 | a snapshot compared with itself reports no function incident |
| FunctionChecker.SignatureChangedAsWritten | src/CodeInsight/BackwardsCompatibility/Checker/FunctionChecker.php:51-78 | the checker as written reports `function.signature_changed` for a name exactly when both snapshots have the function and the compatibility rule as written rejects the new signature |
| FunctionChecker.FixedReportsLess | src/CodeInsight/BackwardsCompatibility/Checker/FunctionChecker.php:110-125 | every incident the checker with the corrected rule reports, the checker as written reports too |
| FunctionChecker.FindingReported | src/CodeInsight/BackwardsCompatibility/Checker/FunctionChecker.php:117-124 | old `$a, $b = 1` and new `$a = 0, $b = 1` yield a signature change as written and none under the corrected rule |
| ConstantChecker.ConstantIncidents | src/CodeInsight/BackwardsCompatibility/Checker/ConstantChecker.php:41-46 | a constant is reported deleted exactly when the target's constant list lacks its name |
| ConstantChecker.Missing | src/CodeInsight/BackwardsCompatibility/Checker/ConstantChecker.php:34-47 | the missing names are exactly the source names absent from the target |
| ConstantChecker.IncidentsAreMissing | src/CodeInsight/BackwardsCompatibility/Checker/ConstantChecker.php:34-47 | the checker reports one `constant.deleted` per missing source name, in source order, repeats included |
| ConstantChecker.ConstantDeletedExactly | src/CodeInsight/BackwardsCompatibility/Checker/ConstantChecker.php:34-47 | `constant.deleted` is reported for a name exactly when the source declares it and the target does not |
| ConstantChecker.DoCheckIdentity | src/CodeInsight/BackwardsCompatibility/Checker/ConstantChecker.php:34-47 | a snapshot compared with itself reports no constant incident |
| BreakFilter.IsMatching | src/CodeInsight/BackwardsCompatibility/BreakFilter.php:46-77 | an incident matches exactly when some rule agrees with it on every field the rule sets; the old and new fields must be present to agree; with no rules nothing matches |
| BreakFilter.RemoveMatching | src/CodeInsight/BackwardsCompatibility/BreakFilter.php:25-36 | the result holds exactly the incidents that no rule matches |
| BreakFilter.KeptIsSubsequence | src/CodeInsight/BackwardsCompatibility/BreakFilter.php:25-36 | removing matches keeps the remaining incidents in their original order |
| BreakFilter.KeptConcat | src/CodeInsight/BackwardsCompatibility/BreakFilter.php:25-36 | filtering a concatenation filters each part |
| BreakFilter.MatchingConcat | src/CodeInsight/BackwardsCompatibility/BreakFilter.php:52-74 | a joined rule list matches an incident exactly when one of the two lists does |
| BreakFilter.KeptTwice | src/CodeInsight/BackwardsCompatibility/BreakFilter.php:25-36 | filtering with one rule list and then another equals filtering once with both lists |
| BreakFilter.KeptIdempotent | src/CodeInsight/BackwardsCompatibility/BreakFilter.php:25-36 | filtering twice with the same rules changes nothing more |
| BreakFilter.NoRulesKeepAll | tests/CodeInsight/BackwardsCompatibility/BreakFilterTest.php:105-115 | with no rules every incident is kept |
| BreakFilter.TypeOnly | tests/CodeInsight/BackwardsCompatibility/BreakFilterTest.php:54-62 | a rule naming only a type removes every incident of that type |
| BreakFilter.ElementOnly | tests/CodeInsight/BackwardsCompatibility/BreakFilterTest.php:63-71 | a rule naming only an element removes every incident about that element |
| BreakFilter.TypeAndElement | tests/CodeInsight/BackwardsCompatibility/BreakFilterTest.php:72-81 | a rule naming a type and an element removes only incidents with both |
| BreakFilter.FullRule | tests/CodeInsight/BackwardsCompatibility/BreakFilterTest.php:82-92 | a rule naming all four fields removes only the incident that agrees on all four |
| BreakFilter.FullRuleMismatch | tests/CodeInsight/BackwardsCompatibility/BreakFilterTest.php:93-104 | a four-field rule whose old and new values belong to different incidents removes nothing |
| Registry.Add | src/CodeInsight/BackwardsCompatibility/CheckerFactory.php:32-43 | adding fails with the "already added" message exactly when the name is taken; otherwise the name is appended and maps to the entry |
| Registry.Get | src/CodeInsight/BackwardsCompatibility/CheckerFactory.php:53-62 | lookup succeeds exactly when the name was added and returns that entry; otherwise it fails with the "not found" message |
| Registry.Names | src/CodeInsight/BackwardsCompatibility/Reporter/ReporterFactory.php:69-72 | the listed names are exactly the registered ones |
| Registry.GetAfterAdd | src/CodeInsight/BackwardsCompatibility/Reporter/ReporterFactory.php:32-62 | what was added is found under its name, and other names are unaffected |
| Registry.AddTwiceFails | src/CodeInsight/BackwardsCompatibility/Reporter/ReporterFactory.php:34-42 | a second add under the same name fails |
| Checkers.NameInjective | src/CodeInsight/BackwardsCompatibility/Checker/InPortalClassChecker.php:29-32 | the four checkers have four distinct names |
| Checkers.Check | src/CodeInsight/BackwardsCompatibility/Checker/AbstractChecker.php:80-90 | `check` returns exactly the incidents the checker collected |
| Checkers.CheckKeepsOrder | src/CodeInsight/BackwardsCompatibility/Checker/AbstractChecker.php:80-90 | for every registered checker, `check` returns the incidents in the order they were found |
| Checkers.CheckIdentity | src/CodeInsight/BackwardsCompatibility/Checker/AbstractChecker.php:80-90 | any checker comparing a snapshot with itself reports nothing |
| Registry.AddAll | src/CodeInsight/Container.php:72-83 | a sequence of successful registrations appends the entries' names in registration order |
| Registry.AddAllKeeps | src/CodeInsight/BackwardsCompatibility/CheckerFactory.php:32-43 | later registrations never replace or remove an entry already registered |
| Registry.AddAllDistinct | src/CodeInsight/BackwardsCompatibility/CheckerFactory.php:32-62 | registering entries whose names are pairwise distinct and not yet taken succeeds, keeps the registry well formed, and each entry is found under its own name |
| Checkers.ReporterNameInjective | src/CodeInsight/BackwardsCompatibility/Reporter/TextReporter.php:22-25 | the text, html and json reporters have three distinct names |
| Checkers.DefaultCheckersRegistered | src/CodeInsight/Container.php:72-83 | the start-up registration of the class, function, constant and In-Portal class checkers succeeds, and each is found under its name |
| Checkers.DefaultReportersRegistered | src/CodeInsight/Container.php:85-92 | the start-up registration of the text, html and json reporters succeeds, `getNames` lists them in that order, and each is found under its name |
| Reporter.GroupByTypeFind | src/CodeInsight/BackwardsCompatibility/Reporter/AbstractReporter.php:40-55 | a type has a group exactly when some incident has that type; the group holds exactly those incidents, in input order |
| Reporter.GroupByTypeDistinct | src/CodeInsight/BackwardsCompatibility/Reporter/AbstractReporter.php:40-55 | each type has at most one group |
| Reporter.GroupByTypeSize | src/CodeInsight/BackwardsCompatibility/Reporter/AbstractReporter.php:40-55 | the groups together hold exactly as many incidents as the input |
| Reporter.GroupByTypeOrder | src/CodeInsight/BackwardsCompatibility/Reporter/AbstractReporter.php:40-55 | groups appear in the order their types first occur in the input |
| Reporter.SortByElementCallback | src/CodeInsight/BackwardsCompatibility/Reporter/AbstractReporter.php:79-82 | the comparison returns -1, 0 or 1, and 0 exactly when the elements are equal |
| Reporter.SortByElementCallbackAntisymmetric | src/CodeInsight/BackwardsCompatibility/Reporter/AbstractReporter.php:79-82 | swapping the two incidents negates the comparison |
| Reporter.ElementLeTotalPreorder | src/CodeInsight/BackwardsCompatibility/Reporter/AbstractReporter.php:79-82 | byte-wise element order is total and transitive |
| Reporter.SortByElement | src/CodeInsight/BackwardsCompatibility/Reporter/AbstractReporter.php:64-69 | the result is a permutation of the input sorted by element |
| Reporter.SortByElementStable | src/CodeInsight/BackwardsCompatibility/Reporter/AbstractReporter.php:64-69 | incidents with the same element keep their relative order |
| PhpStrings.ExplodeImplode | src/CodeInsight/BackwardsCompatibility/Checker/AbstractChecker.php:178-179 | `explode(', ', ...)` followed by `implode` gives back the string |
| PhpStrings.Strcmp | src/CodeInsight/BackwardsCompatibility/Reporter/AbstractReporter.php:81 | `strcmp` returns -1, 0 or 1, and 0 exactly when the strings are equal |
| PhpStrings.StrcmpAntisymmetric | src/CodeInsight/BackwardsCompatibility/Reporter/AbstractReporter.php:81 | swapping the two arguments of `strcmp` negates the result |
| Assoc.FetchAssocDistinct | src/CodeInsight/BackwardsCompatibility/Checker/ClassChecker.php:99-100 | `fetchAssoc` keeps each key once |
| Assoc.FetchAssocLast | src/CodeInsight/BackwardsCompatibility/Checker/ClassChecker.php:99-100 | under each key `fetchAssoc` holds the last row that has that key |

## Left out

- The knowledge-base database, its SQL and the result cache. `getCacheKey`, the caching around every lookup and `CACHE_DURATION` are not modelled: the model assumes every cached value equals a fresh query of the current knowledge base. That holds for the in-memory `array` cache alone. The configured `ChainCache` (src/CodeInsight/Container.php:98-105) may include a persistent provider such as apc or memcache. Its entries are keyed only by database and class id (AbstractChecker.php:261-264) and live for 3600 seconds (ClassChecker.php:20). Nothing invalidates them when the knowledge base is re-synced (the TODO at ClassChecker.php:183). So for up to an hour after a re-sync the program can compare stale member and relation lists, and lemmas such as `ClassCheckerProofs.ClassDeletedExactly` and `Checkers.CheckIdentity` describe the fresh-query behaviour only.
- `decodeValue` (`var_export(json_decode(...))` followed by whitespace clean-up) is a function parameter `decode`. PHP's JSON decoding and `var_export` are not modelled.
- `in_array` in the constant checker and in `ignoreScopeChange` uses PHP's loose comparison. The model compares strings exactly, which is the same for the names involved except numeric-looking strings such as `"1"` and `"01"`.
- PHP arrays turn numeric-string keys into integer keys. The model keeps every key as a string.
- `usort` in PHP before 8.0 is not stable. The model sorts stably, as PHP 8 does.
- AbstractChecker.SortIncidents: requires that no sort key is 0. PHP compares `null` with `0` as equal, which would make the comparison non-transitive. No checker declares a sort table, so this does not restrict any actual checker.
- The class hierarchy in a snapshot is assumed acyclic: a ghost rank on class ids decreases along relations. PHP rejects cyclic inheritance, so a real knowledge base never has a cycle. A cycle would make `getConstantsRecursively` and its siblings recurse without end.
- SignatureProofs: the signature lemmas assume parameters whose type, name and decoded default contain no `,`, and whose type and name contain no `=`. A default such as `array(1, 2)` contains `, ` and splits into several pieces in the source as well. The lemmas do not describe that case.
- AbstractChecker.IsParamSignatureCompatible: tests whether an added parameter is optional by looking for `=` in its text, as the code does. A stricter description would look for ` = `. The two differ only for parameter texts that contain `=` in another place, which the renderer never produces.
- The reporters' `generate` (text, HTML and JSON output) is not modelled: it only formats output. Each reporter is reduced to its name.
- AbstractChecker.SortIncidents: the incident list the PHP checker keeps (`$_incidents`, AbstractChecker.php:46, 87-89, 250) is never cleared, so a second `check` on the same checker object returns the earlier incidents again. The model is pure: each check starts from no incidents. The command calls `check` once per checker (BackwardsCompatibilityCommand.php:147-148), where the two agree.
- AbstractChecker.SortByType: `typeSorting` is empty in every checker, so `sortByType` reads missing keys (AbstractChecker.php:102-103). PHP 8 raises an "Undefined array key" warning on every comparison and uses `null`. The model reads a missing key as `null` and does not model the warning.
- The `BackwardsCompatibilityCommand` wiring (reading rule files, choosing a reporter, console output) and the data collectors that fill the knowledge base are not part of this model.

## Findings

| source | as written | input that shows it | evidently intended | confidence | as-written member | corrected member |
|---|---|---|---|---|---|---|
| src/CodeInsight/BackwardsCompatibility/Checker/AbstractChecker.php:182-190 | the target's prefix is compared with the source either unchanged or with ALL defaults removed at once, so a prefix in which only some parameters gained defaults, while others already had defaults, matches neither form | old `$a, $b = 1`, new `$a = 0, $b = 1`: the raw prefix differs, and the stripped prefix `$a, $b` differs from the source's `$a, $b = 1` | each parameter of the prefix is either unchanged or the same parameter with a default added, so making `$a` optional is compatible, as the comment on line 186 says | medium, not executed | SignatureProofs.AsWrittenRejectsExample, FunctionChecker.FindingReported | AbstractChecker.IsParamSignatureCompatibleFixed, used by FunctionChecker.DoCheckFixed (FunctionChecker.FixedReportsLess) |

=== FILE: abstract_checker.dfy ===
/**
 * The shared machinery of every checker: rendering a parameter row as text,
 * the parameter-signature compatibility rule, incident construction and the
 * final sort of a checker's incidents by type.
 */
module AbstractChecker {
  import opened Wrappers
  import opened PhpStrings
  import opened Sequences
  import opened Snapshots
  import opened Incidents

  /** The type text of a parameter: declared type, else `array`, else `callable`, else the class hint. */
  function TypeOf(p: Parameter): string {
    if p.HasType then p.TypeName
    else if p.IsArray then "array"
    else if p.IsCallable then "callable"
    else p.TypeClass
  }

  /**
   * The text after ` = ` for a parameter with a default: the default
   * constant's name when it is truthy, otherwise the decoded default value.
   * `decode` stands for `decodeValue` (JSON decode, then `var_export`).
   */
  function DefaultText(p: Parameter, decode: string -> string): string {
    if Truthy(p.DefaultConstant) then p.DefaultConstant else decode(p.DefaultValue)
  }

  /** The rendering of a parameter without its default: `[type ][&]$name`. */
  function ParamHead(p: Parameter): (h: string)
    ensures '$' in h
    ensures EndsWith(h, "$" + p.Name)
    ensures Truthy(TypeOf(p)) ==> StartsWith(h, TypeOf(p) + " ")
    ensures '=' !in TypeOf(p) && '=' !in p.Name ==> '=' !in h
  {
    var t := TypeOf(p);
    var prefix := if Truthy(t) then t + " " else "";
    var sigil := if p.IsPassedByReference then "&$" else "$";
    var h := prefix + sigil + p.Name;
    assert h[|prefix| + |sigil| - 1] == '$';
    assert h[|h| - |p.Name| - 1..] == "$" + p.Name;
    assert h[..|prefix|] == prefix;
    h
  }

  /** `paramToString`: `[type ][&]$name[ = default]`. */
  function ParamToString(p: Parameter, decode: string -> string): (r: string)
    ensures '$' in r
    ensures p.HasDefaultValue ==> '=' in r
    ensures '=' !in TypeOf(p) && '=' !in p.Name ==> ('=' in r <==> p.HasDefaultValue)
    ensures !p.HasDefaultValue ==> EndsWith(r, "$" + p.Name)
    ensures Truthy(TypeOf(p)) ==> StartsWith(r, TypeOf(p) + " ")
  {
    var head := ParamHead(p);
    if p.HasDefaultValue then
      var tail := " = " + DefaultText(p, decode);
      var r := head + tail;
      assert r[|head| + 1] == '=';
      StartsWithAppend(head, tail, if Truthy(TypeOf(p)) then TypeOf(p) + " " else "");
      r
    else head
  }

  /** A signature as a list of rendered parameters: `$sig ? explode(', ', $sig) : array()`. */
  function Split(sig: string): (r: seq<string>)
    ensures r == [] <==> !Truthy(sig)
    ensures Implode(r) == (if Truthy(sig) then sig else "")
  {
    if Truthy(sig) then Explode(sig) else []
  }

  /** Drops characters up to (not including) the next comma: the `[^,]*` of the default pattern. */
  function DropToComma(u: string): (r: string)
    ensures |r| <= |u| && r == u[|u| - |r|..]
    ensures |r| > 0 ==> r[0] == ','
    decreases |u|
  {
    if |u| == 0 || u[0] == ',' then u else DropToComma(u[1..])
  }

  /**
   * `preg_replace` with the pattern ` = [^,]*` and an empty replacement:
   * every non-overlapping match of ` = ` followed by the longest run of
   * non-comma characters is removed, scanning left to right.
   */
  function StripDefaults(t: string): (r: string)
    ensures |r| <= |t|
    ensures '=' !in t ==> r == t
    decreases |t|
  {
    if |t| == 0 then ""
    else if StartsWith(t, " = ") then
      assert t[1] == '=';
      StripDefaults(DropToComma(t[3..]))
    else
      var rest := StripDefaults(t[1..]);
      assert '=' !in t ==> '=' !in t[1..];
      assert t == [t[0]] + t[1..];
      [t[0]] + rest
  }

  function StripAll(ts: seq<string>): (r: seq<string>)
    ensures |r| == |ts|
    ensures forall i :: 0 <= i < |ts| ==> r[i] == StripDefaults(ts[i])
  {
    seq(|ts|, i requires 0 <= i < |ts| => StripDefaults(ts[i]))
  }

  /** PHP `array_slice(a, 0, n)` for `n >= 0`. */
  function Take<T>(a: seq<T>, n: nat): (r: seq<T>)
    ensures |r| <= n && |r| <= |a|
    ensures |r| == if n <= |a| then n else |a|
    ensures r == a[..|r|]
  {
    if n <= |a| then a[..n] else a
  }

  /**
   * `isParamSignatureCompatible`, as written: a target is compatible when it
   * equals the source, or when its first parameters match the source's either
   * verbatim or all with their defaults removed, and every parameter it adds
   * carries an `=`.
   */
  function IsParamSignatureCompatible(source: string, target: string): (r: bool)
    ensures source == target ==> r
  {
    if source == target then true
    else
      var s := Split(source);
      var t := Split(target);
      var n := |s|;
      if s != Take(t, n) && s != Take(StripAll(t), n) then false
      else
        var added := t[|Take(t, n)|..];
        forall i :: 0 <= i < |added| ==> '=' in added[i]
  }

  /**
   * The compatibility rule as its comment describes it, decided parameter by
   * parameter: each source parameter must reappear at its position either
   * verbatim or with a default added, and every added parameter must have a
   * default.
   */
  function IsParamSignatureCompatibleFixed(source: string, target: string): (r: bool)
    ensures source == target ==> r
  {
    if source == target then true
    else CompatibleTokens(Split(source), Split(target))
  }

  /** Token-level reading of the fixed rule. */
  predicate CompatibleTokens(s: seq<string>, t: seq<string>) {
    && |s| <= |t|
    && (forall i :: 0 <= i < |s| ==> s[i] == t[i] || s[i] == StripDefaults(t[i]))
    && (forall i :: |s| <= i < |t| ==> '=' in t[i])
  }

  /** Token-level reading of the rule as written. */
  predicate CompatibleTokensAsWritten(s: seq<string>, t: seq<string>) {
    && |s| <= |t|
    && (s == t[..|s|] || s == StripAll(t)[..|s|])
    && (forall i :: |s| <= i < |t| ==> '=' in t[i])
  }

  /** Deciding on tokens is what `isParamSignatureCompatible` does. */
  lemma CompatibleAsWrittenTokens(source: string, target: string)
    ensures IsParamSignatureCompatible(source, target)
      <==> source == target || CompatibleTokensAsWritten(Split(source), Split(target))
  {
    PrefixTestsOnTokens(Split(source), Split(target));
  }

  /** The prefix tests and the `added` tail of `isParamSignatureCompatible`, on any token lists. */
  lemma PrefixTestsOnTokens(s: seq<string>, t: seq<string>)
    ensures (s == Take(t, |s|) || s == Take(StripAll(t), |s|))
        && (forall i :: 0 <= i < |t[|Take(t, |s|)|..]| ==> '=' in t[|Take(t, |s|)|..][i])
      <==> CompatibleTokensAsWritten(s, t)
  {
    if |s| <= |t| && (s == Take(t, |s|) || s == Take(StripAll(t), |s|)) {
      var added := t[|s|..];
      assert forall i :: |s| <= i < |t| ==> t[i] == added[i - |s|];
      assert forall i :: 0 <= i < |added| ==> added[i] == t[i + |s|];
    }
  }

  /** The fixed rule accepts everything the rule as written accepts. */
  lemma AsWrittenImpliesFixed(source: string, target: string)
    ensures IsParamSignatureCompatible(source, target) ==> IsParamSignatureCompatibleFixed(source, target)
  {
    CompatibleAsWrittenTokens(source, target);
    var s := Split(source);
    var t := Split(target);
    if source != target && CompatibleTokensAsWritten(s, t) {
      forall i | 0 <= i < |s|
        ensures s[i] == t[i] || s[i] == StripDefaults(t[i])
      {
        if s == t[..|s|] {
          assert s[i] == t[..|s|][i];
        } else {
          assert s[i] == StripAll(t)[..|s|][i];
        }
      }
    }
  }

  /** `getFunctionParameterSignature` / `getMethodParameterSignature`: rendered parameters joined by `, `. */
  function Signature(params: seq<Parameter>, render: Parameter -> string): (r: string)
    ensures |params| == 0 ==> r == ""
  {
    Implode(seq(|params|, i requires 0 <= i < |params| => render(params[i])))
  }

  // ---------------------------------------------------------------------
  // Sorting a checker's incidents by type
  // ---------------------------------------------------------------------

  /**
   * `typeSorting[type]`; a missing entry reads as PHP `null`. No checker
   * declares any entry.
   */
  const TypeSorting: map<string, int> := map[]

  function SortKey(table: map<string, int>, t: string): Option<int> {
    if t in table then Some(table[t]) else None
  }

  /**
   * PHP 8 `$a > $b` on two sort keys: two integers compare numerically; a
   * `null` compares as a boolean against the other side, read as a boolean.
   */
  predicate KeyGreater(a: Option<int>, b: Option<int>) {
    match (a, b)
    case (Some(x), Some(y)) => x > y
    case (Some(x), None) => x != 0
    case (None, _) => false
  }

  /** `sortByType`: 0 for identical keys, otherwise 1 or -1 as the keys compare. */
  function SortByType(table: map<string, int>, a: Incident, b: Incident): (r: int)
    ensures -1 <= r <= 1
    ensures r == 0 <==> SortKey(table, TypeName(a.Type)) == SortKey(table, TypeName(b.Type))
    ensures table == map[] ==> r == 0
  {
    var ka := SortKey(table, TypeName(a.Type));
    var kb := SortKey(table, TypeName(b.Type));
    if ka == kb then 0 else if KeyGreater(ka, kb) then 1 else -1
  }

  /** No type is mapped to 0, the one key PHP cannot order against `null`. */
  predicate NoZeroKeys(table: map<string, int>) {
    forall t :: t in table ==> table[t] != 0
  }

  /** Without a zero key, swapping the incidents flips the comparison. */
  lemma SortByTypeAntisymmetric(table: map<string, int>, a: Incident, b: Incident)
    requires NoZeroKeys(table)
    ensures SortByType(table, a, b) == -SortByType(table, b, a)
  {
  }

  function TypeLe(table: map<string, int>): (Incident, Incident) -> bool {
    (a, b) => SortByType(table, a, b) <= 0
  }

  lemma TypeLeTotalPreorder(table: map<string, int>)
    requires NoZeroKeys(table)
    ensures TotalPreorder(TypeLe(table))
  {
  }

  /** `usort($incidents, sortByType)`; the sort is stable. */
  function SortIncidents(table: map<string, int>, incidents: seq<Incident>): (r: seq<Incident>)
    requires NoZeroKeys(table)
    ensures multiset(r) == multiset(incidents)
    ensures forall i :: 0 <= i < |r| - 1 ==> SortByType(table, r[i], r[i + 1]) <= 0
  {
    TypeLeTotalPreorder(table);
    SortBy(incidents, TypeLe(table))
  }

  /** With the empty sort table every pair ties, so `check` returns incidents in the order they were added. */
  lemma SortIncidentsKeepsOrder(incidents: seq<Incident>)
    ensures SortIncidents(TypeSorting, incidents) == incidents
  {
    TypeLeTotalPreorder(TypeSorting);
    SortByAllTied(incidents, TypeLe(TypeSorting));
  }
}

=== FILE: assoc.dfy ===
/**
 * PHP associative arrays keyed by a row's name, as the checkers build them with
 * `fetchAssoc` and extend them with "add when the key is absent". An
 * associative array is a sequence of rows with pairwise distinct keys; its
 * order is PHP's insertion order.
 */
module Assoc {
  import opened Wrappers

  /** PHP `isset($a[$k])` / `array_key_exists($k, $a)` for arrays whose values are rows. */
  predicate HasKey<T>(a: seq<T>, key: T -> string, k: string)
    decreases |a|
  {
    |a| > 0 && (key(a[0]) == k || HasKey(a[1..], key, k))
  }

  /** No two rows share a key. */
  predicate DistinctKeys<T>(a: seq<T>, key: T -> string)
    decreases |a|
  {
    |a| == 0 || (!HasKey(a[1..], key, key(a[0])) && DistinctKeys(a[1..], key))
  }

  /** PHP `$a[$k]`: the row stored under `k`, if any. */
  function Find<T>(a: seq<T>, key: T -> string, k: string): (r: Option<T>)
    ensures r.Some? <==> HasKey(a, key, k)
    ensures r.Some? ==> key(r.value) == k
    decreases |a|
  {
    if |a| == 0 then None
    else if key(a[0]) == k then Some(a[0])
    else Find(a[1..], key, k)
  }

  lemma {:induction false} FindIn<T>(a: seq<T>, key: T -> string, k: string)
    requires HasKey(a, key, k)
    ensures Find(a, key, k).value in a
    decreases |a|
  {
    if key(a[0]) != k {
      FindIn(a[1..], key, k);
    }
  }

  lemma {:induction false} HasKeyIndex<T>(a: seq<T>, key: T -> string, i: int)
    requires 0 <= i < |a|
    ensures HasKey(a, key, key(a[i]))
    decreases i
  {
    if i > 0 {
      assert a[1..][i - 1] == a[i];
      HasKeyIndex(a[1..], key, i - 1);
    }
  }

  lemma {:induction false} HasKeyConcat<T>(a: seq<T>, b: seq<T>, key: T -> string, k: string)
    ensures HasKey(a + b, key, k) <==> HasKey(a, key, k) || HasKey(b, key, k)
    ensures !HasKey(a, key, k) ==> Find(a + b, key, k) == Find(b, key, k)
    ensures HasKey(a, key, k) ==> Find(a + b, key, k) == Find(a, key, k)
    decreases |a|
  {
    if |a| > 0 {
      assert (a + b)[1..] == a[1..] + b;
      HasKeyConcat(a[1..], b, key, k);
    } else {
      assert a + b == b;
    }
  }

  lemma HasKeyMember<T>(a: seq<T>, key: T -> string, x: T)
    requires x in a
    ensures HasKey(a, key, key(x))
  {
    var i :| 0 <= i < |a| && a[i] == x;
    HasKeyIndex(a, key, i);
  }

  /** In an array with distinct keys, every row is the one found under its key. */
  lemma {:induction false} FindDistinct<T>(a: seq<T>, key: T -> string, i: int)
    requires DistinctKeys(a, key)
    requires 0 <= i < |a|
    ensures Find(a, key, key(a[i])) == Some(a[i])
    decreases |a|
  {
    if i > 0 {
      assert a[1..][i - 1] == a[i];
      HasKeyIndex(a[1..], key, i - 1);
      FindDistinct(a[1..], key, i - 1);
    }
  }

  lemma FindMember<T>(a: seq<T>, key: T -> string, x: T)
    requires DistinctKeys(a, key) && x in a
    ensures Find(a, key, key(x)) == Some(x)
  {
    var i :| 0 <= i < |a| && a[i] == x;
    FindDistinct(a, key, i);
  }

  /** PHP `$a[key($x)] = $x`: overwrite in place when the key exists, otherwise append. */
  function Put<T>(a: seq<T>, key: T -> string, x: T): (r: seq<T>)
    decreases |a|
  {
    if |a| == 0 then [x]
    else if key(a[0]) == key(x) then [x] + a[1..]
    else [a[0]] + Put(a[1..], key, x)
  }

  lemma {:induction false} PutFind<T>(a: seq<T>, key: T -> string, x: T, k: string)
    ensures Find(Put(a, key, x), key, k) == if k == key(x) then Some(x) else Find(a, key, k)
    ensures HasKey(Put(a, key, x), key, k) <==> k == key(x) || HasKey(a, key, k)
    decreases |a|
  {
    if |a| > 0 && key(a[0]) != key(x) {
      PutFind(a[1..], key, x, k);
    } else if |a| > 0 {
      assert ([x] + a[1..])[1..] == a[1..];
    }
  }

  lemma {:induction false} PutDistinct<T>(a: seq<T>, key: T -> string, x: T)
    requires DistinctKeys(a, key)
    ensures DistinctKeys(Put(a, key, x), key)
    decreases |a|
  {
    if |a| > 0 {
      if key(a[0]) == key(x) {
        assert ([x] + a[1..])[1..] == a[1..];
      } else {
        PutDistinct(a[1..], key, x);
        PutFind(a[1..], key, x, key(a[0]));
        assert ([a[0]] + Put(a[1..], key, x))[1..] == Put(a[1..], key, x);
      }
    }
  }

  lemma {:induction false} PutFrom<T>(a: seq<T>, key: T -> string, x: T, y: T)
    requires y in Put(a, key, x)
    ensures y in a || y == x
    decreases |a|
  {
    if |a| > 0 && key(a[0]) != key(x) && y != a[0] {
      PutFrom(a[1..], key, x, y);
    }
  }

  /** The row `rows[i]` is the last row with its key. */
  predicate LastWithKey<T>(rows: seq<T>, key: T -> string, i: int)
    requires 0 <= i < |rows|
  {
    forall j :: i < j < |rows| ==> key(rows[j]) != key(rows[i])
  }

  /**
   * PHP `fetchAssoc`: the rows keyed by name, a key keeping the position of its
   * first row and the value of its last row.
   */
  function FetchAssoc<T>(rows: seq<T>, key: T -> string): (r: seq<T>)
    decreases |rows|
  {
    if |rows| == 0 then []
    else Put(FetchAssoc(rows[..|rows| - 1], key), key, rows[|rows| - 1])
  }

  lemma {:induction false} FetchAssocDistinct<T>(rows: seq<T>, key: T -> string)
    ensures DistinctKeys(FetchAssoc(rows, key), key)
    decreases |rows|
  {
    if |rows| > 0 {
      FetchAssocDistinct(rows[..|rows| - 1], key);
      PutDistinct(FetchAssoc(rows[..|rows| - 1], key), key, rows[|rows| - 1]);
    }
  }

  lemma {:induction false} FetchAssocHasKey<T>(rows: seq<T>, key: T -> string, k: string)
    ensures HasKey(FetchAssoc(rows, key), key, k) <==> HasKey(rows, key, k)
    decreases |rows|
  {
    if |rows| > 0 {
      var n := |rows| - 1;
      FetchAssocHasKey(rows[..n], key, k);
      PutFind(FetchAssoc(rows[..n], key), key, rows[n], k);
      assert rows == rows[..n] + [rows[n]];
      HasKeyConcat(rows[..n], [rows[n]], key, k);
    }
  }

  /** The value stored under a key is the last row carrying that key. */
  lemma {:induction false} FetchAssocLast<T>(rows: seq<T>, key: T -> string, i: int)
    requires 0 <= i < |rows| && LastWithKey(rows, key, i)
    ensures Find(FetchAssoc(rows, key), key, key(rows[i])) == Some(rows[i])
    decreases |rows|
  {
    var n := |rows| - 1;
    PutFind(FetchAssoc(rows[..n], key), key, rows[n], key(rows[i]));
    if i < n {
      assert rows[..n][i] == rows[i];
      assert LastWithKey(rows[..n], key, i) by {
        forall j | i < j < n
          ensures key(rows[..n][j]) != key(rows[..n][i])
        {
          assert rows[..n][j] == rows[j];
        }
      }
      FetchAssocLast(rows[..n], key, i);
    }
  }

  lemma {:induction false} FetchAssocFrom<T>(rows: seq<T>, key: T -> string, y: T)
    requires y in FetchAssoc(rows, key)
    ensures y in rows
    decreases |rows|
  {
    var n := |rows| - 1;
    PutFrom(FetchAssoc(rows[..n], key), key, rows[n], y);
    if y != rows[n] {
      FetchAssocFrom(rows[..n], key, y);
    }
  }

  /**
   * The inheritance merge of the recursive lookups: each row of `b`, in order,
   * is appended when its key is not yet present; rows already present win.
   */
  function MergeAbsent<T>(a: seq<T>, b: seq<T>, key: T -> string): (r: seq<T>)
    ensures |a| <= |r| && r[..|a|] == a
    decreases |b|
  {
    if |b| == 0 then a
    else
      var a' := if HasKey(a, key, key(b[0])) then a else a + [b[0]];
      var r := MergeAbsent(a', b[1..], key);
      assert r[..|a|] == r[..|a'|][..|a|];
      r
  }

  lemma {:induction false} MergeAbsentFind<T>(a: seq<T>, b: seq<T>, key: T -> string, k: string)
    ensures Find(MergeAbsent(a, b, key), key, k) == if HasKey(a, key, k) then Find(a, key, k) else Find(b, key, k)
    decreases |b|
  {
    if |b| > 0 {
      var a' := if HasKey(a, key, key(b[0])) then a else a + [b[0]];
      MergeAbsentFind(a', b[1..], key, k);
      HasKeyConcat(a, [b[0]], key, k);
    }
  }

  lemma {:induction false} MergeAbsentDistinct<T>(a: seq<T>, b: seq<T>, key: T -> string)
    requires DistinctKeys(a, key)
    ensures DistinctKeys(MergeAbsent(a, b, key), key)
    decreases |b|
  {
    if |b| > 0 {
      if !HasKey(a, key, key(b[0])) {
        AppendDistinct(a, key, b[0]);
      }
      var a' := if HasKey(a, key, key(b[0])) then a else a + [b[0]];
      MergeAbsentDistinct(a', b[1..], key);
    }
  }

  lemma {:induction false} AppendDistinct<T>(a: seq<T>, key: T -> string, x: T)
    requires DistinctKeys(a, key) && !HasKey(a, key, key(x))
    ensures DistinctKeys(a + [x], key)
    decreases |a|
  {
    if |a| > 0 {
      assert (a + [x])[1..] == a[1..] + [x];
      AppendDistinct(a[1..], key, x);
      HasKeyConcat(a[1..], [x], key, key(a[0]));
    }
  }

  lemma {:induction false} MergeAbsentFrom<T>(a: seq<T>, b: seq<T>, key: T -> string, y: T)
    requires y in MergeAbsent(a, b, key)
    ensures y in a || y in b
    decreases |b|
  {
    if |b| > 0 {
      var a' := if HasKey(a, key, key(b[0])) then a else a + [b[0]];
      MergeAbsentFrom(a', b[1..], key, y);
    }
  }

  /** When `x` is the only row with its key, `fetchAssoc` stores exactly `x` under it. */
  lemma {:induction false} FetchAssocUnique<T>(rows: seq<T>, key: T -> string, x: T)
    requires x in rows
    requires forall y :: y in rows && key(y) == key(x) ==> y == x
    ensures Find(FetchAssoc(rows, key), key, key(x)) == Some(x)
    decreases |rows|
  {
    var n := |rows| - 1;
    PutFind(FetchAssoc(rows[..n], key), key, rows[n], key(x));
    if key(rows[n]) != key(x) {
      assert rows == rows[..n] + [rows[n]];
      assert x in rows[..n];
      FetchAssocUnique(rows[..n], key, x);
    }
  }
}

=== FILE: break_filter.dfy ===
/**
 * The break filter: removes the incidents an ignore list matches. A rule
 * names any of `type`, `element`, `old` and `new`; an incident matches a
 * rule when it agrees with every field the rule sets, and it is removed when
 * it matches any rule.
 */
module BreakFilter {
  import opened Wrappers
  import opened Sequences
  import opened Incidents

  /** One ignore rule; `None` is a key the rule does not set. */
  datatype Rule = Rule(Type: Option<string>, Element: Option<string>, Old: Option<string>, New: Option<string>)

  /** A set rule field agrees with the incident's value; `isset` on the incident side fails for a missing or null value. */
  predicate FieldAgrees(ruleField: Option<string>, value: Option<string>) {
    ruleField.None? || value == ruleField
  }

  /** The body of `isMatching`'s loop: the rule passes every `continue` test. */
  predicate RuleMatches(rule: Rule, b: Record) {
    && FieldAgrees(rule.Type, Some(b.Type))
    && FieldAgrees(rule.Element, Some(b.Element))
    && FieldAgrees(rule.Old, b.Old)
    && FieldAgrees(rule.New, b.New)
  }

  /** `isMatching`: the rules are tried in order and the first that matches wins. */
  function IsMatching(b: Record, rules: seq<Rule>): (r: bool)
    ensures r <==> exists k :: 0 <= k < |rules| && RuleMatches(rules[k], b)
    ensures rules == [] ==> !r
    decreases |rules|
  {
    if |rules| == 0 then false
    else if RuleMatches(rules[0], b) then true
    else
      var rest := IsMatching(b, rules[1..]);
      assert forall k :: 1 <= k < |rules| ==> rules[k] == rules[1..][k - 1];
      rest
  }

  /** `removeMatching`: the incidents no rule matches, in their original order. */
  method RemoveMatching(breaks: seq<Record>, rules: seq<Rule>) returns (r: seq<Record>)
    ensures r == Kept(breaks, rules)
    ensures forall b :: b in r <==> b in breaks && !IsMatching(b, rules)
  {
    r := [];
    var i := 0;
    while i < |breaks|
      invariant 0 <= i <= |breaks|
      invariant r == Kept(breaks[..i], rules)
    {
      KeptConcat(breaks[..i], [breaks[i]], rules);
      assert breaks[..i + 1] == breaks[..i] + [breaks[i]];
      if !IsMatching(breaks[i], rules) {
        r := r + [breaks[i]];
      }
      i := i + 1;
    }
    assert breaks[..i] == breaks;
    KeptMembers(breaks, rules);
  }

  /** What the loop of `removeMatching` keeps of one incident. */
  function KeepOne(b: Record, rules: seq<Rule>): seq<Record> {
    if IsMatching(b, rules) then [] else [b]
  }

  /** The incidents no rule matches, in order: what `removeMatching` returns. */
  function Kept(breaks: seq<Record>, rules: seq<Rule>): seq<Record>
    decreases |breaks|
  {
    if |breaks| == 0 then [] else KeepOne(breaks[0], rules) + Kept(breaks[1..], rules)
  }

  lemma {:induction false} KeptConcat(a: seq<Record>, b: seq<Record>, rules: seq<Rule>)
    ensures Kept(a + b, rules) == Kept(a, rules) + Kept(b, rules)
    decreases |a|
  {
    if |a| == 0 {
      assert a + b == b;
    } else {
      assert (a + b)[1..] == a[1..] + b;
      KeptConcat(a[1..], b, rules);
    }
  }

  /** An incident survives exactly when no rule matches it. */
  lemma {:induction false} KeptMembers(breaks: seq<Record>, rules: seq<Rule>)
    ensures forall b :: b in Kept(breaks, rules) <==> b in breaks && !IsMatching(b, rules)
    decreases |breaks|
  {
    if |breaks| > 0 {
      KeptMembers(breaks[1..], rules);
      assert breaks == [breaks[0]] + breaks[1..];
    }
  }

  /** The survivors keep their relative order. */
  lemma {:induction false} KeptIsSubsequence(breaks: seq<Record>, rules: seq<Rule>)
    ensures IsSubsequence(Kept(breaks, rules), breaks)
    decreases |breaks|
  {
    if |breaks| > 0 {
      KeptIsSubsequence(breaks[1..], rules);
      if IsMatching(breaks[0], rules) {
        assert Kept(breaks, rules) == Kept(breaks[1..], rules);
        SubsequenceOfTail(Kept(breaks[1..], rules), breaks);
      } else {
        assert Kept(breaks, rules) == [breaks[0]] + Kept(breaks[1..], rules);
      }
    }
  }

  /** Without rules nothing is removed. */
  lemma {:induction false} NoRulesKeepAll(breaks: seq<Record>)
    ensures Kept(breaks, []) == breaks
    decreases |breaks|
  {
    if |breaks| > 0 {
      NoRulesKeepAll(breaks[1..]);
      assert breaks == [breaks[0]] + breaks[1..];
    }
  }

  /** A rule list matches when either of its parts does. */
  lemma MatchingConcat(b: Record, rules1: seq<Rule>, rules2: seq<Rule>)
    ensures IsMatching(b, rules1 + rules2) <==> IsMatching(b, rules1) || IsMatching(b, rules2)
  {
    var rules := rules1 + rules2;
    if IsMatching(b, rules) {
      var k :| 0 <= k < |rules| && RuleMatches(rules[k], b);
      if k >= |rules1| {
        assert rules2[k - |rules1|] == rules[k];
      } else {
        assert rules1[k] == rules[k];
      }
    }
    if IsMatching(b, rules1) {
      var k :| 0 <= k < |rules1| && RuleMatches(rules1[k], b);
      assert rules[k] == rules1[k];
    }
    if IsMatching(b, rules2) {
      var k :| 0 <= k < |rules2| && RuleMatches(rules2[k], b);
      assert rules[k + |rules1|] == rules2[k];
    }
  }

  /** Filtering with two rule lists in turn is filtering once with both. */
  lemma {:induction false} KeptTwice(breaks: seq<Record>, rules1: seq<Rule>, rules2: seq<Rule>)
    ensures Kept(Kept(breaks, rules1), rules2) == Kept(breaks, rules1 + rules2)
    decreases |breaks|
  {
    if |breaks| > 0 {
      KeptTwice(breaks[1..], rules1, rules2);
      MatchingConcat(breaks[0], rules1, rules2);
      assert breaks == [breaks[0]] + breaks[1..];
      KeptConcat([breaks[0]], breaks[1..], rules1);
      KeptConcat([breaks[0]], breaks[1..], rules1 + rules2);
      KeptConcat(Kept([breaks[0]], rules1), Kept(breaks[1..], rules1), rules2);
    }
  }

  /** Filtering twice with the same rules removes nothing more. */
  lemma KeptIdempotent(breaks: seq<Record>, rules: seq<Rule>)
    ensures Kept(Kept(breaks, rules), rules) == Kept(breaks, rules)
  {
    KeptTwice(breaks, rules, rules);
    forall b ensures IsMatching(b, rules + rules) == IsMatching(b, rules) {
      MatchingConcat(b, rules, rules);
    }
    KeptSameRules(breaks, rules + rules, rules);
  }

  /** Two rule lists that match the same incidents keep the same incidents. */
  lemma {:induction false} KeptSameRules(breaks: seq<Record>, rules1: seq<Rule>, rules2: seq<Rule>)
    requires forall b :: IsMatching(b, rules1) == IsMatching(b, rules2)
    ensures Kept(breaks, rules1) == Kept(breaks, rules2)
    decreases |breaks|
  {
    if |breaks| > 0 {
      KeptSameRules(breaks[1..], rules1, rules2);
    }
  }

  // ---------------------------------------------------------------------
  // The scenarios of the filter's unit test, over any distinct values
  // ---------------------------------------------------------------------

  /** The five incidents of the test: two types, two elements, two old and two new values. */
  function Sample(t1: string, t2: string, e1: string, e2: string, o1: string, o2: string, n1: string, n2: string): seq<Record> {
    [ Record(t1, e1, None, None),
      Record(t1, e1, Some(o1), Some(n1)),
      Record(t1, e2, Some(o2), Some(n2)),
      Record(t2, e2, None, None),
      Record(t2, e1, Some(o1), Some(n1)) ]
  }

  /** Filtering a suffix: the first incident's fate, then the rest. */
  lemma KeptStep(s: seq<Record>, i: nat, rules: seq<Rule>)
    requires i < |s|
    ensures Kept(s[i..], rules) == KeepOne(s[i], rules) + Kept(s[i + 1..], rules)
  {
    assert s[i..][0] == s[i];
    assert s[i..][1..] == s[i + 1..];
  }

  /** Filtering five incidents, one at a time. */
  lemma KeptFive(s: seq<Record>, rules: seq<Rule>)
    requires |s| == 5
    ensures Kept(s, rules) ==
      KeepOne(s[0], rules) + (KeepOne(s[1], rules) + (KeepOne(s[2], rules) + (KeepOne(s[3], rules) + KeepOne(s[4], rules))))
  {
    KeptStep(s, 0, rules);
    KeptStep(s, 1, rules);
    KeptStep(s, 2, rules);
    KeptStep(s, 3, rules);
    KeptStep(s, 4, rules);
    assert Kept(s[5..], rules) == [];
    assert KeepOne(s[4], rules) + [] == KeepOne(s[4], rules);
    assert s[0..] == s;
  }

  /** With a single rule, matching is that rule's test. */
  lemma MatchingOne(b: Record, rule: Rule)
    ensures IsMatching(b, [rule]) <==> RuleMatches(rule, b)
  {
    assert [rule][0] == rule;
  }

  /** A type-only rule removes every incident of that type. */
  lemma TypeOnly(t1: string, t2: string, e1: string, e2: string, o1: string, o2: string, n1: string, n2: string)
    requires t1 != t2
    ensures var s := Sample(t1, t2, e1, e2, o1, o2, n1, n2);
      Kept(s, [Rule(Some(t1), None, None, None)]) == [s[3], s[4]]
  {
    var s := Sample(t1, t2, e1, e2, o1, o2, n1, n2);
    var rule := Rule(Some(t1), None, None, None);
    KeptFive(s, [rule]);
    MatchingOne(s[0], rule);
    MatchingOne(s[1], rule);
    MatchingOne(s[2], rule);
    MatchingOne(s[3], rule);
    MatchingOne(s[4], rule);
  }

  /** An element-only rule removes every incident of that element. */
  lemma ElementOnly(t1: string, t2: string, e1: string, e2: string, o1: string, o2: string, n1: string, n2: string)
    requires e1 != e2
    ensures var s := Sample(t1, t2, e1, e2, o1, o2, n1, n2);
      Kept(s, [Rule(None, Some(e1), None, None)]) == [s[2], s[3]]
  {
    var s := Sample(t1, t2, e1, e2, o1, o2, n1, n2);
    var rule := Rule(None, Some(e1), None, None);
    KeptFive(s, [rule]);
    MatchingOne(s[0], rule);
    MatchingOne(s[1], rule);
    MatchingOne(s[2], rule);
    MatchingOne(s[3], rule);
    MatchingOne(s[4], rule);
  }

  /** A type-and-element rule removes the incidents that have both. */
  lemma TypeAndElement(t1: string, t2: string, e1: string, e2: string, o1: string, o2: string, n1: string, n2: string)
    requires t1 != t2 && e1 != e2
    ensures var s := Sample(t1, t2, e1, e2, o1, o2, n1, n2);
      Kept(s, [Rule(Some(t1), Some(e1), None, None)]) == [s[2], s[3], s[4]]
  {
    var s := Sample(t1, t2, e1, e2, o1, o2, n1, n2);
    var rule := Rule(Some(t1), Some(e1), None, None);
    KeptFive(s, [rule]);
    MatchingOne(s[0], rule);
    MatchingOne(s[1], rule);
    MatchingOne(s[2], rule);
    MatchingOne(s[3], rule);
    MatchingOne(s[4], rule);
  }

  /** A rule with old and new values removes only the incident that carries exactly those values. */
  lemma FullRule(t1: string, t2: string, e1: string, e2: string, o1: string, o2: string, n1: string, n2: string)
    requires t1 != t2 && e1 != e2 && o1 != o2 && n1 != n2
    ensures var s := Sample(t1, t2, e1, e2, o1, o2, n1, n2);
      Kept(s, [Rule(Some(t1), Some(e1), Some(o1), Some(n1))]) == [s[0], s[2], s[3], s[4]]
  {
    var s := Sample(t1, t2, e1, e2, o1, o2, n1, n2);
    var rule := Rule(Some(t1), Some(e1), Some(o1), Some(n1));
    KeptFive(s, [rule]);
    MatchingOne(s[0], rule);
    MatchingOne(s[1], rule);
    MatchingOne(s[2], rule);
    MatchingOne(s[3], rule);
    MatchingOne(s[4], rule);
  }

  /** A rule whose new value no incident of that type and element carries removes nothing. */
  lemma FullRuleMismatch(t1: string, t2: string, e1: string, e2: string, o1: string, o2: string, n1: string, n2: string)
    requires t1 != t2 && e1 != e2 && o1 != o2 && n1 != n2
    ensures var s := Sample(t1, t2, e1, e2, o1, o2, n1, n2);
      Kept(s, [Rule(Some(t1), Some(e1), Some(o1), Some(n2))]) == s
  {
    var s := Sample(t1, t2, e1, e2, o1, o2, n1, n2);
    var rule := Rule(Some(t1), Some(e1), Some(o1), Some(n2));
    KeptFive(s, [rule]);
    MatchingOne(s[0], rule);
    MatchingOne(s[1], rule);
    MatchingOne(s[2], rule);
    MatchingOne(s[3], rule);
    MatchingOne(s[4], rule);
  }
}

=== FILE: checkers.dfy ===
/**
 * The checkers and reporters the application registers, the `check` entry
 * point every checker shares, and the two registries built at start-up.
 */
module Checkers {
  import opened Wrappers
  import opened Snapshots
  import opened Incidents
  import opened AbstractChecker
  import opened Registry
  import ClassChecker
  import ClassCheckerProofs
  import FunctionChecker
  import ConstantChecker

  /** The concrete checkers. */
  datatype Checker = ClassCheck(dialect: ClassChecker.Dialect) | FunctionCheck | ConstantCheck

  /** `getName` of each checker. */
  function Name(c: Checker): string {
    match c
    case ClassCheck(d) => ClassChecker.Name(d)
    case FunctionCheck => FunctionChecker.Name()
    case ConstantCheck => ConstantChecker.Name()
  }

  /** The checkers' names are distinct. */
  lemma NameInjective(a: Checker, b: Checker)
    ensures Name(a) == Name(b) <==> a == b
  {
    var c := ClassChecker.Name(ClassChecker.Generic);
    var i := ClassChecker.Name(ClassChecker.InPortalConventions);
    var f := FunctionChecker.Name();
    var k := ConstantChecker.Name();
    assert c[0] == 'c' && c[1] == 'l' && i[0] == 'i' && f[0] == 'f' && k[0] == 'c' && k[1] == 'o';
  }

  /** `doCheck` of the checker. */
  function DoCheck(c: Checker, s: Snapshot, t: Snapshot, decode: string -> string): seq<Incident>
    requires Ranked(s) && Ranked(t)
  {
    match c
    case ClassCheck(d) => ClassChecker.DoCheck(d, s, t, decode)
    case FunctionCheck => FunctionChecker.DoCheck(s, t, decode)
    case ConstantCheck => ConstantChecker.DoCheck(s, t)
  }

  /** `check`: the incidents `doCheck` collected, sorted by type. */
  function Check(c: Checker, s: Snapshot, t: Snapshot, decode: string -> string): (r: seq<Incident>)
    requires Ranked(s) && Ranked(t)
    ensures multiset(r) == multiset(DoCheck(c, s, t, decode))
  {
    SortIncidents(TypeSorting, DoCheck(c, s, t, decode))
  }

  /** No checker declares a sort order, so `check` returns the incidents in the order they were found. */
  lemma CheckKeepsOrder(c: Checker, s: Snapshot, t: Snapshot, decode: string -> string)
    requires Ranked(s) && Ranked(t)
    ensures Check(c, s, t, decode) == DoCheck(c, s, t, decode)
  {
    SortIncidentsKeepsOrder(DoCheck(c, s, t, decode));
  }

  /** A snapshot checked against itself has no backwards compatibility break, whichever the checker. */
  lemma CheckIdentity(c: Checker, s: Snapshot, decode: string -> string)
    requires Ranked(s) && UniqueNames(s.properties) && UniqueNames(s.methods)
    ensures Check(c, s, s, decode) == []
  {
    CheckKeepsOrder(c, s, s, decode);
    match c
    case ClassCheck(d) => ClassCheckerProofs.DoCheckIdentity(d, s, decode);
    case FunctionCheck => FunctionChecker.DoCheckIdentity(FunctionChecker.AsWritten, s, decode);
    case ConstantCheck => ConstantChecker.DoCheckIdentity(s);
  }

  /** The reporters. */
  datatype Reporter = Text | Html | Json

  function ReporterName(r: Reporter): string {
    match r
    case Text => "text"
    case Html => "html"
    case Json => "json"
  }

  /** The checkers the application registers, in registration order. */
  function DefaultCheckers(): seq<Checker> {
    [ClassCheck(ClassChecker.Generic), FunctionCheck, ConstantCheck, ClassCheck(ClassChecker.InPortalConventions)]
  }

  /** The reporters the application registers, in registration order. */
  function DefaultReporters(): seq<Reporter> {
    [Text, Html, Json]
  }

  /** The start-up registration of the four checkers succeeds, and `get` returns each under its name. */
  lemma DefaultCheckersRegistered()
    ensures AddAll(Empty(), "checker", DefaultCheckers(), Name).Success?
    ensures var reg := AddAll(Empty(), "checker", DefaultCheckers(), Name).value;
      && Names(reg) == NamesOf(DefaultCheckers(), Name)
      && forall c :: c in DefaultCheckers() ==> Get(reg, "checker", Name(c)) == Success(c)
  {
    var cs := DefaultCheckers();
    forall i, j | 0 <= i < j < |cs|
      ensures Name(cs[i]) != Name(cs[j])
    {
      NameInjective(cs[i], cs[j]);
    }
    AddAllDistinct(Empty(), "checker", cs, Name);
  }

  /** The reporters' names are distinct. */
  lemma ReporterNameInjective(a: Reporter, b: Reporter)
    ensures ReporterName(a) == ReporterName(b) <==> a == b
  {
    assert ReporterName(Text)[0] == 't' && ReporterName(Html)[0] == 'h' && ReporterName(Json)[0] == 'j';
  }

  /** The start-up registration of the text, html and json reporters succeeds in that order, and `get` returns each under its name. */
  lemma DefaultReportersRegistered()
    ensures AddAll(Empty(), "reporter", DefaultReporters(), ReporterName).Success?
    ensures var reg := AddAll(Empty(), "reporter", DefaultReporters(), ReporterName).value;
      && Names(reg) == NamesOf(DefaultReporters(), ReporterName)
      && forall r :: r in DefaultReporters() ==> Get(reg, "reporter", ReporterName(r)) == Success(r)
  {
    var rs := DefaultReporters();
    forall i, j | 0 <= i < j < |rs|
      ensures ReporterName(rs[i]) != ReporterName(rs[j])
    {
      ReporterNameInjective(rs[i], rs[j]);
    }
    AddAllDistinct(Empty(), "reporter", rs, ReporterName);
  }
}

=== FILE: class_checker.dfy ===
/**
 * The class checker: for every class of the source snapshot, whether it was
 * deleted, made abstract or final, and whether the constants, properties and
 * methods it declares (not those it inherits) were deleted or changed in a
 * breaking way in the target snapshot. The In-Portal dialect is the same
 * checker with its parameter rendering and method scope rule adjusted.
 */
module ClassChecker {
  import opened Wrappers
  import opened Sequences
  import opened Assoc
  import opened Snapshots
  import opened Incidents
  import opened AbstractChecker
  import opened InPortal

  /** Which class checker: the standard one or the In-Portal one. */
  datatype Dialect = Generic | InPortalConventions

  /** `getName`. */
  function Name(d: Dialect): string {
    match d
    case Generic => "class"
    case InPortalConventions => "inportal_class"
  }

  /** `coveredScopes`: protected members of a class final on both sides cannot be reached, so they are not checked. */
  function CoveredScopes(source: ClassRow, target: ClassRow): (r: set<int>)
    ensures ScopePublic in r && ScopePrivate !in r
    ensures ScopeProtected in r <==> !(source.IsFinal && target.IsFinal)
  {
    if source.IsFinal && target.IsFinal then {ScopePublic} else {ScopePublic, ScopeProtected}
  }

  /** `getScopeName`; an unknown scope has no name (PHP's undefined index reads as `null`). */
  function ScopeName(scope: int): (r: Option<string>)
    ensures r.Some? <==> ScopePrivate <= scope <= ScopePublic
  {
    if scope == ScopePrivate then Some("private")
    else if scope == ScopeProtected then Some("protected")
    else if scope == ScopePublic then Some("public")
    else None
  }

  /** `Class::member` for constants and methods. */
  function MemberElement(className: string, name: string): string {
    className + "::" + name
  }

  /** `Class::$property` for properties. */
  function PropertyElement(className: string, name: string): string {
    className + "::$" + name
  }

  /** `paramToString` of the dialect; the In-Portal rendering depends on the class name. */
  function Render(d: Dialect, className: string, decode: string -> string): Parameter -> string {
    p => if d == InPortalConventions then NormalizeToken(className, ParamToString(p, decode)) else ParamToString(p, decode)
  }

  /** `getMethodParameterSignature`. */
  function MethodSignature(s: Snapshot, d: Dialect, className: string, decode: string -> string, methodId: int): string {
    Signature(ParametersOf(s.methodParameters, methodId), Render(d, className, decode))
  }

  /**
   * The target method a source method is compared with: itself, except that
   * an old-style constructor (named after the class) may have become
   * `__construct` and the other way round.
   */
  function TargetMethodName(className: string, sourceName: string, target: seq<Member>): (r: string)
    ensures HasKey(target, MemberKey, sourceName) ==> r == sourceName
    ensures !HasKey(target, MemberKey, sourceName) && sourceName == className && HasKey(target, MemberKey, "__construct")
      ==> r == "__construct"
    ensures !HasKey(target, MemberKey, sourceName) && sourceName == "__construct" && HasKey(target, MemberKey, className)
      ==> r == className
    ensures r == sourceName || r == "__construct" || r == className
    ensures sourceName != className && sourceName != "__construct" ==> r == sourceName
    ensures !HasKey(target, MemberKey, sourceName) && sourceName == "__construct" ==> r == className
    ensures sourceName == className && !HasKey(target, MemberKey, "__construct") ==> r == sourceName
    ensures r != sourceName ==> !HasKey(target, MemberKey, sourceName)
  {
    var n := if !HasKey(target, MemberKey, sourceName) && sourceName == className then "__construct" else sourceName;
    if !HasKey(target, MemberKey, n) && n == "__construct" then className else n
  }

  /** One `if (...) addIncident(...)` of the source: the incident when the condition holds, nothing otherwise. */
  function When(c: bool, i: Incident): (r: seq<Incident>)
    ensures forall j :: j in r <==> c && j == i
  {
    if c then [i] else []
  }

  /** An `if (...) addIncident(...)` followed by the rest of the checks. */
  function Then(c: bool, i: Incident, rest: seq<Incident>): (r: seq<Incident>)
    ensures forall j :: j in r <==> (c && j == i) || j in rest
  {
    if c then [i] + rest else rest
  }

  /** `processProperty`. */
  function ProcessProperty(className: string, source: Member, target: Member): (r: seq<Incident>)
    ensures forall i :: i in r ==> i.Element == PropertyElement(className, source.Name) && CategoryOf(i.Type) == PropertyCategory
    ensures forall i :: i in r ==> i.Type in {PropertyMadeStatic, PropertyMadeNonStatic, PropertyScopeReduced}
    ensures |r| <= 3
    ensures Incidents.Plain(PropertyMadeStatic, PropertyElement(className, source.Name)) in r <==> !source.IsStatic && target.IsStatic
    ensures Incidents.Plain(PropertyMadeNonStatic, PropertyElement(className, source.Name)) in r <==> source.IsStatic && !target.IsStatic
    ensures (exists i :: i in r && i.Type == PropertyScopeReduced) <==> source.Scope > target.Scope
    ensures source.Scope > target.Scope ==>
      AddIncident(PropertyScopeReduced, PropertyElement(className, source.Name), ScopeName(source.Scope), ScopeName(target.Scope)) in r
    ensures source == target ==> r == []
  {
    var el := PropertyElement(className, source.Name);
    var ps := Incidents.Plain(PropertyMadeStatic, el);
    var pn := Incidents.Plain(PropertyMadeNonStatic, el);
    var pr := AddIncident(PropertyScopeReduced, el, ScopeName(source.Scope), ScopeName(target.Scope));
    Then(!source.IsStatic && target.IsStatic, ps, Then(source.IsStatic && !target.IsStatic, pn, When(source.Scope > target.Scope, pr)))
  }

  /** The position of each check in `processProperty`: static, non-static, scope. */
  function PropertyCheckOrder(i: Incident): int {
    match i.Type
    case PropertyMadeStatic => 0
    case PropertyMadeNonStatic => 1
    case _ => 2
  }

  /** `processProperty` runs its checks in a fixed order and each adds at most one incident. */
  lemma ProcessPropertyOrder(className: string, source: Member, target: Member)
    ensures Increasing(ProcessProperty(className, source, target), PropertyCheckOrder)
  {
    var el := PropertyElement(className, source.Name);
    var ps := Incidents.Plain(PropertyMadeStatic, el);
    var pn := Incidents.Plain(PropertyMadeNonStatic, el);
    var pr := AddIncident(PropertyScopeReduced, el, ScopeName(source.Scope), ScopeName(target.Scope));
    var w := When(source.Scope > target.Scope, pr);
    var t := Then(source.IsStatic && !target.IsStatic, pn, w);
    if source.IsStatic && !target.IsStatic {
      PrependIncreasing(pn, w, PropertyCheckOrder);
    }
    if !source.IsStatic && target.IsStatic {
      PrependIncreasing(ps, t, PropertyCheckOrder);
    }
  }

  /** The scope `processMethod` compares the source scope with. */
  function TargetScope(d: Dialect, className: string, source: Member, target: Member, sourceSignature: string): (r: int)
    ensures d == Generic ==> r == target.Scope
    ensures r == target.Scope || r == source.Scope
  {
    if d == InPortalConventions then EffectiveTargetScope(className, source.Name, sourceSignature, source.Scope, target.Scope)
    else target.Scope
  }

  /** The modifier checks of `processMethod`: abstract, final, static, non-static, in that order. */
  function MethodModifierIncidents(el: string, source: Member, target: Member): (r: seq<Incident>)
    ensures forall i :: i in r ==> i.Element == el && !HasValues(i)
    ensures forall i :: i in r ==> i.Type in {MethodMadeAbstract, MethodMadeFinal, MethodMadeStatic, MethodMadeNonStatic}
    ensures Incidents.Plain(MethodMadeAbstract, el) in r <==> !source.IsAbstract && target.IsAbstract
    ensures Incidents.Plain(MethodMadeFinal, el) in r <==> !source.IsFinal && target.IsFinal
    ensures Incidents.Plain(MethodMadeStatic, el) in r <==> !source.IsStatic && target.IsStatic
    ensures Incidents.Plain(MethodMadeNonStatic, el) in r <==> source.IsStatic && !target.IsStatic
  {
    var pa, pf, ps, pn := Incidents.Plain(MethodMadeAbstract, el), Incidents.Plain(MethodMadeFinal, el),
      Incidents.Plain(MethodMadeStatic, el), Incidents.Plain(MethodMadeNonStatic, el);
    Then(!source.IsAbstract && target.IsAbstract, pa,
      Then(!source.IsFinal && target.IsFinal, pf,
        Then(!source.IsStatic && target.IsStatic, ps,
          When(source.IsStatic && !target.IsStatic, pn))))
  }

  /** The modifier checks followed by the change checks report only the six kinds of `processMethod`, all method incidents on `el`. */
  lemma MethodChecksOnly(el: string, a: seq<Incident>, b: seq<Incident>)
    requires forall i :: i in a ==> i.Element == el && i.Type in {MethodMadeAbstract, MethodMadeFinal, MethodMadeStatic, MethodMadeNonStatic}
    requires forall i :: i in b ==> i.Element == el && i.Type in {MethodSignatureChanged, MethodScopeReduced}
    ensures forall i :: i in a + b ==> i.Element == el && i.Type in MethodKinds() && CategoryOf(i.Type) == MethodCategory
  {
  }

  /** The signature and scope checks of `processMethod`. */
  function MethodChangeIncidents(el: string, sourceScope: int, targetScope: int, sourceSignature: string, targetSignature: string): (r: seq<Incident>)
    ensures forall i :: i in r ==> i.Element == el && i.Type in {MethodSignatureChanged, MethodScopeReduced}
    ensures forall i :: i in r ==> CategoryOf(i.Type) == MethodCategory
    ensures (exists i :: i in r && i.Type == MethodSignatureChanged) <==> sourceSignature != targetSignature
    ensures sourceSignature != targetSignature ==>
      AddIncident(MethodSignatureChanged, el, Some(sourceSignature), Some(targetSignature)) in r
    ensures (exists i :: i in r && i.Type == MethodScopeReduced) <==> sourceScope > targetScope
    ensures sourceScope > targetScope ==>
      AddIncident(MethodScopeReduced, el, ScopeName(sourceScope), ScopeName(targetScope)) in r
  {
    var a := When(sourceSignature != targetSignature, AddIncident(MethodSignatureChanged, el, Some(sourceSignature), Some(targetSignature)));
    var b := When(sourceScope > targetScope, AddIncident(MethodScopeReduced, el, ScopeName(sourceScope), ScopeName(targetScope)));
    assert forall i :: i in a + b <==> i in a || i in b;
    a + b
  }

  /** The six kinds of incident `processMethod` can report; `method.deleted` is not one of them. */
  function MethodKinds(): (r: set<IncidentType>)
    ensures MethodDeleted !in r
  {
    {MethodMadeAbstract, MethodMadeFinal, MethodMadeStatic, MethodMadeNonStatic, MethodSignatureChanged, MethodScopeReduced}
  }

  /** `processMethod`, with both parameter signatures already computed. */
  function ProcessMethod(d: Dialect, className: string, source: Member, target: Member, sourceSignature: string, targetSignature: string): (r: seq<Incident>)
    ensures forall i :: i in r ==> i.Element == MemberElement(className, source.Name) && CategoryOf(i.Type) == MethodCategory
    ensures forall i :: i in r ==> i.Type in MethodKinds()
    ensures source == target && sourceSignature == targetSignature ==> r == []
  {
    var el := MemberElement(className, source.Name);
    MethodChecksOnly(el, MethodModifierIncidents(el, source, target),
      MethodChangeIncidents(el, source.Scope, TargetScope(d, className, source, target, sourceSignature), sourceSignature, targetSignature));
    MethodModifierIncidents(el, source, target)
    + MethodChangeIncidents(el, source.Scope, TargetScope(d, className, source, target, sourceSignature), sourceSignature, targetSignature)
  }

  /** Each incident of `processMethod` is reported exactly when its condition holds. */
  lemma ProcessMethodIncidents(d: Dialect, className: string, source: Member, target: Member, sourceSignature: string, targetSignature: string)
    ensures var r := ProcessMethod(d, className, source, target, sourceSignature, targetSignature);
      var el := MemberElement(className, source.Name);
      && (Incidents.Plain(MethodMadeAbstract, el) in r <==> !source.IsAbstract && target.IsAbstract)
      && (Incidents.Plain(MethodMadeFinal, el) in r <==> !source.IsFinal && target.IsFinal)
      && (Incidents.Plain(MethodMadeStatic, el) in r <==> !source.IsStatic && target.IsStatic)
      && (Incidents.Plain(MethodMadeNonStatic, el) in r <==> source.IsStatic && !target.IsStatic)
      && ((exists i :: i in r && i.Type == MethodSignatureChanged) <==> sourceSignature != targetSignature)
      && (sourceSignature != targetSignature ==>
            AddIncident(MethodSignatureChanged, el, Some(sourceSignature), Some(targetSignature)) in r)
      && ((exists i :: i in r && i.Type == MethodScopeReduced) <==> source.Scope > TargetScope(d, className, source, target, sourceSignature))
      && (forall i :: i in r ==> i.Type in MethodKinds())
  {
    var el := MemberElement(className, source.Name);
    var a := MethodModifierIncidents(el, source, target);
    var b := MethodChangeIncidents(el, source.Scope, TargetScope(d, className, source, target, sourceSignature), sourceSignature, targetSignature);
    ModifiersFirst(a, b, el, source, target);
    ChangesSecond(a, b, el, source.Scope, TargetScope(d, className, source, target, sourceSignature), sourceSignature, targetSignature);
  }

  /** The modifier incidents of `processMethod` come from its first four checks only. */
  lemma ModifiersFirst(a: seq<Incident>, b: seq<Incident>, el: string, source: Member, target: Member)
    requires a == MethodModifierIncidents(el, source, target)
    requires forall i :: i in b ==> i.Type in {MethodSignatureChanged, MethodScopeReduced}
    ensures Incidents.Plain(MethodMadeAbstract, el) in a + b <==> !source.IsAbstract && target.IsAbstract
    ensures Incidents.Plain(MethodMadeFinal, el) in a + b <==> !source.IsFinal && target.IsFinal
    ensures Incidents.Plain(MethodMadeStatic, el) in a + b <==> !source.IsStatic && target.IsStatic
    ensures Incidents.Plain(MethodMadeNonStatic, el) in a + b <==> source.IsStatic && !target.IsStatic
  {
    assert forall i :: i in a + b <==> i in a || i in b;
  }

  /** The signature and scope incidents of `processMethod` come from its last two checks only. */
  lemma ChangesSecond(a: seq<Incident>, b: seq<Incident>, el: string, sourceScope: int, targetScope: int, sourceSignature: string, targetSignature: string)
    requires forall i :: i in a ==> i.Type in {MethodMadeAbstract, MethodMadeFinal, MethodMadeStatic, MethodMadeNonStatic}
    requires b == MethodChangeIncidents(el, sourceScope, targetScope, sourceSignature, targetSignature)
    ensures (exists i :: i in a + b && i.Type == MethodSignatureChanged) <==> sourceSignature != targetSignature
    ensures sourceSignature != targetSignature ==>
      AddIncident(MethodSignatureChanged, el, Some(sourceSignature), Some(targetSignature)) in a + b
    ensures (exists i :: i in a + b && i.Type == MethodScopeReduced) <==> sourceScope > targetScope
  {
    assert forall i :: i in a + b <==> i in a || i in b;
  }

  /** The position of each check in `processMethod`: abstract, final, static, non-static, signature, scope. */
  function MethodCheckOrder(i: Incident): int {
    match i.Type
    case MethodMadeAbstract => 0
    case MethodMadeFinal => 1
    case MethodMadeStatic => 2
    case MethodMadeNonStatic => 3
    case MethodSignatureChanged => 4
    case _ => 5
  }

  /** `processMethod` runs its checks in a fixed order and each adds at most one incident. */
  lemma ProcessMethodOrder(d: Dialect, className: string, source: Member, target: Member, sourceSignature: string, targetSignature: string)
    ensures Increasing(ProcessMethod(d, className, source, target, sourceSignature, targetSignature), MethodCheckOrder)
  {
    var el := MemberElement(className, source.Name);
    var targetScope := TargetScope(d, className, source, target, sourceSignature);
    var a := MethodModifierIncidents(el, source, target);
    var b := MethodChangeIncidents(el, source.Scope, targetScope, sourceSignature, targetSignature);
    ModifierOrder(el, source, target);
    ChangeOrder(el, source.Scope, targetScope, sourceSignature, targetSignature);
    ModifiersBeforeChanges(a, b);
  }

  lemma ModifiersBeforeChanges(a: seq<Incident>, b: seq<Incident>)
    requires Increasing(a, MethodCheckOrder) && Increasing(b, MethodCheckOrder)
    requires forall x :: x in a ==> x.Type in {MethodMadeAbstract, MethodMadeFinal, MethodMadeStatic, MethodMadeNonStatic}
    requires forall y :: y in b ==> y.Type in {MethodSignatureChanged, MethodScopeReduced}
    ensures Increasing(a + b, MethodCheckOrder)
  {
    AppendIncreasing(a, b, MethodCheckOrder);
  }

  lemma ModifierOrder(el: string, source: Member, target: Member)
    ensures Increasing(MethodModifierIncidents(el, source, target), MethodCheckOrder)
  {
    var pa, pf, ps, pn := Incidents.Plain(MethodMadeAbstract, el), Incidents.Plain(MethodMadeFinal, el),
      Incidents.Plain(MethodMadeStatic, el), Incidents.Plain(MethodMadeNonStatic, el);
    var w := When(source.IsStatic && !target.IsStatic, pn);
    var t3 := Then(!source.IsStatic && target.IsStatic, ps, w);
    if !source.IsStatic && target.IsStatic {
      PrependIncreasing(ps, w, MethodCheckOrder);
    }
    var t2 := Then(!source.IsFinal && target.IsFinal, pf, t3);
    if !source.IsFinal && target.IsFinal {
      PrependIncreasing(pf, t3, MethodCheckOrder);
    }
    if !source.IsAbstract && target.IsAbstract {
      PrependIncreasing(pa, t2, MethodCheckOrder);
    }
  }

  lemma ChangeOrder(el: string, sourceScope: int, targetScope: int, sourceSignature: string, targetSignature: string)
    ensures Increasing(MethodChangeIncidents(el, sourceScope, targetScope, sourceSignature, targetSignature), MethodCheckOrder)
  {
    var b1 := When(sourceSignature != targetSignature, AddIncident(MethodSignatureChanged, el, Some(sourceSignature), Some(targetSignature)));
    var b2 := When(sourceScope > targetScope, AddIncident(MethodScopeReduced, el, ScopeName(sourceScope), ScopeName(targetScope)));
    AppendIncreasing(b1, b2, MethodCheckOrder);
  }

  /** One iteration of `processConstants`: inherited constants are skipped. */
  function ConstantIncidents(className: string, classId: int, target: seq<Member>, c: Member): (r: seq<Incident>)
    ensures r != [] <==> c.ClassId == classId && !HasKey(target, MemberKey, c.Name)
    ensures r != [] ==> r == [Incidents.Plain(ClassConstantDeleted, MemberElement(className, c.Name))]
  {
    if c.ClassId != classId then []
    else if !HasKey(target, MemberKey, c.Name) then [Incidents.Plain(ClassConstantDeleted, MemberElement(className, c.Name))]
    else []
  }

  /** One iteration of `processProperties`. */
  function PropertyIncidents(className: string, classId: int, target: seq<Member>, p: Member): (r: seq<Incident>)
    ensures forall i :: i in r ==> CategoryOf(i.Type) == PropertyCategory
    ensures p.ClassId != classId ==> r == []
    ensures p.ClassId == classId && !HasKey(target, MemberKey, p.Name) ==> r == [Incidents.Plain(PropertyDeleted, PropertyElement(className, p.Name))]
    ensures p.ClassId == classId && HasKey(target, MemberKey, p.Name) ==> r == ProcessProperty(className, p, Find(target, MemberKey, p.Name).value)
  {
    if p.ClassId != classId then []
    else if !HasKey(target, MemberKey, p.Name) then [Incidents.Plain(PropertyDeleted, PropertyElement(className, p.Name))]
    else ProcessProperty(className, p, Find(target, MemberKey, p.Name).value)
  }

  /** One iteration of `processMethods`. */
  function MethodIncidents(s: Snapshot, t: Snapshot, d: Dialect, decode: string -> string, className: string, classId: int, target: seq<Member>, m: Member): (r: seq<Incident>)
    ensures forall i :: i in r ==> CategoryOf(i.Type) == MethodCategory
    ensures m.ClassId != classId ==> r == []
    ensures m.ClassId == classId && !HasKey(target, MemberKey, TargetMethodName(className, m.Name, target))
      ==> r == [Incidents.Plain(MethodDeleted, MemberElement(className, m.Name))]
    ensures m.ClassId == classId && HasKey(target, MemberKey, TargetMethodName(className, m.Name, target))
      ==> var tm := Find(target, MemberKey, TargetMethodName(className, m.Name, target)).value;
        r == ProcessMethod(d, className, m, tm, MethodSignature(s, d, className, decode, m.Id), MethodSignature(t, d, className, decode, tm.Id))
  {
    var name := TargetMethodName(className, m.Name, target);
    if m.ClassId != classId then []
    else if !HasKey(target, MemberKey, name) then [Incidents.Plain(MethodDeleted, MemberElement(className, m.Name))]
    else
      var tm := Find(target, MemberKey, name).value;
      ProcessMethod(d, className, m, tm, MethodSignature(s, d, className, decode, m.Id), MethodSignature(t, d, className, decode, tm.Id))
  }

  /** `processConstants` for a class present on both sides. */
  function ConstantsOf(s: Snapshot, t: Snapshot, source: ClassRow, target: ClassRow): seq<Incident>
    requires Ranked(s) && Ranked(t)
  {
    var targetConstants := Recursive(t, Constants, target.Id, None);
    FlatMap(Recursive(s, Constants, source.Id, None), c => ConstantIncidents(source.Name, source.Id, targetConstants, c))
  }

  /** `processProperties`: source properties in the covered scopes against all target properties. */
  function PropertiesOf(s: Snapshot, t: Snapshot, source: ClassRow, target: ClassRow): seq<Incident>
    requires Ranked(s) && Ranked(t)
  {
    var targetProperties := Recursive(t, Properties, target.Id, None);
    FlatMap(Recursive(s, Properties, source.Id, Some(CoveredScopes(source, target))),
      p => PropertyIncidents(source.Name, source.Id, targetProperties, p))
  }

  /** `processMethods`: source methods in the covered scopes against all target methods. */
  function MethodsOf(s: Snapshot, t: Snapshot, d: Dialect, decode: string -> string, source: ClassRow, target: ClassRow): seq<Incident>
    requires Ranked(s) && Ranked(t)
  {
    var targetMethods := Recursive(t, Methods, target.Id, None);
    FlatMap(Recursive(s, Methods, source.Id, Some(CoveredScopes(source, target))),
      m => MethodIncidents(s, t, d, decode, source.Name, source.Id, targetMethods, m))
  }

  /** One iteration of `doCheck`'s loop over the source classes. */
  function ClassIncidents(s: Snapshot, t: Snapshot, d: Dialect, decode: string -> string, targetClasses: seq<ClassRow>, c: ClassRow): (r: seq<Incident>)
    requires Ranked(s) && Ranked(t)
    ensures !HasKey(targetClasses, ClassKey, c.Name) ==> r == [Incidents.Plain(ClassDeleted, c.Name)]
  {
    if !HasKey(targetClasses, ClassKey, c.Name) then [Incidents.Plain(ClassDeleted, c.Name)]
    else ClassChanges(s, t, d, decode, c, Find(targetClasses, ClassKey, c.Name).value)
  }

  /** The checks of a class present on both sides: abstract, final, then its constants, properties and methods. */
  function ClassChanges(s: Snapshot, t: Snapshot, d: Dialect, decode: string -> string, source: ClassRow, target: ClassRow): seq<Incident>
    requires Ranked(s) && Ranked(t)
  {
    (if !source.IsAbstract && target.IsAbstract then [Incidents.Plain(ClassMadeAbstract, source.Name)] else [])
    + (if !source.IsFinal && target.IsFinal then [Incidents.Plain(ClassMadeFinal, source.Name)] else [])
    + ConstantsOf(s, t, source, target)
    + PropertiesOf(s, t, source, target)
    + MethodsOf(s, t, d, decode, source, target)
  }

  /** The position of each check `doCheck` runs on one class: made abstract, made final, constants, properties, methods. */
  function ClassCheckOrder(i: Incident): int {
    match CategoryOf(i.Type)
    case ClassConstantCategory => 2
    case PropertyCategory => 3
    case MethodCategory => 4
    case _ => if i.Type == ClassMadeFinal then 1 else 0
  }

  /** The class of a given name that `doCheck` works with: the last row of that name. */
  function ClassNamed(s: Snapshot, name: string): (r: Option<ClassRow>)
    ensures r.Some? <==> HasKey(s.classes, ClassKey, name)
    ensures r.Some? ==> r.value.Name == name
  {
    FetchAssocHasKey(s.classes, ClassKey, name);
    Find(FetchAssoc(s.classes, ClassKey), ClassKey, name)
  }

  /** `doCheck`: the classes of the source keyed by name, each checked against the target class of that name. */
  function DoCheck(d: Dialect, s: Snapshot, t: Snapshot, decode: string -> string): seq<Incident>
    requires Ranked(s) && Ranked(t)
  {
    var targetClasses := FetchAssoc(t.classes, ClassKey);
    FlatMap(FetchAssoc(s.classes, ClassKey), c => ClassIncidents(s, t, d, decode, targetClasses, c))
  }
}

=== FILE: class_checker_proofs.dfy ===
/**
 * Properties of the class checker as a whole: a snapshot compared with
 * itself yields no incident, and a `class.deleted` incident is reported for
 * exactly the source classes whose name the target lacks.
 */
module ClassCheckerProofs {
  import opened Wrappers
  import opened Sequences
  import opened Assoc
  import opened Snapshots
  import opened Incidents
  import opened ClassChecker
  import opened InPortal

  /**
   * A row a class declares, found by a scope-filtered lookup, is also what the
   * unfiltered lookup of the same class returns for its name.
   */
  lemma OwnMemberFound(s: Snapshot, kind: MemberKind, classId: int, scopes: set<int>, x: Member)
    requires Ranked(s) && UniqueNames(Table(s, kind))
    requires x in Recursive(s, kind, classId, Some(scopes)) && x.ClassId == classId
    ensures Find(Recursive(s, kind, classId, None), MemberKey, x.Name) == Some(x)
  {
    RecursiveRows(s, kind, classId, Some(scopes), x);
    var table := Table(s, kind);
    var own := OwnRows(s, kind, classId, None);
    var i :| 0 <= i < |table| && table[i] == x;
    assert x in own;
    forall y | y in own && MemberKey(y) == MemberKey(x)
      ensures y == x
    {
      var j :| 0 <= j < |own| && own[j] == y;
      assert y in table && y.ClassId == classId;
    }
    HasKeyMember(own, MemberKey, x);
    OwnRowsWin(s, kind, classId, None, x.Name);
    FetchAssocUnique(own, MemberKey, x);
  }

  /** A class compared with itself: no constant, property or method incident. */
  lemma ClassUnchanged(d: Dialect, s: Snapshot, decode: string -> string, c: ClassRow)
    requires Ranked(s) && UniqueNames(s.properties) && UniqueNames(s.methods)
    ensures ConstantsOf(s, s, c, c) == []
    ensures PropertiesOf(s, s, c, c) == []
    ensures MethodsOf(s, s, d, decode, c, c) == []
  {
    ConstantsUnchanged(s, c);
    PropertiesUnchanged(s, c);
    MethodsUnchanged(d, s, decode, c);
  }

  lemma ConstantsUnchanged(s: Snapshot, c: ClassRow)
    requires Ranked(s)
    ensures ConstantsOf(s, s, c, c) == []
  {
    var constants := Recursive(s, Constants, c.Id, None);
    forall k | 0 <= k < |constants|
      ensures ConstantIncidents(c.Name, c.Id, constants, constants[k]) == []
    {
      HasKeyMember(constants, MemberKey, constants[k]);
    }
  }

  lemma PropertiesUnchanged(s: Snapshot, c: ClassRow)
    requires Ranked(s) && UniqueNames(s.properties)
    ensures PropertiesOf(s, s, c, c) == []
  {
    var sc := CoveredScopes(c, c);
    var properties := Recursive(s, Properties, c.Id, Some(sc));
    var targetProperties := Recursive(s, Properties, c.Id, None);
    forall k | 0 <= k < |properties|
      ensures PropertyIncidents(c.Name, c.Id, targetProperties, properties[k]) == []
    {
      var p := properties[k];
      if p.ClassId == c.Id {
        OwnMemberFound(s, Properties, c.Id, sc, p);
      }
    }
  }

  lemma MethodsUnchanged(d: Dialect, s: Snapshot, decode: string -> string, c: ClassRow)
    requires Ranked(s) && UniqueNames(s.methods)
    ensures MethodsOf(s, s, d, decode, c, c) == []
  {
    var sc := CoveredScopes(c, c);
    var methods := Recursive(s, Methods, c.Id, Some(sc));
    var targetMethods := Recursive(s, Methods, c.Id, None);
    forall k | 0 <= k < |methods|
      ensures MethodIncidents(s, s, d, decode, c.Name, c.Id, targetMethods, methods[k]) == []
    {
      var m := methods[k];
      if m.ClassId == c.Id {
        OwnMemberFound(s, Methods, c.Id, sc, m);
        assert TargetMethodName(c.Name, m.Name, targetMethods) == m.Name;
      }
    }
  }

  /** Comparing a snapshot with itself reports nothing. */
  lemma DoCheckIdentity(d: Dialect, s: Snapshot, decode: string -> string)
    requires Ranked(s) && UniqueNames(s.properties) && UniqueNames(s.methods)
    ensures DoCheck(d, s, s, decode) == []
  {
    var classes := FetchAssoc(s.classes, ClassKey);
    FetchAssocDistinct(s.classes, ClassKey);
    forall k | 0 <= k < |classes|
      ensures ClassIncidents(s, s, d, decode, classes, classes[k]) == []
    {
      var c := classes[k];
      FindMember(classes, ClassKey, c);
      ClassUnchanged(d, s, decode, c);
    }
  }

  /** Every incident of a class's members belongs to a member category. */
  lemma MemberIncidentsCategory(d: Dialect, s: Snapshot, t: Snapshot, decode: string -> string, source: ClassRow, target: ClassRow, i: Incident)
    requires Ranked(s) && Ranked(t)
    ensures i in ConstantsOf(s, t, source, target) ==> CategoryOf(i.Type) == ClassConstantCategory
    ensures i in PropertiesOf(s, t, source, target) ==> CategoryOf(i.Type) == PropertyCategory
    ensures i in MethodsOf(s, t, d, decode, source, target) ==> CategoryOf(i.Type) == MethodCategory
  {
    ConstantIncidentsCategory(s, t, source, target, i);
    PropertyIncidentsCategory(s, t, source, target, i);
    MethodIncidentsCategory(d, s, t, decode, source, target, i);
  }

  lemma ConstantIncidentsCategory(s: Snapshot, t: Snapshot, source: ClassRow, target: ClassRow, i: Incident)
    requires Ranked(s) && Ranked(t)
    ensures i in ConstantsOf(s, t, source, target) ==> CategoryOf(i.Type) == ClassConstantCategory
  {
    var targetConstants := Recursive(t, Constants, target.Id, None);
    FlatMapMember(Recursive(s, Constants, source.Id, None), c => ConstantIncidents(source.Name, source.Id, targetConstants, c), i);
  }

  lemma PropertyIncidentsCategory(s: Snapshot, t: Snapshot, source: ClassRow, target: ClassRow, i: Incident)
    requires Ranked(s) && Ranked(t)
    ensures i in PropertiesOf(s, t, source, target) ==> CategoryOf(i.Type) == PropertyCategory
  {
    var targetProperties := Recursive(t, Properties, target.Id, None);
    var sc := CoveredScopes(source, target);
    FlatMapMember(Recursive(s, Properties, source.Id, Some(sc)), p => PropertyIncidents(source.Name, source.Id, targetProperties, p), i);
  }

  lemma MethodIncidentsCategory(d: Dialect, s: Snapshot, t: Snapshot, decode: string -> string, source: ClassRow, target: ClassRow, i: Incident)
    requires Ranked(s) && Ranked(t)
    ensures i in MethodsOf(s, t, d, decode, source, target) ==> CategoryOf(i.Type) == MethodCategory
  {
    var targetMethods := Recursive(t, Methods, target.Id, None);
    var sc := CoveredScopes(source, target);
    FlatMapMember(Recursive(s, Methods, source.Id, Some(sc)), m => MethodIncidents(s, t, d, decode, source.Name, source.Id, targetMethods, m), i);
  }

  /** A class found on both sides is never reported deleted. */
  lemma ClassChangesNotDeleted(d: Dialect, s: Snapshot, t: Snapshot, decode: string -> string, source: ClassRow, target: ClassRow, n: string)
    requires Ranked(s) && Ranked(t)
    ensures Incidents.Plain(ClassDeleted, n) !in ClassChanges(s, t, d, decode, source, target)
  {
    var x := Incidents.Plain(ClassDeleted, n);
    MemberIncidentsCategory(d, s, t, decode, source, target, x);
  }

  /** One source class yields `class.deleted` under name `n` exactly when it is that class and the target lacks it. */
  lemma ClassIncidentsDeleted(d: Dialect, s: Snapshot, t: Snapshot, decode: string -> string, targetClasses: seq<ClassRow>, c: ClassRow, n: string)
    requires Ranked(s) && Ranked(t)
    ensures Incidents.Plain(ClassDeleted, n) in ClassIncidents(s, t, d, decode, targetClasses, c)
      <==> n == c.Name && !HasKey(targetClasses, ClassKey, c.Name)
  {
    if HasKey(targetClasses, ClassKey, c.Name) {
      ClassChangesNotDeleted(d, s, t, decode, c, Find(targetClasses, ClassKey, c.Name).value, n);
    }
  }

  /** `class.deleted` is reported for a name exactly when the source has a class of that name and the target has none. */
  lemma ClassDeletedExactly(d: Dialect, s: Snapshot, t: Snapshot, decode: string -> string, n: string)
    requires Ranked(s) && Ranked(t)
    ensures Incidents.Plain(ClassDeleted, n) in DoCheck(d, s, t, decode)
      <==> HasKey(s.classes, ClassKey, n) && !HasKey(t.classes, ClassKey, n)
  {
    var classes := FetchAssoc(s.classes, ClassKey);
    var targetClasses := FetchAssoc(t.classes, ClassKey);
    var f := c => ClassIncidents(s, t, d, decode, targetClasses, c);
    FlatMapMember(classes, f, Incidents.Plain(ClassDeleted, n));
    FetchAssocHasKey(t.classes, ClassKey, n);
    FetchAssocHasKey(s.classes, ClassKey, n);
    if Incidents.Plain(ClassDeleted, n) in DoCheck(d, s, t, decode) {
      var k :| 0 <= k < |classes| && Incidents.Plain(ClassDeleted, n) in f(classes[k]);
      ClassIncidentsDeleted(d, s, t, decode, targetClasses, classes[k], n);
      HasKeyIndex(classes, ClassKey, k);
    }
    if HasKey(s.classes, ClassKey, n) && !HasKey(t.classes, ClassKey, n) {
      FindIn(classes, ClassKey, n);
      var c := Find(classes, ClassKey, n).value;
      var k :| 0 <= k < |classes| && classes[k] == c;
      ClassIncidentsDeleted(d, s, t, decode, targetClasses, c, n);
    }
  }

  /** `class.made_abstract` is reported by a class present on both sides exactly when it became abstract. */
  lemma ClassChangesAbstract(d: Dialect, s: Snapshot, t: Snapshot, decode: string -> string, source: ClassRow, target: ClassRow, n: string)
    requires Ranked(s) && Ranked(t)
    ensures Incidents.Plain(ClassMadeAbstract, n) in ClassChanges(s, t, d, decode, source, target)
      <==> n == source.Name && !source.IsAbstract && target.IsAbstract
  {
    MemberIncidentsCategory(d, s, t, decode, source, target, Incidents.Plain(ClassMadeAbstract, n));
  }

  /** `class.made_final` is reported by a class present on both sides exactly when it became final. */
  lemma ClassChangesFinal(d: Dialect, s: Snapshot, t: Snapshot, decode: string -> string, source: ClassRow, target: ClassRow, n: string)
    requires Ranked(s) && Ranked(t)
    ensures Incidents.Plain(ClassMadeFinal, n) in ClassChanges(s, t, d, decode, source, target)
      <==> n == source.Name && !source.IsFinal && target.IsFinal
  {
    MemberIncidentsCategory(d, s, t, decode, source, target, Incidents.Plain(ClassMadeFinal, n));
  }

  /** A class's incidents come in the order of its checks: abstract, final, constants, properties, methods. */
  lemma ClassChangesOrder(d: Dialect, s: Snapshot, t: Snapshot, decode: string -> string, source: ClassRow, target: ClassRow)
    requires Ranked(s) && Ranked(t)
    ensures NonDecreasing(ClassChanges(s, t, d, decode, source, target), ClassCheckOrder)
  {
    MembersRanked(d, s, t, decode, source, target);
    FiveBlocks(!source.IsAbstract && target.IsAbstract, !source.IsFinal && target.IsFinal, source.Name,
      ConstantsOf(s, t, source, target), PropertiesOf(s, t, source, target), MethodsOf(s, t, d, decode, source, target));
  }

  lemma MembersRanked(d: Dialect, s: Snapshot, t: Snapshot, decode: string -> string, source: ClassRow, target: ClassRow)
    requires Ranked(s) && Ranked(t)
    ensures forall i :: i in ConstantsOf(s, t, source, target) ==> ClassCheckOrder(i) == 2
    ensures forall i :: i in PropertiesOf(s, t, source, target) ==> ClassCheckOrder(i) == 3
    ensures forall i :: i in MethodsOf(s, t, d, decode, source, target) ==> ClassCheckOrder(i) == 4
  {
    forall i | i in ConstantsOf(s, t, source, target) ensures ClassCheckOrder(i) == 2 {
      ConstantIncidentsCategory(s, t, source, target, i);
    }
    forall i | i in PropertiesOf(s, t, source, target) ensures ClassCheckOrder(i) == 3 {
      PropertyIncidentsCategory(s, t, source, target, i);
    }
    forall i | i in MethodsOf(s, t, d, decode, source, target) ensures ClassCheckOrder(i) == 4 {
      MethodIncidentsCategory(d, s, t, decode, source, target, i);
    }
  }

  lemma FiveBlocks(madeAbstract: bool, madeFinal: bool, name: string, cs: seq<Incident>, ps: seq<Incident>, ms: seq<Incident>)
    requires forall x :: x in cs ==> ClassCheckOrder(x) == 2
    requires forall x :: x in ps ==> ClassCheckOrder(x) == 3
    requires forall x :: x in ms ==> ClassCheckOrder(x) == 4
    ensures NonDecreasing((if madeAbstract then [Incidents.Plain(ClassMadeAbstract, name)] else [])
      + (if madeFinal then [Incidents.Plain(ClassMadeFinal, name)] else []) + cs + ps + ms, ClassCheckOrder)
  {
    var a: seq<Incident> := if madeAbstract then [Incidents.Plain(ClassMadeAbstract, name)] else [];
    var f: seq<Incident> := if madeFinal then [Incidents.Plain(ClassMadeFinal, name)] else [];
    AppendBlock(a, f, ClassCheckOrder, 1);
    AppendBlock(a + f, cs, ClassCheckOrder, 2);
    AppendBlock(a + f + cs, ps, ClassCheckOrder, 3);
    AppendBlock(a + f + cs + ps, ms, ClassCheckOrder, 4);
  }

  /** One source class yields `class.made_abstract` under name `n` exactly when it is that class, found in the target, and became abstract there. */
  lemma ClassIncidentsAbstract(d: Dialect, s: Snapshot, t: Snapshot, decode: string -> string, targetClasses: seq<ClassRow>, c: ClassRow, n: string)
    requires Ranked(s) && Ranked(t)
    ensures Incidents.Plain(ClassMadeAbstract, n) in ClassIncidents(s, t, d, decode, targetClasses, c)
      <==> n == c.Name && HasKey(targetClasses, ClassKey, c.Name) && !c.IsAbstract && Find(targetClasses, ClassKey, c.Name).value.IsAbstract
  {
    if HasKey(targetClasses, ClassKey, c.Name) {
      ClassChangesAbstract(d, s, t, decode, c, Find(targetClasses, ClassKey, c.Name).value, n);
    }
  }

  /** One source class yields `class.made_final` under name `n` exactly when it is that class, found in the target, and became final there. */
  lemma ClassIncidentsFinal(d: Dialect, s: Snapshot, t: Snapshot, decode: string -> string, targetClasses: seq<ClassRow>, c: ClassRow, n: string)
    requires Ranked(s) && Ranked(t)
    ensures Incidents.Plain(ClassMadeFinal, n) in ClassIncidents(s, t, d, decode, targetClasses, c)
      <==> n == c.Name && HasKey(targetClasses, ClassKey, c.Name) && !c.IsFinal && Find(targetClasses, ClassKey, c.Name).value.IsFinal
  {
    if HasKey(targetClasses, ClassKey, c.Name) {
      ClassChangesFinal(d, s, t, decode, c, Find(targetClasses, ClassKey, c.Name).value, n);
    }
  }

  /** `class.made_abstract` is reported for a name exactly when both sides have a class of that name, abstract only in the target. */
  lemma ClassMadeAbstractExactly(d: Dialect, s: Snapshot, t: Snapshot, decode: string -> string, n: string)
    requires Ranked(s) && Ranked(t)
    ensures Incidents.Plain(ClassMadeAbstract, n) in DoCheck(d, s, t, decode)
      <==> ClassNamed(s, n).Some? && ClassNamed(t, n).Some? && !ClassNamed(s, n).value.IsAbstract && ClassNamed(t, n).value.IsAbstract
  {
    var classes := FetchAssoc(s.classes, ClassKey);
    var targetClasses := FetchAssoc(t.classes, ClassKey);
    var f := c => ClassIncidents(s, t, d, decode, targetClasses, c);
    var x := Incidents.Plain(ClassMadeAbstract, n);
    FlatMapMember(classes, f, x);
    FetchAssocDistinct(s.classes, ClassKey);
    if x in DoCheck(d, s, t, decode) {
      var k :| 0 <= k < |classes| && x in f(classes[k]);
      ClassIncidentsAbstract(d, s, t, decode, targetClasses, classes[k], n);
      FindDistinct(classes, ClassKey, k);
    }
    if ClassNamed(s, n).Some? {
      FetchAssocHasKey(s.classes, ClassKey, n);
      FindIn(classes, ClassKey, n);
      var c := ClassNamed(s, n).value;
      var k :| 0 <= k < |classes| && classes[k] == c;
      ClassIncidentsAbstract(d, s, t, decode, targetClasses, c, n);
    }
  }

  /** `class.made_final` is reported for a name exactly when both sides have a class of that name, final only in the target. */
  lemma ClassMadeFinalExactly(d: Dialect, s: Snapshot, t: Snapshot, decode: string -> string, n: string)
    requires Ranked(s) && Ranked(t)
    ensures Incidents.Plain(ClassMadeFinal, n) in DoCheck(d, s, t, decode)
      <==> ClassNamed(s, n).Some? && ClassNamed(t, n).Some? && !ClassNamed(s, n).value.IsFinal && ClassNamed(t, n).value.IsFinal
  {
    var classes := FetchAssoc(s.classes, ClassKey);
    var targetClasses := FetchAssoc(t.classes, ClassKey);
    var f := c => ClassIncidents(s, t, d, decode, targetClasses, c);
    var x := Incidents.Plain(ClassMadeFinal, n);
    FlatMapMember(classes, f, x);
    FetchAssocDistinct(s.classes, ClassKey);
    if x in DoCheck(d, s, t, decode) {
      var k :| 0 <= k < |classes| && x in f(classes[k]);
      ClassIncidentsFinal(d, s, t, decode, targetClasses, classes[k], n);
      FindDistinct(classes, ClassKey, k);
    }
    if ClassNamed(s, n).Some? {
      FetchAssocHasKey(s.classes, ClassKey, n);
      FindIn(classes, ClassKey, n);
      var c := ClassNamed(s, n).value;
      var k :| 0 <= k < |classes| && classes[k] == c;
      ClassIncidentsFinal(d, s, t, decode, targetClasses, c, n);
    }
  }

  /** In the standard dialect a method's scope is reported reduced exactly when the target scope is lower. */
  lemma GenericScopeReduced(className: string, source: Member, target: Member, sourceSignature: string, targetSignature: string)
    ensures (exists i :: i in ProcessMethod(Generic, className, source, target, sourceSignature, targetSignature) && i.Type == MethodScopeReduced)
      <==> source.Scope > target.Scope
  {
    ProcessMethodIncidents(Generic, className, source, target, sourceSignature, targetSignature);
  }

  /** In the In-Portal dialect an event of an event handler, or a scope-exempt method of one, is never reported as scope-reduced. */
  lemma EventScopeNeverReduced(className: string, source: Member, target: Member, sourceSignature: string, targetSignature: string)
    requires IsEventHandler(className) && (IsEvent(source.Name) || IgnoreScopeChange(source.Name))
    ensures !exists i :: i in ProcessMethod(InPortalConventions, className, source, target, sourceSignature, targetSignature) && i.Type == MethodScopeReduced
  {
    ProcessMethodIncidents(InPortalConventions, className, source, target, sourceSignature, targetSignature);
  }

  /** In the In-Portal dialect a tag of a tag processor is never reported as scope-reduced. */
  lemma TagScopeNeverReduced(className: string, source: Member, target: Member, sourceSignature: string, targetSignature: string)
    requires IsTagProcessor(className) && sourceSignature == "array $params"
    ensures !exists i :: i in ProcessMethod(InPortalConventions, className, source, target, sourceSignature, targetSignature) && i.Type == MethodScopeReduced
  {
    ProcessMethodIncidents(InPortalConventions, className, source, target, sourceSignature, targetSignature);
  }
}

=== FILE: constant_checker.dfy ===
/**
 * The constant checker: every global constant name of the source snapshot
 * must still be declared in the target.
 */
module ConstantChecker {
  import opened Sequences
  import opened Snapshots
  import opened Incidents

  /** `getName`. */
  function Name(): string {
    "constant"
  }

  /** One iteration of `doCheck`: a name missing from the target list is reported. */
  function ConstantIncidents(target: seq<string>, name: string): (r: seq<Incident>)
    ensures r == [] <==> name in target
    ensures r != [] ==> r == [Incidents.Plain(ConstantDeleted, name)]
  {
    if name in target then [] else [Incidents.Plain(ConstantDeleted, name)]
  }

  /** `doCheck`: the source names in table order, duplicates included (`fetchCol` does not de-duplicate). */
  function DoCheck(s: Snapshot, t: Snapshot): seq<Incident> {
    FlatMap(s.constantNames, n => ConstantIncidents(t.constantNames, n))
  }

  /** The names the checker reports, in the order it reports them. */
  function Missing(source: seq<string>, target: seq<string>): (r: seq<string>)
    ensures forall n :: n in r <==> n in source && n !in target
  {
    var r := Filter(source, n => n !in target);
    assert forall n :: n in r ==> n in source && n !in target by {
      forall n | n in r ensures n in source && n !in target {
        var k :| 0 <= k < |r| && r[k] == n;
      }
    }
    r
  }

  /** One `constant.deleted` per name, in order. */
  function Reported(names: seq<string>): (r: seq<Incident>)
    ensures |r| == |names|
    ensures forall k :: 0 <= k < |r| ==> r[k] == Incidents.Plain(ConstantDeleted, names[k])
    decreases |names|
  {
    if |names| == 0 then [] else [Incidents.Plain(ConstantDeleted, names[0])] + Reported(names[1..])
  }

  /** The incidents are exactly one `constant.deleted` per missing source name, in source order. */
  lemma IncidentsAreMissing(source: seq<string>, target: seq<string>)
    ensures FlatMap(source, n => ConstantIncidents(target, n)) == Reported(Filter(source, n => n !in target))
  {
    ReportedMissing(source, target, n => ConstantIncidents(target, n), n => n !in target);
  }

  /** `IncidentsAreMissing` for any functions that behave like the loop body and its test. */
  lemma {:induction false} ReportedMissing(source: seq<string>, target: seq<string>, f: string -> seq<Incident>, p: string -> bool)
    requires forall n :: f(n) == ConstantIncidents(target, n)
    requires forall n :: p(n) == (n !in target)
    ensures FlatMap(source, f) == Reported(Filter(source, p))
    decreases |source|
  {
    if |source| > 0 {
      ReportedMissing(source[1..], target, f, p);
    }
  }

  /** `constant.deleted` is reported for a name exactly when the source declares it and the target does not. */
  lemma ConstantDeletedExactly(s: Snapshot, t: Snapshot, n: string)
    ensures Incidents.Plain(ConstantDeleted, n) in DoCheck(s, t) <==> n in s.constantNames && n !in t.constantNames
  {
    var r := DoCheck(s, t);
    var m := Missing(s.constantNames, t.constantNames);
    IncidentsAreMissing(s.constantNames, t.constantNames);
    if Incidents.Plain(ConstantDeleted, n) in r {
      var k :| 0 <= k < |r| && r[k] == Incidents.Plain(ConstantDeleted, n);
      assert m[k] == n;
    }
    if n in s.constantNames && n !in t.constantNames {
      var k :| 0 <= k < |m| && m[k] == n;
      assert r[k] == Incidents.Plain(ConstantDeleted, n);
    }
  }

  /** Comparing a snapshot with itself reports nothing. */
  lemma DoCheckIdentity(s: Snapshot)
    ensures DoCheck(s, s) == []
  {
    forall k | 0 <= k < |s.constantNames|
      ensures ConstantIncidents(s.constantNames, s.constantNames[k]) == []
    {
    }
  }
}

=== FILE: function_checker.dfy ===
/**
 * The function checker: every function of the source snapshot must still
 * exist in the target, with a compatible parameter signature.
 */
module FunctionChecker {
  import opened Wrappers
  import opened Sequences
  import opened Assoc
  import opened Snapshots
  import opened Incidents
  import opened AbstractChecker
  import opened SignatureProofs

  /** `getName`. */
  function Name(): string {
    "function"
  }

  /** `getFunctionParameterSignature`: the function's parameters by position, rendered and joined by `, `. */
  function FunctionSignature(s: Snapshot, decode: string -> string, functionId: int): string {
    Signature(ParametersOf(s.functionParameters, functionId), p => ParamToString(p, decode))
  }

  /**
   * Which compatibility rule decides a signature change: the rule as the
   * code writes it, or the corrected per-parameter rule.
   */
  datatype Rule = AsWritten | Corrected

  predicate Compatible(rule: Rule, sourceSignature: string, targetSignature: string) {
    match rule
    case AsWritten => IsParamSignatureCompatible(sourceSignature, targetSignature)
    case Corrected => IsParamSignatureCompatibleFixed(sourceSignature, targetSignature)
  }

  /** `processFunction`: a signature change is reported when the target signature is not compatible with the source one. */
  function ProcessFunction(rule: Rule, name: string, sourceSignature: string, targetSignature: string): (r: seq<Incident>)
    ensures r == [] <==> Compatible(rule, sourceSignature, targetSignature)
    ensures r != [] ==> r == [AddIncident(FunctionSignatureChanged, name, Some(sourceSignature), Some(targetSignature))]
    ensures sourceSignature == targetSignature ==> r == []
    ensures forall i :: i in r ==> i.Element == name && i.Type == FunctionSignatureChanged
  {
    if Compatible(rule, sourceSignature, targetSignature) then []
    else [AddIncident(FunctionSignatureChanged, name, Some(sourceSignature), Some(targetSignature))]
  }

  /** One iteration of `doCheck`'s loop over the source functions. */
  function FunctionIncidents(rule: Rule, s: Snapshot, t: Snapshot, decode: string -> string, targetFunctions: seq<FunctionRow>, f: FunctionRow): (r: seq<Incident>)
    ensures |r| <= 1
    ensures forall i :: i in r ==> i.Element == f.Name && CategoryOf(i.Type) == FunctionCategory
    ensures !HasKey(targetFunctions, FunctionKey, f.Name) ==> r == [Incidents.Plain(FunctionDeleted, f.Name)]
  {
    if !HasKey(targetFunctions, FunctionKey, f.Name) then [Incidents.Plain(FunctionDeleted, f.Name)]
    else
      var g := Find(targetFunctions, FunctionKey, f.Name).value;
      ProcessFunction(rule, f.Name, FunctionSignature(s, decode, f.Id), FunctionSignature(t, decode, g.Id))
  }

  /** The loop of `doCheck` under a given rule: the source functions keyed by name, each looked up by name in the target. */
  function DoCheckWith(rule: Rule, s: Snapshot, t: Snapshot, decode: string -> string): seq<Incident> {
    var targetFunctions := FetchAssoc(t.functions, FunctionKey);
    FlatMap(FetchAssoc(s.functions, FunctionKey), f => FunctionIncidents(rule, s, t, decode, targetFunctions, f))
  }

  /** `doCheck`, deciding with the rule as written. */
  function DoCheck(s: Snapshot, t: Snapshot, decode: string -> string): seq<Incident> {
    DoCheckWith(AsWritten, s, t, decode)
  }

  /** `doCheck` with the corrected compatibility rule. */
  function DoCheckFixed(s: Snapshot, t: Snapshot, decode: string -> string): seq<Incident> {
    DoCheckWith(Corrected, s, t, decode)
  }

  /** The signature a snapshot's function of a given name is compared with (the last row of that name). */
  function SignatureOf(s: Snapshot, decode: string -> string, name: string): (r: Option<string>)
    ensures r.Some? <==> HasKey(s.functions, FunctionKey, name)
  {
    FetchAssocHasKey(s.functions, FunctionKey, name);
    var f := Find(FetchAssoc(s.functions, FunctionKey), FunctionKey, name);
    if f.Some? then Some(FunctionSignature(s, decode, f.value.Id)) else None
  }

  /** What one source function contributes, stated by name. */
  lemma FunctionIncidentsMeaning(rule: Rule, s: Snapshot, t: Snapshot, decode: string -> string, f: FunctionRow, i: Incident)
    requires f in FetchAssoc(s.functions, FunctionKey)
    requires i in FunctionIncidents(rule, s, t, decode, FetchAssoc(t.functions, FunctionKey), f)
    ensures i.Element == f.Name && HasKey(s.functions, FunctionKey, f.Name)
    ensures i.Type == FunctionDeleted <==> !HasKey(t.functions, FunctionKey, f.Name)
    ensures i.Type == FunctionSignatureChanged ==>
      && SignatureOf(s, decode, f.Name).Some? && SignatureOf(t, decode, f.Name).Some?
      && !Compatible(rule, SignatureOf(s, decode, f.Name).value, SignatureOf(t, decode, f.Name).value)
      && i == AddIncident(FunctionSignatureChanged, f.Name, SignatureOf(s, decode, f.Name), SignatureOf(t, decode, f.Name))
  {
    FetchAssocDistinct(s.functions, FunctionKey);
    FindMember(FetchAssoc(s.functions, FunctionKey), FunctionKey, f);
    FetchAssocFrom(s.functions, FunctionKey, f);
    HasKeyMember(s.functions, FunctionKey, f);
    FetchAssocHasKey(t.functions, FunctionKey, f.Name);
  }

  /** Every incident names a source function and says what happened to it. */
  lemma DoCheckMeaning(rule: Rule, s: Snapshot, t: Snapshot, decode: string -> string, i: Incident)
    requires i in DoCheckWith(rule, s, t, decode)
    ensures HasKey(s.functions, FunctionKey, i.Element)
    ensures i.Type == FunctionDeleted <==> !HasKey(t.functions, FunctionKey, i.Element)
    ensures i.Type == FunctionSignatureChanged ==>
      && SignatureOf(s, decode, i.Element).Some? && SignatureOf(t, decode, i.Element).Some?
      && !Compatible(rule, SignatureOf(s, decode, i.Element).value, SignatureOf(t, decode, i.Element).value)
  {
    var functions := FetchAssoc(s.functions, FunctionKey);
    var f := g => FunctionIncidents(rule, s, t, decode, FetchAssoc(t.functions, FunctionKey), g);
    FlatMapMember(functions, f, i);
    var k :| 0 <= k < |functions| && i in f(functions[k]);
    FunctionIncidentsMeaning(rule, s, t, decode, functions[k], i);
  }

  /** `function.deleted` is reported for a name exactly when the source has a function of that name and the target has none. */
  lemma FunctionDeletedExactly(rule: Rule, s: Snapshot, t: Snapshot, decode: string -> string, n: string)
    ensures Incidents.Plain(FunctionDeleted, n) in DoCheckWith(rule, s, t, decode)
      <==> HasKey(s.functions, FunctionKey, n) && !HasKey(t.functions, FunctionKey, n)
  {
    var x := Incidents.Plain(FunctionDeleted, n);
    if x in DoCheckWith(rule, s, t, decode) {
      DoCheckMeaning(rule, s, t, decode, x);
    }
    if HasKey(s.functions, FunctionKey, n) && !HasKey(t.functions, FunctionKey, n) {
      var functions := FetchAssoc(s.functions, FunctionKey);
      var targetFunctions := FetchAssoc(t.functions, FunctionKey);
      FetchAssocHasKey(s.functions, FunctionKey, n);
      FetchAssocHasKey(t.functions, FunctionKey, n);
      FindIn(functions, FunctionKey, n);
      var g := Find(functions, FunctionKey, n).value;
      var k :| 0 <= k < |functions| && functions[k] == g;
      FlatMapMember(functions, f => FunctionIncidents(rule, s, t, decode, targetFunctions, f), x);
    }
  }

  /** A signature change is reported for a name exactly when both sides have the function and the signatures are incompatible. */
  lemma SignatureChangedExactly(rule: Rule, s: Snapshot, t: Snapshot, decode: string -> string, n: string)
    ensures (exists i :: i in DoCheckWith(rule, s, t, decode) && i.Type == FunctionSignatureChanged && i.Element == n)
      <==> && SignatureOf(s, decode, n).Some? && SignatureOf(t, decode, n).Some?
           && !Compatible(rule, SignatureOf(s, decode, n).value, SignatureOf(t, decode, n).value)
  {
    if exists i :: i in DoCheckWith(rule, s, t, decode) && i.Type == FunctionSignatureChanged && i.Element == n {
      var i :| i in DoCheckWith(rule, s, t, decode) && i.Type == FunctionSignatureChanged && i.Element == n;
      DoCheckMeaning(rule, s, t, decode, i);
    }
    if SignatureOf(s, decode, n).Some? && SignatureOf(t, decode, n).Some?
      && !Compatible(rule, SignatureOf(s, decode, n).value, SignatureOf(t, decode, n).value)
    {
      var functions := FetchAssoc(s.functions, FunctionKey);
      var targetFunctions := FetchAssoc(t.functions, FunctionKey);
      FetchAssocHasKey(s.functions, FunctionKey, n);
      FetchAssocHasKey(t.functions, FunctionKey, n);
      FindIn(functions, FunctionKey, n);
      var g := Find(functions, FunctionKey, n).value;
      var k :| 0 <= k < |functions| && functions[k] == g;
      var i := AddIncident(FunctionSignatureChanged, n, SignatureOf(s, decode, n), SignatureOf(t, decode, n));
      assert i in FunctionIncidents(rule, s, t, decode, targetFunctions, g);
      FlatMapMember(functions, f => FunctionIncidents(rule, s, t, decode, targetFunctions, f), i);
    }
  }

  /** Comparing a snapshot with itself reports nothing. */
  lemma DoCheckIdentity(rule: Rule, s: Snapshot, decode: string -> string)
    ensures DoCheckWith(rule, s, s, decode) == []
  {
    var functions := FetchAssoc(s.functions, FunctionKey);
    FetchAssocDistinct(s.functions, FunctionKey);
    forall k | 0 <= k < |functions|
      ensures FunctionIncidents(rule, s, s, decode, functions, functions[k]) == []
    {
      FindMember(functions, FunctionKey, functions[k]);
    }
  }

  /** The program's check reports the signature change of a name exactly when both sides have the function and the rule as written rejects the new signature. */
  lemma SignatureChangedAsWritten(s: Snapshot, t: Snapshot, decode: string -> string, n: string)
    ensures (exists i :: i in DoCheck(s, t, decode) && i.Type == FunctionSignatureChanged && i.Element == n)
      <==> && SignatureOf(s, decode, n).Some? && SignatureOf(t, decode, n).Some?
           && !IsParamSignatureCompatible(SignatureOf(s, decode, n).value, SignatureOf(t, decode, n).value)
  {
    SignatureChangedExactly(AsWritten, s, t, decode, n);
  }

  /** Every incident the corrected check reports, the check as written reports too. */
  lemma {:induction false} FixedReportsLess(s: Snapshot, t: Snapshot, decode: string -> string)
    ensures forall i :: i in DoCheckFixed(s, t, decode) ==> i in DoCheck(s, t, decode)
  {
    var functions := FetchAssoc(s.functions, FunctionKey);
    var targetFunctions := FetchAssoc(t.functions, FunctionKey);
    var fixed := f => FunctionIncidents(Corrected, s, t, decode, targetFunctions, f);
    var written := f => FunctionIncidents(AsWritten, s, t, decode, targetFunctions, f);
    forall i | i in DoCheckFixed(s, t, decode)
      ensures i in DoCheck(s, t, decode)
    {
      FlatMapMember(functions, fixed, i);
      var k :| 0 <= k < |functions| && i in fixed(functions[k]);
      var f := functions[k];
      if HasKey(targetFunctions, FunctionKey, f.Name) {
        var g := Find(targetFunctions, FunctionKey, f.Name).value;
        AsWrittenImpliesFixed(FunctionSignature(s, decode, f.Id), FunctionSignature(t, decode, g.Id));
      }
      assert i in written(functions[k]);
      FlatMapMember(functions, written, i);
    }
  }

  /** The finding at the level of the function checker: making `$a` optional before the optional `$b` is reported as written, and not by the corrected rule. */
  lemma FindingReported(name: string, source: string, target: string)
    requires source == "$a, $b = 1" && target == "$a = 0, $b = 1"
    ensures ProcessFunction(AsWritten, name, source, target)
      == [AddIncident(FunctionSignatureChanged, name, Some(source), Some(target))]
    ensures ProcessFunction(Corrected, name, source, target) == []
  {
    AsWrittenRejectsExample(source, target);
  }
}

=== FILE: incidents.dfy ===
/**
 * The incident record every checker emits and every reporter and filter
 * consumes: a flat record with `type`, `element` and, together or not at all,
 * `old` and `new`.
 */
module Incidents {
  import opened Wrappers

  /** The incident types the checkers declare as class constants. */
  datatype IncidentType =
    | ClassDeleted
    | ClassMadeAbstract
    | ClassMadeFinal
    | ClassConstantDeleted
    | PropertyDeleted
    | PropertyMadeStatic
    | PropertyMadeNonStatic
    | PropertyScopeReduced
    | MethodDeleted
    | MethodMadeAbstract
    | MethodMadeFinal
    | MethodMadeStatic
    | MethodMadeNonStatic
    | MethodScopeReduced
    | MethodSignatureChanged
    | FunctionDeleted
    | FunctionSignatureChanged
    | ConstantDeleted

  /** The wire name of an incident type, e.g. `class.deleted`. */
  function TypeName(t: IncidentType): string {
    match t
    case ClassDeleted => "class.deleted"
    case ClassMadeAbstract => "class.made_abstract"
    case ClassMadeFinal => "class.made_final"
    case ClassConstantDeleted => "class.constant.deleted"
    case PropertyDeleted => "property.deleted"
    case PropertyMadeStatic => "property.made_static"
    case PropertyMadeNonStatic => "property.made_non_static"
    case PropertyScopeReduced => "property.scope_reduced"
    case MethodDeleted => "method.deleted"
    case MethodMadeAbstract => "method.made_abstract"
    case MethodMadeFinal => "method.made_final"
    case MethodMadeStatic => "method.made_static"
    case MethodMadeNonStatic => "method.made_non_static"
    case MethodScopeReduced => "method.scope_reduced"
    case MethodSignatureChanged => "method.signature_changed"
    case FunctionDeleted => "function.deleted"
    case FunctionSignatureChanged => "function.signature_changed"
    case ConstantDeleted => "constant.deleted"
  }

  /** What an incident is about: the part of the wire name before the last dot. */
  datatype Category = ClassCategory | ClassConstantCategory | PropertyCategory | MethodCategory | FunctionCategory | ConstantCategory

  function CategoryOf(t: IncidentType): Category {
    match t
    case ClassDeleted | ClassMadeAbstract | ClassMadeFinal => ClassCategory
    case ClassConstantDeleted => ClassConstantCategory
    case PropertyDeleted | PropertyMadeStatic | PropertyMadeNonStatic | PropertyScopeReduced => PropertyCategory
    case MethodDeleted | MethodMadeAbstract | MethodMadeFinal | MethodMadeStatic | MethodMadeNonStatic
      | MethodScopeReduced | MethodSignatureChanged => MethodCategory
    case FunctionDeleted | FunctionSignatureChanged => FunctionCategory
    case ConstantDeleted => ConstantCategory
  }

  /**
   * One incident. The PHP record carries the wire name of `Type` and carries
   * the `old` and `new` keys exactly when one of the two values is non-null,
   * so a record without those keys is the one whose `Old` and `New` are both
   * `None`.
   */
  datatype Incident = Incident(Type: IncidentType, Element: string, Old: Option<string>, New: Option<string>)

  /** The record has `old`/`new` keys. */
  predicate HasValues(i: Incident) {
    i.Old.Some? || i.New.Some?
  }

  /** `addIncident(type, element, old, new)`. */
  function AddIncident(t: IncidentType, element: string, oldValue: Option<string>, newValue: Option<string>): (r: Incident)
    ensures r.Type == t && r.Element == element
    ensures HasValues(r) <==> oldValue.Some? || newValue.Some?
    ensures HasValues(r) ==> r.Old == oldValue && r.New == newValue
    ensures !HasValues(r) ==> r.Old.None? && r.New.None?
  {
    if oldValue.Some? || newValue.Some? then Incident(t, element, oldValue, newValue)
    else Incident(t, element, None, None)
  }

  /** `addIncident(type, element)` with both values left null. */
  function Plain(t: IncidentType, element: string): (r: Incident)
    ensures r.Type == t && r.Element == element && !HasValues(r)
  {
    AddIncident(t, element, None, None)
  }

  /**
   * An incident as the PHP array the filter and the reporters receive:
   * `type` is the wire name, and `old`/`new` read as `null` when absent or
   * null.
   */
  datatype Record = Record(Type: string, Element: string, Old: Option<string>, New: Option<string>)
}

=== FILE: inportal.dfy ===
/**
 * The In-Portal dialect of the class checker: event handlers and tag
 * processors follow naming conventions under which some parameter spellings
 * are interchangeable and some scope reductions are harmless.
 */
module InPortal {
  import opened PhpStrings

  /** Methods whose scope may shrink in an event handler. */
  const IgnoreScopeChangeMethods: seq<string> := ["mapPermissions", "SetCustomQuery"]

  /** `isEventHandler`: the class name ends in `EventHandler` or is `AdminEventsHandler`. */
  predicate IsEventHandler(className: string) {
    EndsWith(className, "EventHandler") || className == "AdminEventsHandler"
  }

  /** `isTagProcessor`: the class name ends in `TagProcessor`. */
  predicate IsTagProcessor(className: string) {
    EndsWith(className, "TagProcessor")
  }

  /** `isEvent`: the method name starts with `On`. */
  predicate IsEvent(methodName: string) {
    StartsWith(methodName, "On")
  }

  /** `ignoreScopeChange`. */
  predicate IgnoreScopeChange(methodName: string) {
    methodName in IgnoreScopeChangeMethods
  }

  /**
   * The dialect's `paramToString` post-processing of one rendered parameter:
   * in an event handler every spelling of the event parameter becomes
   * `$event`; otherwise, in a tag processor, `$params` becomes
   * `array $params`.
   */
  function NormalizeToken(className: string, token: string): (r: string)
    ensures !IsEventHandler(className) && !IsTagProcessor(className) ==> r == token
    ensures '$' !in token ==> r == token
  {
    if IsEventHandler(className) then
      var a := ReplaceAll(token, "&$event", "$event");
      var b := ReplaceAll(a, "\\kEvent $event", "$event");
      var r := ReplaceAll(b, "kEvent $event", "$event");
      assert '$' !in token ==> r == token by {
        if '$' !in token {
          ReplaceAllAbsent(token, "&$event", "$event", '$');
          ReplaceAllAbsent(token, "\\kEvent $event", "$event", '$');
          ReplaceAllAbsent(token, "kEvent $event", "$event", '$');
        }
      }
      r
    else if IsTagProcessor(className) then
      var a := ReplaceAll(token, "array $params", "$params");
      var r := ReplaceAll(a, "$params", "array $params");
      assert '$' !in token ==> r == token by {
        if '$' !in token {
          ReplaceAllAbsent(token, "array $params", "$params", '$');
          ReplaceAllAbsent(token, "$params", "array $params", '$');
        }
      }
      r
    else token
  }

  /**
   * The target scope `processMethod` compares against: an event or
   * scope-exempt method of an event handler, and a tag of a tag processor,
   * keep their source scope.
   */
  function EffectiveTargetScope(className: string, methodName: string, sourceSignature: string, sourceScope: int, targetScope: int): (r: int)
    ensures (IsEventHandler(className) && (IsEvent(methodName) || IgnoreScopeChange(methodName))) ==> r == sourceScope
    ensures (IsTagProcessor(className) && sourceSignature == "array $params") ==> r == sourceScope
    ensures r == sourceScope || r == targetScope
  {
    var t := if IsEventHandler(className) && (IsEvent(methodName) || IgnoreScopeChange(methodName)) then sourceScope else targetScope;
    if IsTagProcessor(className) && sourceSignature == "array $params" then sourceScope else t
  }

  /** Outside the two naming conventions the target scope is used as is. */
  lemma ScopeKeptOutsideConventions(className: string, methodName: string, sourceSignature: string, sourceScope: int, targetScope: int)
    requires !IsEventHandler(className) && !IsTagProcessor(className)
    ensures EffectiveTargetScope(className, methodName, sourceSignature, sourceScope, targetScope) == targetScope
  {
  }

  /** A pattern with a character the subject lacks, or longer than it, is not replaced. */
  lemma ReplaceAllAbsent(s: string, search: string, replace: string, c: char)
    requires c in search && (c !in s || |s| < |search|)
    ensures ReplaceAll(s, search, replace) == s
  {
    if Occurs(s, search) {
      OccursLength(s, search);
      OccursChars(s, search, c);
    }
  }

  /** Every spelling of the event parameter renders as `$event` in an event handler. */
  lemma EventParameterSpellings(className: string, event: string, byRef: string, typed: string, qualified: string)
    requires IsEventHandler(className)
    requires event == "$event" && byRef == "&$event" && typed == "kEvent $event" && qualified == "\\kEvent $event"
    ensures NormalizeToken(className, event) == event
    ensures NormalizeToken(className, byRef) == event
    ensures NormalizeToken(className, typed) == event
    ensures NormalizeToken(className, qualified) == event
  {
    PlainEventSpelling(className, event, byRef, typed, qualified);
    ByRefEventSpelling(className, event, byRef, typed, qualified);
    TypedEventSpelling(className, event, byRef, typed, qualified);
    QualifiedEventSpelling(className, event, byRef, typed, qualified);
  }

  lemma PlainEventSpelling(className: string, event: string, byRef: string, typed: string, qualified: string)
    requires IsEventHandler(className)
    requires event == "$event" && byRef == "&$event" && typed == "kEvent $event" && qualified == "\\kEvent $event"
    ensures NormalizeToken(className, event) == event
  {
    assert byRef[0] == '&' && typed[0] == 'k' && qualified[0] == '\\';
    assert '&' !in event && 'k' !in event && '\\' !in event;
    ReplaceAllAbsent(event, byRef, event, '&');
    ReplaceAllAbsent(event, qualified, event, '\\');
    ReplaceAllAbsent(event, typed, event, 'k');
  }

  lemma ByRefEventSpelling(className: string, event: string, byRef: string, typed: string, qualified: string)
    requires IsEventHandler(className)
    requires event == "$event" && byRef == "&$event" && typed == "kEvent $event" && qualified == "\\kEvent $event"
    ensures NormalizeToken(className, byRef) == event
  {
    assert typed[0] == 'k' && qualified[0] == '\\';
    assert 'k' !in event && '\\' !in event;
    ReplaceAllAbsent(event, qualified, event, '\\');
    ReplaceAllAbsent(event, typed, event, 'k');
  }

  lemma TypedEventSpelling(className: string, event: string, byRef: string, typed: string, qualified: string)
    requires IsEventHandler(className)
    requires event == "$event" && byRef == "&$event" && typed == "kEvent $event" && qualified == "\\kEvent $event"
    ensures NormalizeToken(className, typed) == event
  {
    assert byRef[0] == '&' && qualified[0] == '\\';
    assert '&' !in typed && '\\' !in typed;
    ReplaceAllAbsent(typed, byRef, event, '&');
    ReplaceAllAbsent(typed, qualified, event, '\\');
  }

  lemma QualifiedEventSpelling(className: string, event: string, byRef: string, typed: string, qualified: string)
    requires IsEventHandler(className)
    requires event == "$event" && byRef == "&$event" && typed == "kEvent $event" && qualified == "\\kEvent $event"
    ensures NormalizeToken(className, qualified) == event
  {
    assert byRef[0] == '&' && typed[0] == 'k';
    assert '&' !in qualified && 'k' !in event;
    ReplaceAllAbsent(qualified, byRef, event, '&');
    ReplaceAllAbsent(event, typed, event, 'k');
  }

  /**
   * In an event handler the default part of a rendered parameter (` = ...`)
   * is normalised on its own: no event spelling reaches across the ` =`.
   */
  lemma NormalizeSplit(className: string, h: string, y: string)
    requires IsEventHandler(className)
    requires |y| >= 2 && y[0] == ' ' && y[1] == '='
    ensures NormalizeToken(className, h + y) == NormalizeToken(className, h) + NormalizeToken(className, y)
  {
    var p1, p2, p3, e := "&$event", "\\kEvent $event", "kEvent $event", "$event";
    assert p1[0] == '&' && p1[|p1| - 1] == 't' && '=' !in p1;
    assert p2[0] == '\\' && p2[|p2| - 1] == 't' && '=' !in p2;
    assert p3[0] == 'k' && p3[|p3| - 1] == 't' && '=' !in p3;
    NoStraddleDefault(h, y, p1);
    ReplaceAllSplit(h, y, p1, e);
    ReplaceAllKeepsDefault(y, p1, e);
    var h1, y1 := ReplaceAll(h, p1, e), ReplaceAll(y, p1, e);
    NoStraddleDefault(h1, y1, p2);
    ReplaceAllSplit(h1, y1, p2, e);
    ReplaceAllKeepsDefault(y1, p2, e);
    var h2, y2 := ReplaceAll(h1, p2, e), ReplaceAll(y1, p2, e);
    NoStraddleDefault(h2, y2, p3);
    ReplaceAllSplit(h2, y2, p3, e);
  }

  /** Passing the event by reference is spelled away first: `T &$event` normalises like `T $event`. */
  lemma ByRefLikeByValue(className: string, prefix: string)
    requires IsEventHandler(className) && '&' !in prefix
    ensures NormalizeToken(className, prefix + "&$event") == NormalizeToken(className, prefix + "$event")
  {
    var p1, e := "&$event", "$event";
    assert p1[0] == '&' && '&' !in e;
    NoStraddleFirst(prefix, p1, p1);
    ReplaceAllSplit(prefix, p1, p1, e);
    ReplaceAllAbsent(prefix, p1, e, '&');
    assert '&' !in prefix + e;
    ReplaceAllAbsent(prefix + e, p1, e, '&');
  }

  /**
   * Each spelling of the event parameter without a default, untyped or typed
   * `kEvent` or `\kEvent`, by value or by reference, normalises to `$event`.
   */
  lemma EventHeadNormalized(className: string, prefix: string, byRef: bool)
    requires IsEventHandler(className)
    requires prefix == "" || prefix == "kEvent " || prefix == "\\kEvent "
    ensures NormalizeToken(className, prefix + (if byRef then "&$event" else "$event")) == "$event"
  {
    var event, ref, typed, qualified := "$event", "&$event", "kEvent $event", "\\kEvent $event";
    if prefix == "" {
      if byRef {
        ByRefLikeByValue(className, prefix);
      }
      assert prefix + event == event;
      PlainEventSpelling(className, event, ref, typed, qualified);
    } else if prefix == "kEvent " {
      if byRef {
        assert forall k | 0 <= k < |prefix| :: prefix[k] != '&';
        ByRefLikeByValue(className, prefix);
      }
      assert prefix + event == typed;
      TypedEventSpelling(className, event, ref, typed, qualified);
    } else {
      if byRef {
        assert forall k | 0 <= k < |prefix| :: prefix[k] != '&';
        ByRefLikeByValue(className, prefix);
      }
      assert prefix + event == qualified;
      QualifiedEventSpelling(className, event, ref, typed, qualified);
    }
  }

  /** Both spellings of the tag parameter render as `array $params` in a tag processor. */
  lemma TagParameterSpellings(className: string, params: string, typed: string)
    requires IsTagProcessor(className) && !IsEventHandler(className)
    requires params == "$params" && typed == "array $params"
    ensures NormalizeToken(className, params) == typed
    ensures NormalizeToken(className, typed) == typed
  {
    assert typed[4] == 'y' && 'y' !in params;
    ReplaceAllAbsent(params, typed, params, 'y');
  }
}

=== FILE: inportal_proofs.dfy ===
/**
 * What the In-Portal parameter rendering buys an event handler: every
 * spelling of the event parameter, with or without a default, renders the
 * same, so changing one spelling for another never changes a method's
 * signature and is never reported as `method.signature_changed`.
 */
module InPortalProofs {
  import opened Wrappers
  import opened PhpStrings
  import opened Snapshots
  import opened Incidents
  import opened AbstractChecker
  import opened InPortal
  import opened ClassChecker

  /** A spelling of the event parameter: named `event`, untyped or typed `kEvent` or `\kEvent`, by value or by reference. */
  predicate EventSpelling(p: Parameter) {
    p.Name == "event" && (!Truthy(TypeOf(p)) || TypeOf(p) == "kEvent" || TypeOf(p) == "\\kEvent")
  }

  /**
   * In an event handler every spelling of the event parameter renders as
   * `$event`, followed by its normalised default part when it has one; so
   * `kEvent $event = NULL` renders as `$event = NULL`.
   */
  lemma EventParameterRendering(className: string, p: Parameter, decode: string -> string)
    requires IsEventHandler(className) && EventSpelling(p)
    ensures !p.HasDefaultValue ==> Render(InPortalConventions, className, decode)(p) == "$event"
    ensures p.HasDefaultValue ==>
      Render(InPortalConventions, className, decode)(p) == "$event" + NormalizeToken(className, " = " + DefaultText(p, decode))
  {
    EventHeadRendersEvent(className, p);
    ParamTokenShape(p, decode);
    RenderedEvent(className, ParamHead(p), p.HasDefaultValue, DefaultText(p, decode), ParamToString(p, decode));
    RenderInPortal(className, decode, p);
  }

  lemma ParamTokenShape(p: Parameter, decode: string -> string)
    ensures ParamToString(p, decode) == if p.HasDefaultValue then ParamHead(p) + " = " + DefaultText(p, decode) else ParamHead(p)
  {
  }

  lemma RenderInPortal(className: string, decode: string -> string, p: Parameter)
    ensures Render(InPortalConventions, className, decode)(p) == NormalizeToken(className, ParamToString(p, decode))
  {
  }

  /** A token made of a head that normalises to `$event` and an optional default part. */
  lemma RenderedEvent(className: string, h: string, hasDefault: bool, d: string, r: string)
    requires IsEventHandler(className) && NormalizeToken(className, h) == "$event"
    requires r == if hasDefault then h + " = " + d else h
    ensures NormalizeToken(className, r) == if hasDefault then "$event" + NormalizeToken(className, " = " + d) else "$event"
  {
    if hasDefault {
      var y := " = " + d;
      assert r == h + y;
      NormalizeSplit(className, h, y);
    }
  }

  /** The type prefix `ParamHead` puts before the sigil. */
  function TypePrefix(p: Parameter): string {
    if Truthy(TypeOf(p)) then TypeOf(p) + " " else ""
  }

  lemma EventHeadShape(p: Parameter)
    requires EventSpelling(p)
    ensures ParamHead(p) == TypePrefix(p) + (if p.IsPassedByReference then "&$event" else "$event")
  {
    var sigil := if p.IsPassedByReference then "&$" else "$";
    var tail := if p.IsPassedByReference then "&$event" else "$event";
    assert ParamHead(p) == TypePrefix(p) + sigil + p.Name;
    SigilThenName(sigil, p.Name, tail);
    Regroup(TypePrefix(p), sigil, p.Name, tail);
  }

  lemma SigilThenName(sigil: string, name: string, tail: string)
    requires name == "event"
    requires (sigil == "&$" && tail == "&$event") || (sigil == "$" && tail == "$event")
    ensures sigil + name == tail
  {
  }

  lemma Regroup(a: string, b: string, c: string, bc: string)
    requires bc == b + c
    ensures a + b + c == a + bc
  {
  }

  lemma EventPrefixShape(p: Parameter)
    requires EventSpelling(p)
    ensures TypePrefix(p) == "" || TypePrefix(p) == "kEvent " || TypePrefix(p) == "\\kEvent "
  {
    var t := TypeOf(p);
    if Truthy(t) {
      if t == "kEvent" {
        assert t + " " == "kEvent ";
      } else {
        assert t + " " == "\\kEvent ";
      }
    }
  }

  /** The head of every spelling of the event parameter normalises to `$event`. */
  lemma EventHeadRendersEvent(className: string, p: Parameter)
    requires IsEventHandler(className) && EventSpelling(p)
    ensures NormalizeToken(className, ParamHead(p)) == "$event"
  {
    EventHeadShape(p);
    EventPrefixShape(p);
    EventHeadNormalized(className, TypePrefix(p), p.IsPassedByReference);
  }

  /**
   * Two parameters an event handler renders alike: the same standard
   * rendering, or two spellings of the event parameter with the same default.
   */
  predicate SameSpelling(p: Parameter, q: Parameter, decode: string -> string) {
    || ParamToString(p, decode) == ParamToString(q, decode)
    || (&& EventSpelling(p) && EventSpelling(q)
        && p.HasDefaultValue == q.HasDefaultValue
        && (p.HasDefaultValue ==> DefaultText(p, decode) == DefaultText(q, decode)))
  }

  lemma SameSpellingRendersAlike(className: string, p: Parameter, q: Parameter, decode: string -> string)
    requires IsEventHandler(className) && SameSpelling(p, q, decode)
    ensures Render(InPortalConventions, className, decode)(p) == Render(InPortalConventions, className, decode)(q)
  {
    if ParamToString(p, decode) != ParamToString(q, decode) {
      EventParameterRendering(className, p, decode);
      EventParameterRendering(className, q, decode);
    }
  }

  /** Parameter lists that differ only in how the event parameter is spelled have the same In-Portal signature. */
  lemma SpellingsSameSignature(className: string, ps: seq<Parameter>, qs: seq<Parameter>, decode: string -> string)
    requires IsEventHandler(className) && |ps| == |qs|
    requires forall i :: 0 <= i < |ps| ==> SameSpelling(ps[i], qs[i], decode)
    ensures Signature(ps, Render(InPortalConventions, className, decode)) == Signature(qs, Render(InPortalConventions, className, decode))
  {
    var render := Render(InPortalConventions, className, decode);
    var a := seq(|ps|, i requires 0 <= i < |ps| => render(ps[i]));
    var b := seq(|qs|, i requires 0 <= i < |qs| => render(qs[i]));
    forall i | 0 <= i < |ps|
      ensures a[i] == b[i]
    {
      SameSpellingRendersAlike(className, ps[i], qs[i], decode);
    }
    assert a == b;
  }

  /**
   * A method of an event handler whose parameters changed only in how the
   * event parameter is spelled is not reported as `method.signature_changed`.
   */
  lemma SpellingChangeNotReported(s: Snapshot, t: Snapshot, decode: string -> string, className: string, source: Member, target: Member)
    requires IsEventHandler(className)
    requires |ParametersOf(s.methodParameters, source.Id)| == |ParametersOf(t.methodParameters, target.Id)|
    requires forall i :: 0 <= i < |ParametersOf(s.methodParameters, source.Id)| ==>
      SameSpelling(ParametersOf(s.methodParameters, source.Id)[i], ParametersOf(t.methodParameters, target.Id)[i], decode)
    ensures !exists i :: i in ProcessMethod(InPortalConventions, className, source, target,
      MethodSignature(s, InPortalConventions, className, decode, source.Id),
      MethodSignature(t, InPortalConventions, className, decode, target.Id)) && i.Type == MethodSignatureChanged
  {
    SpellingsSameSignature(className, ParametersOf(s.methodParameters, source.Id), ParametersOf(t.methodParameters, target.Id), decode);
    ProcessMethodIncidents(InPortalConventions, className, source, target,
      MethodSignature(s, InPortalConventions, className, decode, source.Id),
      MethodSignature(t, InPortalConventions, className, decode, target.Id));
  }
}

=== FILE: php_strings.dfy ===
/**
 * The few PHP string primitives the checkers rely on, stated over `seq<char>`:
 * string truthiness, `substr` prefix/suffix tests, `str_replace`, `explode` and
 * `implode` with the `", "` separator, and the sign of `strcmp`.
 */
module PhpStrings {

  /** PHP's boolean reading of a string: only `""` and `"0"` are false. */
  predicate Truthy(s: string) {
    s != "" && s != "0"
  }

  predicate StartsWith(s: string, prefix: string) {
    |prefix| <= |s| && s[..|prefix|] == prefix
  }

  predicate EndsWith(s: string, suffix: string) {
    |suffix| <= |s| && s[|s| - |suffix|..] == suffix
  }

  /** Appending keeps a prefix and every character. */
  lemma StartsWithAppend(s: string, t: string, prefix: string)
    requires StartsWith(s, prefix)
    ensures StartsWith(s + t, prefix)
    ensures forall c :: c in s ==> c in s + t
  {
    assert (s + t)[..|prefix|] == s[..|prefix|];
    forall c | c in s
      ensures c in s + t
    {
      var k :| 0 <= k < |s| && s[k] == c;
      assert (s + t)[k] == c;
    }
  }

  /** `pat` occurs somewhere in `s` (PHP `strpos(...) !== false`). */
  predicate Occurs(s: string, pat: string)
    decreases |s|
  {
    StartsWith(s, pat) || (|s| > 0 && Occurs(s[1..], pat))
  }

  /** An occurrence needs room: the pattern is no longer than the subject. */
  lemma {:induction false} OccursLength(s: string, pat: string)
    requires Occurs(s, pat)
    ensures |pat| <= |s|
    decreases |s|
  {
    if !StartsWith(s, pat) {
      OccursLength(s[1..], pat);
    }
  }

  /** Every character of an occurring pattern is a character of the subject. */
  lemma {:induction false} OccursChars(s: string, pat: string, c: char)
    requires Occurs(s, pat) && c in pat
    ensures c in s
    decreases |s|
  {
    if StartsWith(s, pat) {
      var k :| 0 <= k < |pat| && pat[k] == c;
      assert s[..|pat|][k] == c;
    } else {
      OccursChars(s[1..], pat, c);
    }
  }

  /**
   * PHP `str_replace(search, replace, s)` for one search string: occurrences
   * are replaced left to right without overlapping, and an empty search
   * string leaves the subject unchanged.
   */
  function ReplaceAll(s: string, search: string, replace: string): (r: string)
    ensures !Occurs(s, search) ==> r == s
    ensures |search| > 0 && s == search ==> r == replace
    decreases |s|
  {
    if |search| == 0 || |s| < |search| then s
    else if s[..|search|] == search then replace + ReplaceAll(s[|search|..], search, replace)
    else [s[0]] + ReplaceAll(s[1..], search, replace)
  }

  /** `pat` occurs in `s` at index `i`. */
  predicate StartsAt(s: string, i: int, pat: string) {
    0 <= i && i + |pat| <= |s| && s[i..i + |pat|] == pat
  }

  /** No occurrence of `pat` in `x + y` starts inside `x` and ends inside `y`. */
  predicate NoStraddle(x: string, y: string, pat: string) {
    forall i :: 0 <= i < |x| < i + |pat| ==> !StartsAt(x + y, i, pat)
  }

  /** Without a straddling occurrence, `str_replace` works on the two halves separately. */
  lemma {:induction false} ReplaceAllSplit(x: string, y: string, pat: string, rep: string)
    requires |pat| > 0 && NoStraddle(x, y, pat)
    ensures ReplaceAll(x + y, pat, rep) == ReplaceAll(x, pat, rep) + ReplaceAll(y, pat, rep)
    decreases |x|, 1
  {
    if |x| == 0 {
      assert x + y == y;
    } else if |x + y| < |pat| {
      assert ReplaceAll(x, pat, rep) == x && ReplaceAll(y, pat, rep) == y;
    } else if (x + y)[..|pat|] == pat {
      SplitAtMatch(x, y, pat, rep);
    } else {
      SplitPastChar(x, y, pat, rep);
    }
  }

  lemma {:induction false} SplitAtMatch(x: string, y: string, pat: string, rep: string)
    requires |pat| > 0 && NoStraddle(x, y, pat)
    requires |x| > 0 && |x + y| >= |pat| && (x + y)[..|pat|] == pat
    ensures ReplaceAll(x + y, pat, rep) == ReplaceAll(x, pat, rep) + ReplaceAll(y, pat, rep)
    decreases |x|, 0
  {
    var s := x + y;
    assert StartsAt(s, 0, pat);
    assert x[..|pat|] == pat;
    NoStraddleShift(x, y, pat, |pat|);
    ReplaceAllSplit(x[|pat|..], y, pat, rep);
    assert s[|pat|..] == x[|pat|..] + y;
  }

  lemma {:induction false} SplitPastChar(x: string, y: string, pat: string, rep: string)
    requires |pat| > 0 && NoStraddle(x, y, pat)
    requires |x| > 0 && |x + y| >= |pat| && (x + y)[..|pat|] != pat
    ensures ReplaceAll(x + y, pat, rep) == ReplaceAll(x, pat, rep) + ReplaceAll(y, pat, rep)
    decreases |x|, 0
  {
    var s := x + y;
    NoStraddleShift(x, y, pat, 1);
    var a, b := ReplaceAll(x[1..], pat, rep), ReplaceAll(y, pat, rep);
    calc {
      ReplaceAll(s, pat, rep);
      [s[0]] + ReplaceAll(s[1..], pat, rep);
      { assert s[1..] == x[1..] + y; }
      [x[0]] + ReplaceAll(x[1..] + y, pat, rep);
      { ReplaceAllSplit(x[1..], y, pat, rep); }
      [x[0]] + (a + b);
      ([x[0]] + a) + b;
      { ReplaceAllSkip(x, pat, rep); }
      ReplaceAll(x, pat, rep) + b;
    }
  }

  /** Where `pat` does not start, `str_replace` keeps the first character and moves on. */
  lemma ReplaceAllSkip(x: string, pat: string, rep: string)
    requires |pat| > 0 && |x| > 0 && !StartsWith(x, pat)
    ensures ReplaceAll(x, pat, rep) == [x[0]] + ReplaceAll(x[1..], pat, rep)
  {
    if |x| < |pat| {
      assert x == [x[0]] + x[1..];
    }
  }

  /** Dropping a prefix of `x` keeps the halves free of straddling occurrences. */
  lemma NoStraddleShift(x: string, y: string, pat: string, k: int)
    requires 0 < k <= |x| && NoStraddle(x, y, pat)
    ensures NoStraddle(x[k..], y, pat)
  {
    var s := x + y;
    assert s[k..] == x[k..] + y;
    forall i | 0 <= i < |x[k..]| < i + |pat|
      ensures !StartsAt(x[k..] + y, i, pat)
    {
      if i + |pat| <= |x[k..] + y| {
        assert (x[k..] + y)[i..i + |pat|] == s[i + k..i + k + |pat|];
        assert !StartsAt(s, i + k, pat);
      }
    }
  }

  /** A pattern whose first character is absent from `x` cannot straddle. */
  lemma NoStraddleFirst(x: string, y: string, pat: string)
    requires |pat| > 0 && pat[0] !in x
    ensures NoStraddle(x, y, pat)
  {
    forall i | 0 <= i < |x| < i + |pat|
      ensures !StartsAt(x + y, i, pat)
    {
      if i + |pat| <= |x + y| {
        assert (x + y)[i..i + |pat|][0] == x[i];
      }
    }
  }

  /**
   * A pattern without `=` that does not end in a space cannot straddle into
   * a ` =` suffix such as the default part of a rendered parameter.
   */
  lemma NoStraddleDefault(x: string, y: string, pat: string)
    requires |y| >= 2 && y[0] == ' ' && y[1] == '='
    requires |pat| > 0 && '=' !in pat && pat[|pat| - 1] != ' '
    ensures NoStraddle(x, y, pat)
  {
    forall i | 0 <= i < |x| < i + |pat|
      ensures !StartsAt(x + y, i, pat)
    {
      if i + |pat| <= |x + y| {
        var w := (x + y)[i..i + |pat|];
        if i + |pat| == |x| + 1 {
          assert w[|pat| - 1] == y[0];
        } else {
          assert w[|x| + 1 - i] == y[1];
        }
      }
    }
  }

  /** A pattern starting with neither a space nor `=` leaves a leading ` =` in place. */
  lemma ReplaceAllKeepsDefault(y: string, pat: string, rep: string)
    requires |y| >= 2 && y[0] == ' ' && y[1] == '='
    requires |pat| > 0 && pat[0] != ' ' && pat[0] != '='
    ensures ReplaceAll(y, pat, rep) == y[..2] + ReplaceAll(y[2..], pat, rep)
  {
    if |y| >= |pat| {
      assert y[..|pat|][0] == ' ';
      if |y[1..]| >= |pat| {
        assert y[1..][..|pat|][0] == '=';
      }
      assert y[1..][1..] == y[2..];
      assert ReplaceAll(y[1..], pat, rep) == [y[1]] + ReplaceAll(y[2..], pat, rep);
      assert y[..2] == [y[0]] + [y[1]];
    }
  }

  /** The separator used by every parameter-signature `implode`/`explode`. */
  const Separator: string := ", "

  /** `t` contains the separator `", "`. */
  predicate HasSeparator(t: string) {
    exists i :: 0 <= i < |t| - 1 && t[i] == ',' && t[i + 1] == ' '
  }

  /** PHP `implode(', ', parts)`. */
  function Implode(parts: seq<string>): string
  {
    if |parts| == 0 then ""
    else if |parts| == 1 then parts[0]
    else parts[0] + Separator + Implode(parts[1..])
  }

  lemma ImplodeCons(c: char, t: string, tail: seq<string>)
    ensures Implode([[c] + t] + tail) == [c] + Implode([t] + tail)
  {
    if |tail| > 0 {
      assert ([[c] + t] + tail)[1..] == tail;
      assert ([t] + tail)[1..] == tail;
    }
  }

  /**
   * PHP `explode(', ', s)`: the pieces between the leftmost non-overlapping
   * occurrences of the separator. It never returns an empty list.
   */
  function Explode(s: string): (r: seq<string>)
    ensures |r| >= 1
    ensures Implode(r) == s
    decreases |s|
  {
    if |s| == 0 then [""]
    else if |s| >= 2 && s[0] == ',' && s[1] == ' ' then
      var rest := Explode(s[2..]);
      assert Implode([""] + rest) == "" + Separator + Implode(rest) by {
        assert ([""] + rest)[1..] == rest;
      }
      assert s == Separator + s[2..];
      [""] + rest
    else
      var rest := Explode(s[1..]);
      ImplodeCons(s[0], rest[0], rest[1..]);
      assert [rest[0]] + rest[1..] == rest;
      assert s == [s[0]] + s[1..];
      [[s[0]] + rest[0]] + rest[1..]
  }

  /** Dropping the first character cannot create a separator. */
  lemma NoSeparatorTail(t: string)
    requires |t| > 0 && !HasSeparator(t)
    ensures !HasSeparator(t[1..])
  {
    forall i | 0 <= i < |t| - 2
      ensures !(t[1..][i] == ',' && t[1..][i + 1] == ' ')
    {
      assert t[1..][i] == t[i + 1] && t[1..][i + 1] == t[i + 2];
    }
  }

  /** A piece without the separator, followed by the separator, is split off whole. */
  lemma {:induction false} ExplodeLeadingPiece(t: string, u: string)
    requires !HasSeparator(t)
    ensures Explode(t + Separator + u) == [t] + Explode(u)
    decreases |t|
  {
    var s := t + Separator + u;
    if |t| == 0 {
      assert s[2..] == u;
    } else {
      var t' := t[1..];
      assert s[1..] == t' + Separator + u;
      NoSeparatorTail(t);
      assert !(s[0] == ',' && s[1] == ' ') by {
        if |t'| == 0 {
          assert s[1] == ',';
        } else {
          assert s[0] == t[0] && s[1] == t[1];
          assert !(t[0] == ',' && t[1] == ' ');
        }
      }
      ExplodeLeadingPiece(t', u);
      assert [t[0]] + t' == t;
    }
  }

  /** A piece without the separator explodes to itself. */
  lemma {:induction false} ExplodeSinglePiece(t: string)
    requires !HasSeparator(t)
    ensures Explode(t) == [t]
    decreases |t|
  {
    if |t| > 0 {
      var t' := t[1..];
      NoSeparatorTail(t);
      assert !(|t| >= 2 && t[0] == ',' && t[1] == ' ');
      ExplodeSinglePiece(t');
      assert [t[0]] + t' == t;
    }
  }

  /** `explode` undoes `implode` when no piece contains the separator. */
  lemma {:induction false} ExplodeImplode(parts: seq<string>)
    requires |parts| >= 1
    requires forall i :: 0 <= i < |parts| ==> !HasSeparator(parts[i])
    ensures Explode(Implode(parts)) == parts
    decreases |parts|
  {
    if |parts| == 1 {
      ExplodeSinglePiece(parts[0]);
    } else {
      ExplodeImplode(parts[1..]);
      ExplodeLeadingPiece(parts[0], Implode(parts[1..]));
      assert [parts[0]] + parts[1..] == parts;
    }
  }

  /** `c` occurs in some piece of `parts` exactly when it occurs in their `implode`, for non-separator characters. */
  lemma {:induction false} ImplodeContains(parts: seq<string>, c: char)
    requires c != ',' && c != ' '
    ensures (c in Implode(parts)) <==> exists i :: 0 <= i < |parts| && c in parts[i]
    decreases |parts|
  {
    if |parts| > 1 {
      ImplodeContains(parts[1..], c);
      var whole := parts[0] + Separator + Implode(parts[1..]);
      assert c in whole <==> c in parts[0] || c in Implode(parts[1..]);
      if c in Implode(parts[1..]) {
        var i :| 0 <= i < |parts[1..]| && c in parts[1..][i];
        assert c in parts[i + 1];
      }
      if exists i :: 0 <= i < |parts| && c in parts[i] {
        var i :| 0 <= i < |parts| && c in parts[i];
        if i > 0 {
          assert c in parts[1..][i - 1];
        }
      }
    }
  }

  /** The sign of PHP `strcmp`: byte-wise lexicographic comparison. */
  function Strcmp(a: string, b: string): (r: int)
    ensures -1 <= r <= 1
    ensures r == 0 <==> a == b
    decreases |a|
  {
    if |a| == 0 && |b| == 0 then 0
    else if |a| == 0 then -1
    else if |b| == 0 then 1
    else if a[0] < b[0] then -1
    else if a[0] > b[0] then 1
    else
      assert a == [a[0]] + a[1..] && b == [b[0]] + b[1..];
      Strcmp(a[1..], b[1..])
  }

  /** Swapping the operands of `strcmp` flips its sign. */
  lemma {:induction false} StrcmpAntisymmetric(a: string, b: string)
    ensures Strcmp(a, b) == -Strcmp(b, a)
    decreases |a|
  {
    if |a| > 0 && |b| > 0 && a[0] == b[0] {
      StrcmpAntisymmetric(a[1..], b[1..]);
    }
  }

  /** `a` sorts no later than `b` under `strcmp`. */
  predicate StrLe(a: string, b: string) {
    Strcmp(a, b) <= 0
  }

  lemma StrLeTotal(a: string, b: string)
    ensures StrLe(a, b) || StrLe(b, a)
  {
    StrcmpAntisymmetric(a, b);
  }

  lemma {:induction false} StrLeTransitive(a: string, b: string, c: string)
    requires StrLe(a, b) && StrLe(b, c)
    ensures StrLe(a, c)
    decreases |a|
  {
    if |a| > 0 && |b| > 0 && |c| > 0 && a[0] == b[0] && b[0] == c[0] {
      StrLeTransitive(a[1..], b[1..], c[1..]);
    }
  }
}

=== FILE: registry.dfy ===
/**
 * The name-keyed registries of checkers and reporters: entries are added
 * once under their name and looked up by name; both operations fail with a
 * `LogicException` message instead of overwriting or returning nothing.
 */
module Registry {
  import opened Wrappers

  /** An associative array from name to entry; `names` is PHP's key order. */
  datatype Registry<T> = Registry(names: seq<string>, entries: map<string, T>)

  /** The keys are the names, each once. */
  ghost predicate Valid<T>(reg: Registry<T>) {
    && (forall n :: n in reg.entries <==> n in reg.names)
    && (forall i, j :: 0 <= i < j < |reg.names| ==> reg.names[i] != reg.names[j])
  }

  function Empty<T>(): (r: Registry<T>)
    ensures Valid(r) && r.names == []
  {
    Registry([], map[])
  }

  /** The message of the exception `add` throws; `what` is `checker` or `reporter`. */
  function AlreadyAdded(what: string, name: string): string {
    "The backwards compatibility " + what + " with \"" + name + "\" name is already added."
  }

  /** The message of the exception `get` throws. */
  function NotFound(what: string, name: string): string {
    "The backwards compatibility " + what + " with \"" + name + "\" name is not found."
  }

  /** `add`: registers `x` under `name` unless the name is taken. */
  function Add<T>(reg: Registry<T>, what: string, name: string, x: T): (r: Result<Registry<T>>)
    ensures r.Failure? <==> name in reg.entries
    ensures r.Failure? ==> r.error == AlreadyAdded(what, name)
    ensures r.Success? ==> r.value.names == reg.names + [name] && r.value.entries == reg.entries[name := x]
    ensures r.Success? && Valid(reg) ==> Valid(r.value)
  {
    if name in reg.entries then Failure(AlreadyAdded(what, name))
    else Success(Registry(reg.names + [name], reg.entries[name := x]))
  }

  /** `get`: the entry registered under `name`. */
  function Get<T>(reg: Registry<T>, what: string, name: string): (r: Result<T>)
    ensures r.Success? <==> name in reg.entries
    ensures r.Success? ==> r.value == reg.entries[name]
    ensures r.Failure? ==> r.error == NotFound(what, name)
  {
    if name in reg.entries then Success(reg.entries[name]) else Failure(NotFound(what, name))
  }

  /** `getNames`: the names in the order they were added. */
  function Names<T>(reg: Registry<T>): (r: seq<string>)
    ensures Valid(reg) ==> forall n :: n in r <==> n in reg.entries
  {
    reg.names
  }

  /** The names of `xs`, in order. */
  function NamesOf<T>(xs: seq<T>, name: T -> string): (r: seq<string>)
    ensures |r| == |xs|
    ensures forall i :: 0 <= i < |xs| ==> r[i] == name(xs[i])
    decreases |xs|
  {
    if |xs| == 0 then [] else [name(xs[0])] + NamesOf(xs[1..], name)
  }

  /** Adds each entry under its name, in order, stopping at the first failure (the container's start-up sequence of `add` calls). */
  function AddAll<T>(reg: Registry<T>, what: string, xs: seq<T>, name: T -> string): (r: Result<Registry<T>>)
    ensures r.Success? ==> r.value.names == reg.names + NamesOf(xs, name)
    decreases |xs|
  {
    if |xs| == 0 then Success(reg)
    else
      var next := Add(reg, what, name(xs[0]), xs[0]);
      if next.Failure? then Failure(next.error) else AddAll(next.value, what, xs[1..], name)
  }

  /** Adding more entries keeps what a registry already holds. */
  lemma {:induction false} AddAllKeeps<T>(reg: Registry<T>, what: string, xs: seq<T>, name: T -> string, n: string)
    requires AddAll(reg, what, xs, name).Success?
    requires n in reg.entries
    ensures n in AddAll(reg, what, xs, name).value.entries
    ensures AddAll(reg, what, xs, name).value.entries[n] == reg.entries[n]
    decreases |xs|
  {
    if |xs| > 0 {
      AddAllKeeps(Add(reg, what, name(xs[0]), xs[0]).value, what, xs[1..], name, n);
    }
  }

  /** Entries with pairwise distinct names, none of them taken yet, are all added, and each is found under its name. */
  lemma {:induction false} AddAllDistinct<T>(reg: Registry<T>, what: string, xs: seq<T>, name: T -> string)
    requires Valid(reg)
    requires forall i :: 0 <= i < |xs| ==> name(xs[i]) !in reg.entries
    requires forall i, j :: 0 <= i < j < |xs| ==> name(xs[i]) != name(xs[j])
    ensures AddAll(reg, what, xs, name).Success?
    ensures Valid(AddAll(reg, what, xs, name).value)
    ensures forall i :: 0 <= i < |xs| ==> Get(AddAll(reg, what, xs, name).value, what, name(xs[i])) == Success(xs[i])
    decreases |xs|
  {
    if |xs| > 0 {
      var next := Add(reg, what, name(xs[0]), xs[0]).value;
      var rest := xs[1..];
      forall i | 0 <= i < |rest|
        ensures name(rest[i]) !in next.entries
      {
        assert rest[i] == xs[i + 1];
      }
      AddAllDistinct(next, what, rest, name);
      AddAllKeeps(next, what, rest, name, name(xs[0]));
      var r := AddAll(next, what, rest, name).value;
      assert AddAll(reg, what, xs, name).value == r;
      forall i | 0 <= i < |xs|
        ensures Get(r, what, name(xs[i])) == Success(xs[i])
      {
        if i > 0 {
          assert xs[i] == rest[i - 1];
        }
      }
    }
  }

  /** What was added is what is found, and other names are unaffected. */
  lemma GetAfterAdd<T>(reg: Registry<T>, what: string, name: string, x: T, other: string)
    requires Add(reg, what, name, x).Success?
    ensures Get(Add(reg, what, name, x).value, what, name) == Success(x)
    ensures other != name ==> Get(Add(reg, what, name, x).value, what, other) == Get(reg, what, other)
  {
  }

  /** A name cannot be added twice. */
  lemma AddTwiceFails<T>(reg: Registry<T>, what: string, name: string, x: T, y: T)
    requires Add(reg, what, name, x).Success?
    ensures Add(Add(reg, what, name, x).value, what, name, y) == Failure(AlreadyAdded(what, name))
  {
  }
}

=== FILE: reporter.dfy ===
/**
 * The helpers every reporter shares: grouping incidents by type, in the
 * order the types first appear, and sorting incidents by element with
 * `strcmp`.
 */
module Reporter {
  import opened Wrappers
  import opened PhpStrings
  import opened Sequences
  import opened Assoc
  import opened Incidents

  /** One entry `$ret[$type]` of `groupByType`'s result. */
  datatype Group = Group(Type: string, Breaks: seq<Record>)

  function GroupKey(g: Group): string { g.Type }

  function RecordType(b: Record): string { b.Type }

  /** The incidents of one type. */
  function OfType(t: string): Record -> bool {
    (b: Record) => b.Type == t
  }

  /**
   * One iteration of `groupByType`'s loop: the incident is appended to the
   * group of its type, and a group that does not exist yet is created at the
   * end.
   */
  function AppendTo(groups: seq<Group>, b: Record): (r: seq<Group>)
    decreases |groups|
  {
    if |groups| == 0 then [Group(b.Type, [b])]
    else if groups[0].Type == b.Type then [Group(b.Type, groups[0].Breaks + [b])] + groups[1..]
    else [groups[0]] + AppendTo(groups[1..], b)
  }

  /** `groupByType`: the loop over the incidents, in order. */
  function GroupByType(breaks: seq<Record>): seq<Group>
    decreases |breaks|
  {
    if |breaks| == 0 then []
    else AppendTo(GroupByType(breaks[..|breaks| - 1]), breaks[|breaks| - 1])
  }

  /** After one iteration, the group of the incident's type has gained it at the end; other groups are unchanged. */
  lemma {:induction false} AppendToFind(groups: seq<Group>, b: Record, t: string)
    ensures Find(AppendTo(groups, b), GroupKey, t) ==
      if t != b.Type then Find(groups, GroupKey, t)
      else if HasKey(groups, GroupKey, t) then Some(Group(t, Find(groups, GroupKey, t).value.Breaks + [b]))
      else Some(Group(t, [b]))
    decreases |groups|
  {
    if |groups| > 0 && groups[0].Type != b.Type {
      AppendToFind(groups[1..], b, t);
    }
  }

  /** One iteration keeps the groups' types in place and adds a new type at the end. */
  lemma {:induction false} AppendToKeys(groups: seq<Group>, b: Record)
    ensures var r := AppendTo(groups, b);
      && |r| == |groups| + (if HasKey(groups, GroupKey, b.Type) then 0 else 1)
      && (forall i :: 0 <= i < |groups| ==> r[i].Type == groups[i].Type)
      && (!HasKey(groups, GroupKey, b.Type) ==> r[|groups|].Type == b.Type)
    decreases |groups|
  {
    if |groups| > 0 && groups[0].Type != b.Type {
      AppendToKeys(groups[1..], b);
      var r := AppendTo(groups, b);
      assert forall i :: 1 <= i < |groups| ==> r[i] == AppendTo(groups[1..], b)[i - 1];
    }
  }

  lemma {:induction false} AppendToDistinct(groups: seq<Group>, b: Record)
    requires DistinctKeys(groups, GroupKey)
    ensures DistinctKeys(AppendTo(groups, b), GroupKey)
    decreases |groups|
  {
    if |groups| > 0 {
      var r := AppendTo(groups, b);
      if groups[0].Type == b.Type {
        assert r[1..] == groups[1..];
      } else {
        AppendToDistinct(groups[1..], b);
        AppendToFind(groups[1..], b, groups[0].Type);
        assert r[1..] == AppendTo(groups[1..], b);
      }
    }
  }

  /** The total number of incidents held by the groups. */
  function TotalSize(groups: seq<Group>): nat
    decreases |groups|
  {
    if |groups| == 0 then 0 else |groups[0].Breaks| + TotalSize(groups[1..])
  }

  lemma {:induction false} AppendToSize(groups: seq<Group>, b: Record)
    ensures TotalSize(AppendTo(groups, b)) == TotalSize(groups) + 1
    decreases |groups|
  {
    if |groups| > 0 {
      if groups[0].Type == b.Type {
        assert AppendTo(groups, b)[1..] == groups[1..];
      } else {
        AppendToSize(groups[1..], b);
        assert AppendTo(groups, b)[1..] == AppendTo(groups[1..], b);
      }
    }
  }

  lemma LastSplit(breaks: seq<Record>)
    requires |breaks| > 0
    ensures breaks == breaks[..|breaks| - 1] + [breaks[|breaks| - 1]]
  {
  }

  /** Without an incident of type `t` there is nothing of that type to keep. */
  lemma NoneOfType(breaks: seq<Record>, t: string)
    requires !HasKey(breaks, RecordType, t)
    ensures Filter(breaks, OfType(t)) == []
  {
    var f := Filter(breaks, OfType(t));
    if |f| > 0 {
      HasKeyMember(breaks, RecordType, f[0]);
    }
  }

  lemma FilterLast(init: seq<Record>, b: Record, t: string)
    ensures Filter(init + [b], OfType(t)) == Filter(init, OfType(t)) + (if b.Type == t then [b] else [])
  {
    FilterConcat(init, [b], OfType(t));
    assert [b][1..] == [];
  }

  lemma HasKeyLast(init: seq<Record>, b: Record, t: string)
    ensures HasKey(init + [b], RecordType, t) <==> HasKey(init, RecordType, t) || b.Type == t
  {
    HasKeyConcat(init, [b], RecordType, t);
    assert [b][1..] == [];
  }

  /**
   * A type has a group exactly when some incident has that type, and the
   * group holds exactly the incidents of that type, in their original order.
   */
  lemma {:induction false} GroupByTypeFind(breaks: seq<Record>, t: string)
    ensures Find(GroupByType(breaks), GroupKey, t) ==
      if HasKey(breaks, RecordType, t) then Some(Group(t, Filter(breaks, OfType(t)))) else None
    decreases |breaks|
  {
    if |breaks| > 0 {
      var init := breaks[..|breaks| - 1];
      var b := breaks[|breaks| - 1];
      var g := GroupByType(init);
      LastSplit(breaks);
      assert GroupByType(breaks) == AppendTo(g, b);
      GroupByTypeFind(init, t);
      AppendToFind(g, b, t);
      HasKeyLast(init, b, t);
      FilterLast(init, b, t);
      if !HasKey(init, RecordType, t) {
        NoneOfType(init, t);
        assert Find(g, GroupKey, t) == None;
        if t == b.Type {
          assert Filter(breaks, OfType(t)) == [b];
          assert Find(AppendTo(g, b), GroupKey, t) == Some(Group(t, [b]));
        }
      } else {
        assert Find(g, GroupKey, t) == Some(Group(t, Filter(init, OfType(t))));
        assert HasKey(g, GroupKey, t);
        if t == b.Type {
          assert Filter(breaks, OfType(t)) == Filter(init, OfType(t)) + [b];
        } else {
          assert Filter(breaks, OfType(t)) == Filter(init, OfType(t));
        }
      }
    }
  }

  /** No type has two groups. */
  lemma {:induction false} GroupByTypeDistinct(breaks: seq<Record>)
    ensures DistinctKeys(GroupByType(breaks), GroupKey)
    decreases |breaks|
  {
    if |breaks| > 0 {
      GroupByTypeDistinct(breaks[..|breaks| - 1]);
      AppendToDistinct(GroupByType(breaks[..|breaks| - 1]), breaks[|breaks| - 1]);
    }
  }

  /** Every incident lands in exactly one group: the group sizes add up to the number of incidents. */
  lemma {:induction false} GroupByTypeSize(breaks: seq<Record>)
    ensures TotalSize(GroupByType(breaks)) == |breaks|
    decreases |breaks|
  {
    if |breaks| > 0 {
      GroupByTypeSize(breaks[..|breaks| - 1]);
      AppendToSize(GroupByType(breaks[..|breaks| - 1]), breaks[|breaks| - 1]);
    }
  }

  /** The position of the first incident of type `t`. */
  function FirstIndex(breaks: seq<Record>, t: string): (r: nat)
    requires HasKey(breaks, RecordType, t)
    ensures r < |breaks| && breaks[r].Type == t
    ensures forall k :: 0 <= k < r ==> breaks[k].Type != t
    decreases |breaks|
  {
    if breaks[0].Type == t then 0
    else
      var r := 1 + FirstIndex(breaks[1..], t);
      assert forall k :: 1 <= k < r ==> breaks[k] == breaks[1..][k - 1];
      r
  }

  /** Appending an incident does not move the first occurrence of a type already present. */
  lemma FirstIndexAppend(breaks: seq<Record>, b: Record, t: string)
    requires HasKey(breaks, RecordType, t)
    ensures HasKey(breaks + [b], RecordType, t)
    ensures FirstIndex(breaks + [b], t) == FirstIndex(breaks, t)
  {
    HasKeyConcat(breaks, [b], RecordType, t);
    var i := FirstIndex(breaks, t);
    var j := FirstIndex(breaks + [b], t);
    assert (breaks + [b])[i] == breaks[i];
    assert j <= i;
    assert (breaks + [b])[j] == breaks[j];
  }

  /** A type absent so far first occurs at the appended incident. */
  lemma FirstIndexNew(breaks: seq<Record>, b: Record)
    requires !HasKey(breaks, RecordType, b.Type)
    ensures HasKey(breaks + [b], RecordType, b.Type)
    ensures FirstIndex(breaks + [b], b.Type) == |breaks|
  {
    HasKeyConcat(breaks, [b], RecordType, b.Type);
    forall k | 0 <= k < |breaks|
      ensures (breaks + [b])[k].Type != b.Type
    {
      HasKeyIndex(breaks, RecordType, k);
    }
  }

  /** The groups are in the order their types first appear among the incidents. */
  predicate InFirstOccurrenceOrder(groups: seq<Group>, breaks: seq<Record>) {
    && (forall i :: 0 <= i < |groups| ==> HasKey(breaks, RecordType, groups[i].Type))
    && (forall i, j :: 0 <= i < j < |groups| ==> FirstIndex(breaks, groups[i].Type) < FirstIndex(breaks, groups[j].Type))
  }

  /** Appending keeps the first occurrences of the types the groups already have. */
  lemma OrderPrefix(init: seq<Record>, b: Record, g: seq<Group>, r: seq<Group>)
    requires InFirstOccurrenceOrder(g, init)
    requires |g| <= |r| && forall i :: 0 <= i < |g| ==> r[i].Type == g[i].Type
    ensures forall i :: 0 <= i < |g| ==> HasKey(init + [b], RecordType, r[i].Type)
    ensures forall i :: 0 <= i < |g| ==> FirstIndex(init + [b], r[i].Type) == FirstIndex(init, g[i].Type)
  {
    forall i | 0 <= i < |g|
      ensures HasKey(init + [b], RecordType, r[i].Type)
      ensures FirstIndex(init + [b], r[i].Type) == FirstIndex(init, g[i].Type)
    {
      FirstIndexAppend(init, b, g[i].Type);
    }
  }

  /** One iteration keeps the groups in first-occurrence order. */
  lemma OrderAppend(init: seq<Record>, b: Record)
    requires InFirstOccurrenceOrder(GroupByType(init), init)
    ensures InFirstOccurrenceOrder(AppendTo(GroupByType(init), b), init + [b])
  {
    var g := GroupByType(init);
    var r := AppendTo(g, b);
    var full := init + [b];
    AppendToKeys(g, b);
    OrderPrefix(init, b, g, r);
    if HasKey(g, GroupKey, b.Type) {
      assert |r| == |g|;
    } else {
      GroupByTypeFind(init, b.Type);
      FirstIndexNew(init, b);
      assert |r| == |g| + 1 && r[|g|].Type == b.Type;
      forall i, j | 0 <= i < j < |r|
        ensures FirstIndex(full, r[i].Type) < FirstIndex(full, r[j].Type)
      {
        if j == |g| {
          assert FirstIndex(full, r[i].Type) == FirstIndex(init, g[i].Type) < |init|;
        }
      }
    }
  }

  lemma {:induction false} GroupByTypeOrder(breaks: seq<Record>)
    ensures InFirstOccurrenceOrder(GroupByType(breaks), breaks)
    decreases |breaks|
  {
    if |breaks| > 0 {
      var init := breaks[..|breaks| - 1];
      var b := breaks[|breaks| - 1];
      LastSplit(breaks);
      GroupByTypeOrder(init);
      OrderAppend(init, b);
      assert GroupByType(breaks) == AppendTo(GroupByType(init), b);
    }
  }

  // ---------------------------------------------------------------------
  // Sorting by element
  // ---------------------------------------------------------------------

  /** `sortByElementCallback`: `strcmp` of the two elements. */
  function SortByElementCallback(a: Record, b: Record): (r: int)
    ensures -1 <= r <= 1
    ensures r == 0 <==> a.Element == b.Element
  {
    Strcmp(a.Element, b.Element)
  }

  lemma SortByElementCallbackAntisymmetric(a: Record, b: Record)
    ensures SortByElementCallback(a, b) == -SortByElementCallback(b, a)
  {
    StrcmpAntisymmetric(a.Element, b.Element);
  }

  function ElementLe(): (Record, Record) -> bool {
    (a, b) => SortByElementCallback(a, b) <= 0
  }

  lemma ElementLeTotalPreorder()
    ensures TotalPreorder(ElementLe())
  {
    forall a: Record, b: Record
      ensures ElementLe()(a, b) || ElementLe()(b, a)
    {
      StrLeTotal(a.Element, b.Element);
    }
    forall a: Record, b: Record, c: Record | ElementLe()(a, b) && ElementLe()(b, c)
      ensures ElementLe()(a, c)
    {
      StrLeTransitive(a.Element, b.Element, c.Element);
    }
  }

  /** `sortByElement`: PHP 8's stable `usort` with `sortByElementCallback`. */
  function SortByElement(breaks: seq<Record>): (r: seq<Record>)
    ensures multiset(r) == multiset(breaks)
    ensures forall i, j :: 0 <= i < j < |r| ==> StrLe(r[i].Element, r[j].Element)
  {
    ElementLeTotalPreorder();
    var r := SortBy(breaks, ElementLe());
    forall i, j | 0 <= i < j < |r|
      ensures StrLe(r[i].Element, r[j].Element)
    {
      SortedPairwise(r, ElementLe(), i, j);
    }
    r
  }

  /** Incidents of the same element leave the sort in the order they entered it. */
  lemma SortByElementStable(breaks: seq<Record>, e: string)
    ensures Filter(SortByElement(breaks), (b: Record) => b.Element == e) == Filter(breaks, (b: Record) => b.Element == e)
  {
    ElementLeTotalPreorder();
    var pivot := Record("", e, None, None);
    var p := (b: Record) => b.Element == e;
    forall b: Record
      ensures Tied(ElementLe(), pivot)(b) == p(b)
    {
      StrcmpAntisymmetric(b.Element, e);
    }
    SortByStable(breaks, ElementLe(), pivot);
    FilterSamePredicate(SortByElement(breaks), Tied(ElementLe(), pivot), p);
    FilterSamePredicate(breaks, Tied(ElementLe(), pivot), p);
  }
}

=== FILE: sequences.dfy ===
/**
 * Sequence helpers that stand in for PHP's array functions: order-preserving
 * filtering, the subsequence relation, and the stable `usort` used both for
 * `ORDER BY Position` and for the reporters' and checkers' comparators.
 */
module Sequences {

  /** The elements of `s` that satisfy `p`, in their original order. */
  function Filter<T(==)>(s: seq<T>, p: T -> bool): (r: seq<T>)
    ensures |r| <= |s|
    ensures forall i :: 0 <= i < |r| ==> r[i] in s && p(r[i])
    ensures forall i :: 0 <= i < |s| && p(s[i]) ==> s[i] in r
    decreases |s|
  {
    if |s| == 0 then []
    else if p(s[0]) then [s[0]] + Filter(s[1..], p)
    else Filter(s[1..], p)
  }

  /** Filtering depends only on which elements the predicate accepts. */
  lemma {:induction false} FilterSamePredicate<T>(s: seq<T>, p: T -> bool, q: T -> bool)
    requires forall x :: p(x) == q(x)
    ensures Filter(s, p) == Filter(s, q)
    decreases |s|
  {
    if |s| > 0 {
      FilterSamePredicate(s[1..], p, q);
    }
  }

  lemma {:induction false} FilterConcat<T>(a: seq<T>, b: seq<T>, p: T -> bool)
    ensures Filter(a + b, p) == Filter(a, p) + Filter(b, p)
    decreases |a|
  {
    if |a| > 0 {
      assert (a + b)[1..] == a[1..] + b;
      FilterConcat(a[1..], b, p);
    } else {
      assert a + b == b;
    }
  }

  /** `a` can be obtained from `b` by deleting elements (greedy reference definition). */
  predicate IsSubsequence<T(==)>(a: seq<T>, b: seq<T>)
    decreases |b|
  {
    if |a| == 0 then true
    else if |b| == 0 then false
    else if a[0] == b[0] then IsSubsequence(a[1..], b[1..])
    else IsSubsequence(a, b[1..])
  }

  lemma {:induction false} SubsequenceOfTail<T>(a: seq<T>, b: seq<T>)
    requires |b| > 0 && IsSubsequence(a, b[1..])
    ensures IsSubsequence(a, b)
    decreases |a| + |b|
  {
    if |a| > 0 && a[0] == b[0] {
      SubsequenceDropHead(a, b[1..]);
    }
  }

  lemma {:induction false} SubsequenceDropHead<T>(a: seq<T>, b: seq<T>)
    requires |a| > 0 && IsSubsequence(a, b)
    ensures IsSubsequence(a[1..], b)
    decreases |a| + |b|
  {
    if a[0] == b[0] {
      if |a[1..]| > 0 {
        SubsequenceOfTail(a[1..], b);
      }
    } else {
      SubsequenceDropHead(a, b[1..]);
      if |a[1..]| > 0 {
        SubsequenceOfTail(a[1..], b);
      }
    }
  }

  /** Filtering keeps a subsequence of the input. */
  lemma {:induction false} FilterIsSubsequence<T>(s: seq<T>, p: T -> bool)
    ensures IsSubsequence(Filter(s, p), s)
    decreases |s|
  {
    if |s| > 0 {
      FilterIsSubsequence(s[1..], p);
      if !p(s[0]) {
        SubsequenceOfTail(Filter(s[1..], p), s);
      }
    }
  }

  /** `le` is a total preorder: the shape `usort` needs of its comparator. */
  ghost predicate TotalPreorder<T(!new)>(le: (T, T) -> bool) {
    && (forall x, y :: le(x, y) || le(y, x))
    && (forall x, y, z :: le(x, y) && le(y, z) ==> le(x, z))
  }

  /** Every element is `le` its successor. */
  predicate Sorted<T>(s: seq<T>, le: (T, T) -> bool) {
    forall i :: 0 <= i < |s| - 1 ==> le(s[i], s[i + 1])
  }

  /**
   * Inserts `x`, which came before every element of `s` in the input, in front
   * of the first element it does not sort after; equal elements therefore keep
   * their input order.
   */
  function Insert<T(!new)>(x: T, s: seq<T>, le: (T, T) -> bool): (r: seq<T>)
    requires TotalPreorder(le)
    requires Sorted(s, le)
    ensures Sorted(r, le)
    ensures multiset(r) == multiset(s) + multiset{x}
    ensures |r| == |s| + 1
    ensures |r| > 0 && (r[0] == x || (|s| > 0 && r[0] == s[0]))
    decreases |s|
  {
    if |s| == 0 || le(x, s[0]) then [x] + s
    else
      var rest := Insert(x, s[1..], le);
      assert s == [s[0]] + s[1..];
      [s[0]] + rest
  }

  /** Stable insertion sort: PHP 8's `usort` with comparator `le`. */
  function SortBy<T(!new)>(s: seq<T>, le: (T, T) -> bool): (r: seq<T>)
    requires TotalPreorder(le)
    ensures Sorted(r, le)
    ensures multiset(r) == multiset(s)
    ensures |r| == |s|
    decreases |s|
  {
    if |s| == 0 then []
    else
      assert s == [s[0]] + s[1..];
      Insert(s[0], SortBy(s[1..], le), le)
  }

  /** Adjacent sortedness gives sortedness of every pair under a transitive `le`. */
  lemma {:induction false} SortedPairwise<T(!new)>(s: seq<T>, le: (T, T) -> bool, i: int, j: int)
    requires TotalPreorder(le)
    requires Sorted(s, le)
    requires 0 <= i < j < |s|
    ensures le(s[i], s[j])
    decreases j - i
  {
    if j > i + 1 {
      SortedPairwise(s, le, i + 1, j);
    }
  }

  /** The elements that `le` ranks equal to `pivot`. */
  function Tied<T>(le: (T, T) -> bool, pivot: T): T -> bool {
    x => le(x, pivot) && le(pivot, x)
  }

  /** Two elements tied with the same pivot are ordered both ways. */
  lemma TiedTogether<T(!new)>(le: (T, T) -> bool, pivot: T, x: T, y: T)
    requires TotalPreorder(le)
    ensures Tied(le, pivot)(x) && Tied(le, pivot)(y) ==> le(x, y)
  {
  }

  lemma {:induction false} InsertStable<T(!new)>(x: T, s: seq<T>, le: (T, T) -> bool, pivot: T)
    requires TotalPreorder(le)
    requires Sorted(s, le)
    ensures Filter(Insert(x, s, le), Tied(le, pivot)) == Filter([x], Tied(le, pivot)) + Filter(s, Tied(le, pivot))
    decreases |s|
  {
    var p := Tied(le, pivot);
    if |s| == 0 || le(x, s[0]) {
      FilterConcat([x], s, p);
    } else {
      InsertStable(x, s[1..], le, pivot);
      var rest := Insert(x, s[1..], le);
      FilterConcat([s[0]], rest, p);
      FilterConcat([s[0]], s[1..], p);
      assert s == [s[0]] + s[1..];
      TiedTogether(le, pivot, x, s[0]);
      FilterConcat([x], s[1..], p);
    }
  }

  /** Elements that tie under `le` leave the sort in the order they entered it. */
  lemma {:induction false} SortByStable<T(!new)>(s: seq<T>, le: (T, T) -> bool, pivot: T)
    requires TotalPreorder(le)
    ensures Filter(SortBy(s, le), Tied(le, pivot)) == Filter(s, Tied(le, pivot))
    decreases |s|
  {
    if |s| > 0 {
      SortByStable(s[1..], le, pivot);
      InsertStable(s[0], SortBy(s[1..], le), le, pivot);
      FilterConcat([s[0]], s[1..], Tied(le, pivot));
      assert s == [s[0]] + s[1..];
    }
  }

  /** When every pair ties, the sort returns its input unchanged. */
  lemma {:induction false} SortByAllTied<T(!new)>(s: seq<T>, le: (T, T) -> bool)
    requires TotalPreorder(le)
    requires forall x, y :: le(x, y)
    ensures SortBy(s, le) == s
    decreases |s|
  {
    if |s| > 0 {
      SortByAllTied(s[1..], le);
      assert s == [s[0]] + s[1..];
    }
  }

  /** Some element of `xs` satisfies `p`, checked front to back. */
  predicate Any<T>(xs: seq<T>, p: T -> bool)
    decreases |xs|
  {
    |xs| > 0 && (p(xs[0]) || Any(xs[1..], p))
  }

  /** The front-to-back check agrees with the existential. */
  lemma {:induction false} AnyExists<T>(xs: seq<T>, p: T -> bool)
    ensures Any(xs, p) <==> exists x :: x in xs && p(x)
    decreases |xs|
  {
    if |xs| > 0 {
      AnyExists(xs[1..], p);
      assert xs == [xs[0]] + xs[1..];
    }
  }

  /** The concatenation of `f(x)` for every `x` of `xs`, in order: a `foreach` that appends to one list. */
  function FlatMap<T, U>(xs: seq<T>, f: T -> seq<U>): (r: seq<U>)
    ensures (forall i :: 0 <= i < |xs| ==> f(xs[i]) == []) ==> r == []
    decreases |xs|
  {
    if |xs| == 0 then [] else f(xs[0]) + FlatMap(xs[1..], f)
  }

  /** An element of the result comes from some input element, and every input element contributes all of its outputs. */
  lemma {:induction false} FlatMapMember<T, U>(xs: seq<T>, f: T -> seq<U>, y: U)
    ensures y in FlatMap(xs, f) <==> exists i :: 0 <= i < |xs| && y in f(xs[i])
    decreases |xs|
  {
    if |xs| > 0 {
      FlatMapMember(xs[1..], f, y);
      if exists i :: 0 <= i < |xs| && y in f(xs[i]) {
        var i :| 0 <= i < |xs| && y in f(xs[i]);
        if i > 0 {
          assert xs[1..][i - 1] == xs[i];
        }
      }
      if exists i :: 0 <= i < |xs[1..]| && y in f(xs[1..][i]) {
        var i :| 0 <= i < |xs[1..]| && y in f(xs[1..][i]);
        assert xs[1..][i] == xs[i + 1];
      }
    }
  }

  lemma {:induction false} FlatMapConcat<T, U>(a: seq<T>, b: seq<T>, f: T -> seq<U>)
    ensures FlatMap(a + b, f) == FlatMap(a, f) + FlatMap(b, f)
    decreases |a|
  {
    if |a| > 0 {
      assert (a + b)[1..] == a[1..] + b;
      FlatMapConcat(a[1..], b, f);
    } else {
      assert a + b == b;
    }
  }

  /** `rank` never decreases along `xs`. */
  predicate NonDecreasing<T>(xs: seq<T>, rank: T -> int) {
    forall i, j :: 0 <= i < j < |xs| ==> rank(xs[i]) <= rank(xs[j])
  }

  /** `rank` strictly increases along `xs`: every rank occurs at most once, and in order. */
  predicate Increasing<T>(xs: seq<T>, rank: T -> int) {
    forall i, j :: 0 <= i < j < |xs| ==> rank(xs[i]) < rank(xs[j])
  }

  /** Appending a block whose elements all have rank `k` to a sequence ranked at most `k` keeps the order. */
  lemma AppendBlock<T>(a: seq<T>, b: seq<T>, rank: T -> int, k: int)
    requires NonDecreasing(a, rank) && forall x :: x in a ==> rank(x) <= k
    requires forall y :: y in b ==> rank(y) == k
    ensures NonDecreasing(a + b, rank)
    ensures forall x :: x in a + b ==> rank(x) <= k
  {
    forall i, j | 0 <= i < j < |a + b|
      ensures rank((a + b)[i]) <= rank((a + b)[j])
    {
      if j < |a| {
        assert (a + b)[i] == a[i] && (a + b)[j] == a[j];
      } else if i < |a| {
        assert (a + b)[i] == a[i] && a[i] in a;
        assert (a + b)[j] == b[j - |a|] && b[j - |a|] in b;
      } else {
        assert (a + b)[i] == b[i - |a|] && b[i - |a|] in b;
        assert (a + b)[j] == b[j - |a|] && b[j - |a|] in b;
      }
    }
  }

  /** An element ranked below everything after it keeps a strictly increasing order strictly increasing. */
  lemma PrependIncreasing<T>(x: T, rest: seq<T>, rank: T -> int)
    requires Increasing(rest, rank) && forall y :: y in rest ==> rank(x) < rank(y)
    ensures Increasing([x] + rest, rank)
  {
    forall i, j | 0 <= i < j < |[x] + rest|
      ensures rank(([x] + rest)[i]) < rank(([x] + rest)[j])
    {
      assert ([x] + rest)[j] == rest[j - 1] && rest[j - 1] in rest;
      if i > 0 {
        assert ([x] + rest)[i] == rest[i - 1];
      }
    }
  }

  /** Two strictly increasing sequences, every rank of the first below every rank of the second, concatenate to one. */
  lemma AppendIncreasing<T>(a: seq<T>, b: seq<T>, rank: T -> int)
    requires Increasing(a, rank) && Increasing(b, rank)
    requires forall x, y :: x in a && y in b ==> rank(x) < rank(y)
    ensures Increasing(a + b, rank)
  {
    forall i, j | 0 <= i < j < |a + b|
      ensures rank((a + b)[i]) < rank((a + b)[j])
    {
      if j < |a| {
        assert (a + b)[i] == a[i] && (a + b)[j] == a[j];
      } else if i < |a| {
        assert (a + b)[i] == a[i] && a[i] in a;
        assert (a + b)[j] == b[j - |a|] && b[j - |a|] in b;
      } else {
        assert (a + b)[i] == b[i - |a|] && (a + b)[j] == b[j - |a|];
      }
    }
  }
}

=== FILE: signature_proofs.dfy ===
/**
 * What the parameter-signature rule means for parameter lists: signatures
 * built from well-formed parameters split back into their parameters, adding
 * optional parameters is compatible, adding a required one or dropping one is
 * not, and the per-parameter rule accepts making any parameter optional while
 * the rule as written does not.
 */
module SignatureProofs {
  import opened PhpStrings
  import opened Snapshots
  import opened AbstractChecker

  /** A rendered parameter that survives `implode`/`explode`: it has a `$` and no `, `. */
  predicate WellFormedToken(t: string) {
    '$' in t && !HasSeparator(t)
  }

  predicate WellFormedTokens(ts: seq<string>) {
    forall i :: 0 <= i < |ts| ==> WellFormedToken(ts[i])
  }

  lemma NoCommaNoSeparator(t: string)
    requires ',' !in t
    ensures !HasSeparator(t)
  {
    forall i | 0 <= i < |t| - 1
      ensures t[i] != ','
    {
      assert t[i] in t;
    }
  }

  /** Splitting a joined list of well-formed tokens gives the tokens back. */
  lemma SplitImplode(ts: seq<string>)
    requires WellFormedTokens(ts)
    ensures Split(Implode(ts)) == ts
  {
    if |ts| > 0 {
      ImplodeContains(ts, '$');
      assert '$' in ts[0];
      assert '$' in Implode(ts);
      assert Truthy(Implode(ts));
      ExplodeImplode(ts);
    }
  }

  /** Distinct well-formed token lists join to distinct signatures. */
  lemma ImplodeInjective(s: seq<string>, t: seq<string>)
    requires WellFormedTokens(s) && WellFormedTokens(t)
    ensures Implode(s) == Implode(t) <==> s == t
  {
    SplitImplode(s);
    SplitImplode(t);
  }

  /** On well-formed tokens, the rule as written is exactly its token-level reading. */
  lemma AsWrittenOnTokens(s: seq<string>, t: seq<string>)
    requires WellFormedTokens(s) && WellFormedTokens(t)
    ensures IsParamSignatureCompatible(Implode(s), Implode(t)) <==> s == t || CompatibleTokensAsWritten(s, t)
  {
    ImplodeInjective(s, t);
    SplitImplode(s);
    SplitImplode(t);
    CompatibleAsWrittenTokens(Implode(s), Implode(t));
  }

  /** On well-formed tokens, the fixed rule is exactly its token-level reading. */
  lemma FixedOnTokens(s: seq<string>, t: seq<string>)
    requires WellFormedTokens(s) && WellFormedTokens(t)
    ensures IsParamSignatureCompatibleFixed(Implode(s), Implode(t)) <==> s == t || CompatibleTokens(s, t)
  {
    ImplodeInjective(s, t);
    SplitImplode(s);
    SplitImplode(t);
  }

  /** Appending parameters that all carry a default keeps a signature compatible. */
  lemma AddOptionalCompatible(s: seq<string>, added: seq<string>)
    requires WellFormedTokens(s) && WellFormedTokens(added)
    requires forall i :: 0 <= i < |added| ==> '=' in added[i]
    ensures IsParamSignatureCompatible(Implode(s), Implode(s + added))
    ensures IsParamSignatureCompatibleFixed(Implode(s), Implode(s + added))
  {
    var t := s + added;
    assert WellFormedTokens(t) by {
      forall i | 0 <= i < |t|
        ensures WellFormedToken(t[i])
      {
        if i >= |s| {
          assert t[i] == added[i - |s|];
        }
      }
    }
    assert t[..|s|] == s;
    assert forall i :: |s| <= i < |t| ==> t[i] == added[i - |s|];
    AsWrittenOnTokens(s, t);
    AsWrittenImpliesFixed(Implode(s), Implode(t));
  }

  /** Appending a parameter without a default breaks compatibility under both rules. */
  lemma AddRequiredIncompatible(s: seq<string>, added: seq<string>, k: int)
    requires WellFormedTokens(s) && WellFormedTokens(added)
    requires 0 <= k < |added| && '=' !in added[k]
    ensures !IsParamSignatureCompatible(Implode(s), Implode(s + added))
    ensures !IsParamSignatureCompatibleFixed(Implode(s), Implode(s + added))
  {
    var t := s + added;
    assert WellFormedTokens(t) by {
      forall i | 0 <= i < |t|
        ensures WellFormedToken(t[i])
      {
        if i >= |s| {
          assert t[i] == added[i - |s|];
        }
      }
    }
    assert t[|s| + k] == added[k];
    assert s != t by {
      assert |s| < |t|;
    }
    FixedOnTokens(s, t);
    AsWrittenImpliesFixed(Implode(s), Implode(t));
  }

  /** Dropping parameters breaks compatibility under both rules. */
  lemma FewerParametersIncompatible(s: seq<string>, t: seq<string>)
    requires WellFormedTokens(s) && WellFormedTokens(t)
    requires |t| < |s|
    ensures !IsParamSignatureCompatible(Implode(s), Implode(t))
    ensures !IsParamSignatureCompatibleFixed(Implode(s), Implode(t))
  {
    FixedOnTokens(s, t);
    AsWrittenImpliesFixed(Implode(s), Implode(t));
  }

  /** A parameter whose rendering survives the signature round trip and the default stripping. */
  predicate WellFormedParam(p: Parameter, decode: string -> string) {
    && '=' !in TypeOf(p) && ',' !in TypeOf(p)
    && '=' !in p.Name && ',' !in p.Name
    && (p.HasDefaultValue ==> ',' !in DefaultText(p, decode))
  }

  predicate WellFormedParams(ps: seq<Parameter>, decode: string -> string) {
    forall i :: 0 <= i < |ps| ==> WellFormedParam(ps[i], decode)
  }

  /** Removing ` = d` from the end of text without `=` leaves the text, when `d` has no comma. */
  lemma {:induction false} StripDefaultSuffix(a: string, d: string)
    requires '=' !in a && ',' !in d
    ensures StripDefaults(a + " = " + d) == a
    decreases |a|
  {
    var t := a + " = " + d;
    if |a| == 0 {
      assert t == " = " + d;
      assert t[3..] == d;
      DropToCommaNoComma(d);
    } else {
      assert t[1] != '=' by {
        if |a| > 1 {
          assert t[1] == a[1];
          assert a[1] in a;
        }
      }
      assert !StartsWith(t, " = ");
      assert t[1..] == a[1..] + " = " + d;
      assert '=' !in a[1..];
      StripDefaultSuffix(a[1..], d);
      assert [a[0]] + a[1..] == a;
    }
  }

  lemma {:induction false} DropToCommaNoComma(d: string)
    requires ',' !in d
    ensures DropToComma(d) == ""
    decreases |d|
  {
    if |d| > 0 {
      assert d[0] in d;
      assert ',' !in d[1..];
      DropToCommaNoComma(d[1..]);
    }
  }

  lemma NoCommaInHead(p: Parameter)
    requires ',' !in TypeOf(p) && ',' !in p.Name
    ensures ',' !in ParamHead(p)
  {
  }

  /** The rendering of a well-formed parameter is a well-formed token, with `=` exactly when it has a default, and strips to its head. */
  lemma ParamToken(p: Parameter, decode: string -> string)
    requires WellFormedParam(p, decode)
    ensures WellFormedToken(ParamToString(p, decode))
    ensures '=' in ParamToString(p, decode) <==> p.HasDefaultValue
    ensures StripDefaults(ParamToString(p, decode)) == ParamHead(p)
  {
    NoCommaInHead(p);
    RenderedToken(ParamHead(p), p.HasDefaultValue, DefaultText(p, decode), ParamToString(p, decode));
  }

  /** A comma-free head, followed by ` = d` when there is a default, is a well-formed token that strips back to the head. */
  lemma RenderedToken(h: string, hasDefault: bool, d: string, r: string)
    requires '$' in h && '=' !in h && ',' !in h
    requires hasDefault ==> ',' !in d
    requires r == if hasDefault then h + " = " + d else h
    ensures WellFormedToken(r)
    ensures '=' in r <==> hasDefault
    ensures StripDefaults(r) == h
  {
    if hasDefault {
      DefaultedToken(h, d);
    } else {
      NoCommaNoSeparator(r);
    }
  }

  function Render(decode: string -> string): Parameter -> string {
    p => ParamToString(p, decode)
  }

  function Tokens(ps: seq<Parameter>, decode: string -> string): (r: seq<string>)
    ensures |r| == |ps|
    ensures forall i :: 0 <= i < |ps| ==> r[i] == ParamToString(ps[i], decode)
  {
    seq(|ps|, i requires 0 <= i < |ps| => ParamToString(ps[i], decode))
  }

  lemma TokensWellFormed(ps: seq<Parameter>, decode: string -> string)
    requires WellFormedParams(ps, decode)
    ensures WellFormedTokens(Tokens(ps, decode))
    ensures Signature(ps, Render(decode)) == Implode(Tokens(ps, decode))
  {
    forall i | 0 <= i < |ps|
      ensures WellFormedToken(Tokens(ps, decode)[i])
    {
      ParamToken(ps[i], decode);
    }
    var a := seq(|ps|, i requires 0 <= i < |ps| => Render(decode)(ps[i]));
    forall i | 0 <= i < |ps|
      ensures a[i] == Tokens(ps, decode)[i]
    {
      assert Render(decode)(ps[i]) == ParamToString(ps[i], decode);
    }
    assert a == Tokens(ps, decode);
  }

  /** `q` is `p` with a default value added and nothing else changed. */
  predicate MadeOptional(p: Parameter, q: Parameter) {
    && !p.HasDefaultValue && q.HasDefaultValue
    && q.(HasDefaultValue := false, DefaultValue := p.DefaultValue, DefaultConstant := p.DefaultConstant) == p
  }

  /**
   * The intended property, proved of the per-parameter rule: keeping each
   * existing parameter or making it optional, and appending only optional
   * parameters, is compatible.
   */
  lemma FixedAcceptsMadeOptional(ps: seq<Parameter>, qs: seq<Parameter>, decode: string -> string)
    requires WellFormedParams(ps, decode) && WellFormedParams(qs, decode)
    requires |ps| <= |qs|
    requires forall i :: 0 <= i < |ps| ==> qs[i] == ps[i] || MadeOptional(ps[i], qs[i])
    requires forall i :: |ps| <= i < |qs| ==> qs[i].HasDefaultValue
    ensures IsParamSignatureCompatibleFixed(Signature(ps, Render(decode)), Signature(qs, Render(decode)))
  {
    var s := Tokens(ps, decode);
    var t := Tokens(qs, decode);
    TokensWellFormed(ps, decode);
    TokensWellFormed(qs, decode);
    forall i | 0 <= i < |s|
      ensures s[i] == t[i] || s[i] == StripDefaults(t[i])
    {
      if qs[i] != ps[i] {
        ParamToken(qs[i], decode);
        assert ParamHead(qs[i]) == ParamHead(ps[i]);
      }
    }
    forall i | |s| <= i < |t|
      ensures '=' in t[i]
    {
      ParamToken(qs[i], decode);
    }
    FixedOnTokens(s, t);
  }

  /** A signature that adds a required parameter is rejected by both rules. */
  lemma RequiredParameterAddedRejected(ps: seq<Parameter>, added: seq<Parameter>, k: int, decode: string -> string)
    requires WellFormedParams(ps, decode) && WellFormedParams(added, decode)
    requires 0 <= k < |added| && !added[k].HasDefaultValue
    ensures !IsParamSignatureCompatible(Signature(ps, Render(decode)), Signature(ps + added, Render(decode)))
    ensures !IsParamSignatureCompatibleFixed(Signature(ps, Render(decode)), Signature(ps + added, Render(decode)))
  {
    TokensAppend(ps, added, decode);
    TokensWellFormed(ps, decode);
    TokensWellFormed(added, decode);
    TokensWellFormed(ps + added, decode);
    ParamToken(added[k], decode);
    AddRequiredIncompatible(Tokens(ps, decode), Tokens(added, decode), k);
  }

  lemma TokensAppend(ps: seq<Parameter>, added: seq<Parameter>, decode: string -> string)
    requires WellFormedParams(ps, decode) && WellFormedParams(added, decode)
    ensures WellFormedParams(ps + added, decode)
    ensures Tokens(ps + added, decode) == Tokens(ps, decode) + Tokens(added, decode)
  {
    var all := ps + added;
    forall i | 0 <= i < |all|
      ensures WellFormedParam(all[i], decode)
    {
      if i >= |ps| {
        assert all[i] == added[i - |ps|];
      }
    }
    assert Tokens(all, decode) == Tokens(ps, decode) + Tokens(added, decode);
  }

  /** A first parameter that neither matches nor strips to the source's is rejected by both rules. */
  lemma FirstParameterChanged(s: seq<string>, t: seq<string>)
    requires WellFormedTokens(s) && WellFormedTokens(t)
    requires |s| >= 1 && |t| >= 1 && s[0] != t[0] && s[0] != StripDefaults(t[0])
    ensures !IsParamSignatureCompatible(Implode(s), Implode(t))
    ensures !IsParamSignatureCompatibleFixed(Implode(s), Implode(t))
  {
    FixedOnTokens(s, t);
    AsWrittenImpliesFixed(Implode(s), Implode(t));
  }

  /**
   * The rule as written rejects making the first parameter optional when the
   * second already has a default; the per-parameter rule accepts it.
   */
  lemma AsWrittenRejectsMadeOptional(a: string, b: string, d1: string, d2: string)
    requires '$' in a && '$' in b
    requires '=' !in a && ',' !in a && '=' !in b && ',' !in b && ',' !in d1 && ',' !in d2
    ensures !IsParamSignatureCompatible(Implode([a, b + " = " + d2]), Implode([a + " = " + d1, b + " = " + d2]))
    ensures IsParamSignatureCompatibleFixed(Implode([a, b + " = " + d2]), Implode([a + " = " + d1, b + " = " + d2]))
  {
    DefaultedToken(a, d1);
    DefaultedToken(b, d2);
    NoCommaNoSeparator(a);
    FirstMadeOptional(a, a + " = " + d1, b, b + " = " + d2);
  }

  /** Two-parameter form: the first parameter gains a default, the second already had one. */
  lemma FirstMadeOptional(a: string, a1: string, b: string, b2: string)
    requires WellFormedToken(a) && WellFormedToken(a1) && WellFormedToken(b2)
    requires a1 != a && StripDefaults(a1) == a && StripDefaults(b2) == b && b != b2
    ensures !IsParamSignatureCompatible(Implode([a, b2]), Implode([a1, b2]))
    ensures IsParamSignatureCompatibleFixed(Implode([a, b2]), Implode([a1, b2]))
  {
    FirstMadeOptionalRejected(a, a1, b, b2);
    FirstMadeOptionalAccepted(a, a1, b, b2);
  }

  lemma FirstMadeOptionalRejected(a: string, a1: string, b: string, b2: string)
    requires WellFormedToken(a) && WellFormedToken(a1) && WellFormedToken(b2)
    requires a1 != a && StripDefaults(a1) == a && StripDefaults(b2) == b && b != b2
    ensures !IsParamSignatureCompatible(Implode([a, b2]), Implode([a1, b2]))
  {
    var s := [a, b2];
    var t := [a1, b2];
    assert s != t[..|s|] by {
      assert t[..|s|][0] == a1;
    }
    var st := StripAll(t)[..|s|];
    assert s != st by {
      assert st[1] == b;
    }
    AsWrittenOnTokens(s, t);
  }

  lemma FirstMadeOptionalAccepted(a: string, a1: string, b: string, b2: string)
    requires WellFormedToken(a) && WellFormedToken(a1) && WellFormedToken(b2)
    requires a1 != a && StripDefaults(a1) == a && StripDefaults(b2) == b && b != b2
    ensures IsParamSignatureCompatibleFixed(Implode([a, b2]), Implode([a1, b2]))
  {
    var s := [a, b2];
    var t := [a1, b2];
    assert CompatibleTokens(s, t);
    FixedOnTokens(s, t);
  }

  /** `a = d` rendered from a comma-free head and default: a well-formed token that strips back to `a`. */
  lemma DefaultedToken(a: string, d: string)
    requires '$' in a && '=' !in a && ',' !in a && ',' !in d
    ensures WellFormedToken(a + " = " + d)
    ensures '=' in a + " = " + d && a + " = " + d != a
    ensures StripDefaults(a + " = " + d) == a
  {
    var eq := " = ";
    var t := a + eq + d;
    assert eq[1] == '=' && eq[0] != ',' && eq[2] != ',';
    assert ',' !in eq;
    NoCommaNoSeparator(t);
    StripDefaultSuffix(a, d);
  }

  lemma ImplodePair(x: string, y: string)
    ensures Implode([x, y]) == x + Separator + y
  {
    assert [x, y][1..] == [y];
  }

  lemma ExampleTexts(a: string, b: string, d1: string, d2: string, source: string, target: string)
    requires a == "$a" && b == "$b" && d1 == "0" && d2 == "1"
    requires source == "$a, $b = 1" && target == "$a = 0, $b = 1"
    ensures '$' in a && '$' in b
    ensures '=' !in a && ',' !in a && '=' !in b && ',' !in b && ',' !in d1 && ',' !in d2
    ensures Implode([a, b + " = " + d2]) == source
    ensures Implode([a + " = " + d1, b + " = " + d2]) == target
  {
    assert a[0] == '$' && b[0] == '$';
    ImplodePair(a, b + " = " + d2);
    ImplodePair(a + " = " + d1, b + " = " + d2);
  }

  /** The instance `$a, $b = 1` against `$a = 0, $b = 1`. */
  lemma AsWrittenRejectsExample(source: string, target: string)
    requires source == "$a, $b = 1" && target == "$a = 0, $b = 1"
    ensures !IsParamSignatureCompatible(source, target)
    ensures IsParamSignatureCompatibleFixed(source, target)
  {
    var a, b, d1, d2 := "$a", "$b", "0", "1";
    ExampleTexts(a, b, d1, d2, source, target);
    AsWrittenRejectsMadeOptional(a, b, d1, d2);
  }

  /** A required parameter added to or removed from `$p1` is a signature change. */
  lemma FixtureArityChanges(p1: string, both: string)
    requires p1 == "$p1" && both == "$p1, $p2"
    ensures !IsParamSignatureCompatible("", p1)
    ensures !IsParamSignatureCompatible(p1, "")
    ensures !IsParamSignatureCompatible(p1, both)
  {
    var q2 := "$p2";
    ArityTexts(p1, q2, both);
    AddRequiredIncompatible([], [p1], 0);
    FewerParametersIncompatible([p1], []);
    AddRequiredIncompatible([p1], [q2], 0);
  }

  lemma ArityTexts(p1: string, q2: string, both: string)
    requires p1 == "$p1" && q2 == "$p2" && both == "$p1, $p2"
    ensures WellFormedToken(p1) && WellFormedToken(q2) && '=' !in p1 && '=' !in q2
    ensures Implode([p1] + [q2]) == both
  {
    NoCommaNoSeparator(p1);
    NoCommaNoSeparator(q2);
    assert p1[0] == '$' && q2[0] == '$';
    assert [p1] + [q2] == [p1, q2];
    ImplodePair(p1, q2);
  }

  lemma ReorderTexts(p1: string, q2: string, q1d: string, reordered: string)
    requires p1 == "$p1" && q2 == "$p2" && q1d == "$p1 = NULL" && reordered == "$p2, $p1 = NULL"
    ensures WellFormedToken(p1) && WellFormedToken(q2) && WellFormedToken(q1d)
    ensures p1 != q2 && p1 != StripDefaults(q2)
    ensures Implode([q2, q1d]) == reordered
  {
    ReorderWellFormed(p1, q2, q1d);
    ReorderDistinct(p1, q2);
    ReorderImplode(q2, q1d, reordered);
  }

  lemma ReorderWellFormed(p1: string, q2: string, q1d: string)
    requires p1 == "$p1" && q2 == "$p2" && q1d == "$p1 = NULL"
    ensures WellFormedToken(p1) && WellFormedToken(q2) && WellFormedToken(q1d)
  {
    NoCommaNoSeparator(p1);
    NoCommaNoSeparator(q2);
    NoCommaNoSeparator(q1d);
    assert p1[0] == '$' && q2[0] == '$' && q1d[0] == '$';
  }

  lemma ReorderDistinct(p1: string, q2: string)
    requires p1 == "$p1" && q2 == "$p2"
    ensures p1 != q2 && p1 != StripDefaults(q2)
  {
    assert p1[2] != q2[2];
    assert '=' !in q2;
  }

  lemma ReorderImplode(q2: string, q1d: string, reordered: string)
    requires q2 == "$p2" && q1d == "$p1 = NULL" && reordered == "$p2, $p1 = NULL"
    ensures Implode([q2, q1d]) == reordered
  {
    ImplodePair(q2, q1d);
  }

  /** Putting a new required parameter in front of `$p1` is a signature change. */
  lemma FixtureReorderChange(p1: string, reordered: string)
    requires p1 == "$p1" && reordered == "$p2, $p1 = NULL"
    ensures !IsParamSignatureCompatible(p1, reordered)
  {
    var q2, q1d := "$p2", "$p1 = NULL";
    ReorderTexts(p1, q2, q1d, reordered);
    FirstParameterChanged([p1], [q2, q1d]);
  }
}

=== FILE: snapshot.dfy ===
/**
 * One indexed snapshot of a code base, as the checkers read it: each table is a
 * sequence of rows in row order, and every SQL query of the checkers becomes a
 * pure lookup here. The snapshot is never modified.
 */
module Snapshots {
  import opened Wrappers
  import opened Sequences
  import opened Assoc

  /** Scope ordinals (`ClassDataCollector::SCOPE_*`): private < protected < public. */
  const ScopePrivate: int := 1
  const ScopeProtected: int := 2
  const ScopePublic: int := 3

  /** A row of `Classes`: a class, interface or trait. */
  datatype ClassRow = ClassRow(Name: string, Id: int, IsAbstract: bool, IsFinal: bool)

  /**
   * A row of `ClassConstants`, `ClassProperties` or `ClassMethods`. Constant
   * rows use only `Name` and `ClassId`; property rows add `Scope` and
   * `IsStatic`; method rows use every column.
   */
  datatype Member = Member(Name: string, Id: int, ClassId: int, Scope: int, IsAbstract: bool, IsFinal: bool, IsStatic: bool)

  /** A row of `ClassRelations`; `RelatedClassId` is 0 when the related class is not indexed. */
  datatype Relation = Relation(ClassId: int, RelatedClassId: int)

  /** A row of `Functions`. */
  datatype FunctionRow = FunctionRow(Name: string, Id: int)

  /**
   * A row of `MethodParameters` or `FunctionParameters`; `OwnerId` is the
   * `MethodId` or `FunctionId` column. A NULL string column reads as `""`.
   */
  datatype Parameter = Parameter(
    OwnerId: int,
    Position: int,
    Name: string,
    HasType: bool,
    TypeName: string,
    IsArray: bool,
    IsCallable: bool,
    TypeClass: string,
    IsPassedByReference: bool,
    HasDefaultValue: bool,
    DefaultValue: string,
    DefaultConstant: string)

  /** The three member tables the class checker walks. */
  datatype MemberKind = Constants | Properties | Methods

  /**
   * A snapshot. `rank` is a proof-only ranking of class ids; `Ranked` says it
   * witnesses that the relation graph has no cycle, which the recursive
   * lookups rely on to terminate.
   */
  datatype Snapshot = Snapshot(
    classes: seq<ClassRow>,
    relations: seq<Relation>,
    constants: seq<Member>,
    properties: seq<Member>,
    methods: seq<Member>,
    methodParameters: seq<Parameter>,
    functions: seq<FunctionRow>,
    functionParameters: seq<Parameter>,
    constantNames: seq<string>,
    ghost rank: map<int, nat>)

  function ClassKey(c: ClassRow): string { c.Name }
  function MemberKey(m: Member): string { m.Name }
  function FunctionKey(f: FunctionRow): string { f.Name }

  /** Every edge to an indexed class goes from a higher rank to a strictly lower one. */
  ghost predicate Ranked(s: Snapshot) {
    forall rel :: rel in s.relations && rel.RelatedClassId != 0 ==>
      rel.ClassId in s.rank && rel.RelatedClassId in s.rank && s.rank[rel.RelatedClassId] < s.rank[rel.ClassId]
  }

  ghost function Height(s: Snapshot, id: int): nat {
    if id in s.rank then s.rank[id] else 0
  }

  /** No two rows of one class share a name (the tables' uniqueness invariant). */
  ghost predicate UniqueNames(rows: seq<Member>) {
    forall a, b :: a in rows && b in rows && a.ClassId == b.ClassId && a.Name == b.Name ==> a == b
  }

  function Table(s: Snapshot, kind: MemberKind): seq<Member> {
    match kind
    case Constants => s.constants
    case Properties => s.properties
    case Methods => s.methods
  }

  /** `Scope IN (...)`; `None` is the unfiltered query. */
  predicate InScopes(m: Member, scopes: Option<set<int>>) {
    scopes.None? || m.Scope in scopes.value
  }

  /** `SELECT ... WHERE ClassId = :class_id [AND Scope IN (...)]`, in row order. */
  function OwnRows(s: Snapshot, kind: MemberKind, classId: int, scopes: Option<set<int>>): seq<Member> {
    Filter(Table(s, kind), (m: Member) => m.ClassId == classId && InScopes(m, scopes))
  }

  /** `classId` has a relation row to the indexed class `x`. */
  predicate RelatedTo(rels: seq<Relation>, classId: int, x: int) {
    x != 0 && Relation(classId, x) in rels
  }

  /**
   * `getClassRelations`: ids of the indexed classes `classId` extends,
   * implements or uses, once each, in first-occurrence order (`fetchPairs`
   * keyed by `RelatedClassId`, rows with `RelatedClassId = 0` excluded).
   */
  function RelatedIds(rels: seq<Relation>, classId: int): (r: seq<int>)
    ensures forall x :: x in r <==> RelatedTo(rels, classId, x)
    ensures forall i, j :: 0 <= i < j < |r| ==> r[i] != r[j]
    decreases |rels|
  {
    if |rels| == 0 then []
    else
      var n := |rels| - 1;
      var prev := RelatedIds(rels[..n], classId);
      var rel := rels[n];
      assert rels == rels[..n] + [rel];
      if rel.ClassId == classId && rel.RelatedClassId != 0 && rel.RelatedClassId !in prev then prev + [rel.RelatedClassId]
      else prev
  }

  /** The lookup rank of a class: related classes rank strictly lower. */
  lemma RelatedRankLower(s: Snapshot, classId: int, x: int)
    requires Ranked(s)
    requires x in RelatedIds(s.relations, classId)
    ensures Height(s, x) < Height(s, classId)
  {
  }

  /**
   * `getConstantsRecursively` / `getPropertiesRecursively` /
   * `getMethodsRecursively`: the class's own rows keyed by name, then, for
   * each related class in turn, that class's recursive result for the names
   * not present yet. The scope filter applies at every level.
   */
  function Recursive(s: Snapshot, kind: MemberKind, classId: int, scopes: Option<set<int>>): (r: seq<Member>)
    requires Ranked(s)
    ensures var own := FetchAssoc(OwnRows(s, kind, classId, scopes), MemberKey); |own| <= |r| && r[..|own|] == own
    decreases Height(s, classId), 1
  {
    MergeRelated(s, kind, classId, RelatedIds(s.relations, classId), scopes,
      FetchAssoc(OwnRows(s, kind, classId, scopes), MemberKey))
  }

  /** The loop over related classes inside the recursive lookups. */
  function MergeRelated(s: Snapshot, kind: MemberKind, classId: int, related: seq<int>, scopes: Option<set<int>>, acc: seq<Member>): (r: seq<Member>)
    requires Ranked(s)
    requires forall x :: x in related ==> x in RelatedIds(s.relations, classId)
    ensures |acc| <= |r| && r[..|acc|] == acc
    decreases Height(s, classId), 0, |related|
  {
    if |related| == 0 then acc
    else
      RelatedRankLower(s, classId, related[0]);
      var merged := MergeAbsent(acc, Recursive(s, kind, related[0], scopes), MemberKey);
      var r := MergeRelated(s, kind, classId, related[1..], scopes, merged);
      assert r[..|acc|] == r[..|merged|][..|acc|];
      r
  }

  /** A name visible from a class: declared by it or visible from a related class (reference definition). */
  ghost predicate Visible(s: Snapshot, kind: MemberKind, classId: int, scopes: Option<set<int>>, name: string)
    requires Ranked(s)
    decreases Height(s, classId)
  {
    || HasKey(OwnRows(s, kind, classId, scopes), MemberKey, name)
    || exists x :: x in RelatedIds(s.relations, classId) && Visible(s, kind, x, scopes, name)
  }

  /** The recursive lookup finds exactly the visible names. */
  lemma {:induction false} RecursiveVisible(s: Snapshot, kind: MemberKind, classId: int, scopes: Option<set<int>>, name: string)
    requires Ranked(s)
    ensures HasKey(Recursive(s, kind, classId, scopes), MemberKey, name) <==> Visible(s, kind, classId, scopes, name)
    decreases Height(s, classId), 1
  {
    var rows := OwnRows(s, kind, classId, scopes);
    var related := RelatedIds(s.relations, classId);
    FetchAssocHasKey(rows, MemberKey, name);
    MergeRelatedVisible(s, kind, classId, related, scopes, FetchAssoc(rows, MemberKey), name);
    VisibleFromAnyExists(s, kind, related, scopes, name);
  }

  /** Some class of `related` sees `name`. */
  ghost predicate VisibleFromAny(s: Snapshot, kind: MemberKind, related: seq<int>, scopes: Option<set<int>>, name: string)
    requires Ranked(s)
  {
    Any(related, x => Visible(s, kind, x, scopes, name))
  }

  lemma VisibleFromAnyExists(s: Snapshot, kind: MemberKind, related: seq<int>, scopes: Option<set<int>>, name: string)
    requires Ranked(s)
    ensures VisibleFromAny(s, kind, related, scopes, name) <==> exists x :: x in related && Visible(s, kind, x, scopes, name)
  {
    AnyExists(related, x => Visible(s, kind, x, scopes, name));
  }

  lemma {:induction false} MergeRelatedVisible(s: Snapshot, kind: MemberKind, classId: int, related: seq<int>, scopes: Option<set<int>>, acc: seq<Member>, name: string)
    requires Ranked(s)
    requires forall x :: x in related ==> x in RelatedIds(s.relations, classId)
    ensures HasKey(MergeRelated(s, kind, classId, related, scopes, acc), MemberKey, name)
      <==> HasKey(acc, MemberKey, name) || VisibleFromAny(s, kind, related, scopes, name)
    decreases Height(s, classId), 0, |related|
  {
    if |related| > 0 {
      RelatedRankLower(s, classId, related[0]);
      var sub := Recursive(s, kind, related[0], scopes);
      var merged := MergeAbsent(acc, sub, MemberKey);
      MergeRelatedVisible(s, kind, classId, related[1..], scopes, merged, name);
      MergeAbsentFind(acc, sub, MemberKey, name);
      RecursiveVisible(s, kind, related[0], scopes, name);
    }
  }

  /** Rows already collected keep their values through the related-class merge. */
  lemma {:induction false} MergeRelatedKeeps(s: Snapshot, kind: MemberKind, classId: int, related: seq<int>, scopes: Option<set<int>>, acc: seq<Member>, name: string)
    requires Ranked(s)
    requires forall x :: x in related ==> x in RelatedIds(s.relations, classId)
    requires HasKey(acc, MemberKey, name)
    ensures Find(MergeRelated(s, kind, classId, related, scopes, acc), MemberKey, name) == Find(acc, MemberKey, name)
    decreases |related|
  {
    if |related| > 0 {
      RelatedRankLower(s, classId, related[0]);
      var merged := MergeAbsent(acc, Recursive(s, kind, related[0], scopes), MemberKey);
      MergeAbsentFind(acc, Recursive(s, kind, related[0], scopes), MemberKey, name);
      MergeRelatedKeeps(s, kind, classId, related[1..], scopes, merged, name);
    }
  }

  /** Own rows win: a name the class declares resolves to its own row. */
  lemma OwnRowsWin(s: Snapshot, kind: MemberKind, classId: int, scopes: Option<set<int>>, name: string)
    requires Ranked(s)
    requires HasKey(OwnRows(s, kind, classId, scopes), MemberKey, name)
    ensures Find(Recursive(s, kind, classId, scopes), MemberKey, name)
      == Find(FetchAssoc(OwnRows(s, kind, classId, scopes), MemberKey), MemberKey, name)
  {
    var rows := OwnRows(s, kind, classId, scopes);
    FetchAssocHasKey(rows, MemberKey, name);
    MergeRelatedKeeps(s, kind, classId, RelatedIds(s.relations, classId), scopes, FetchAssoc(rows, MemberKey), name);
  }

  /** Every row the recursive lookup returns is a row of the table that passes the scope filter. */
  lemma {:induction false} RecursiveRows(s: Snapshot, kind: MemberKind, classId: int, scopes: Option<set<int>>, m: Member)
    requires Ranked(s)
    requires m in Recursive(s, kind, classId, scopes)
    ensures m in Table(s, kind) && InScopes(m, scopes)
    decreases Height(s, classId), 1
  {
    var rows := OwnRows(s, kind, classId, scopes);
    MergeRelatedRows(s, kind, classId, RelatedIds(s.relations, classId), scopes, FetchAssoc(rows, MemberKey), m);
    if m in FetchAssoc(rows, MemberKey) {
      FetchAssocFrom(rows, MemberKey, m);
    }
  }

  lemma {:induction false} MergeRelatedRows(s: Snapshot, kind: MemberKind, classId: int, related: seq<int>, scopes: Option<set<int>>, acc: seq<Member>, m: Member)
    requires Ranked(s)
    requires forall x :: x in related ==> x in RelatedIds(s.relations, classId)
    requires m in MergeRelated(s, kind, classId, related, scopes, acc)
    ensures m in acc || (m in Table(s, kind) && InScopes(m, scopes))
    decreases Height(s, classId), 0, |related|
  {
    if |related| > 0 {
      RelatedRankLower(s, classId, related[0]);
      var sub := Recursive(s, kind, related[0], scopes);
      var merged := MergeAbsent(acc, sub, MemberKey);
      MergeRelatedRows(s, kind, classId, related[1..], scopes, merged, m);
      if m in merged {
        MergeAbsentFrom(acc, sub, MemberKey, m);
        if m in sub {
          RecursiveRows(s, kind, related[0], scopes, m);
        }
      }
    }
  }

  /** The recursive lookup never repeats a name. */
  lemma {:induction false} RecursiveDistinct(s: Snapshot, kind: MemberKind, classId: int, scopes: Option<set<int>>)
    requires Ranked(s)
    ensures DistinctKeys(Recursive(s, kind, classId, scopes), MemberKey)
  {
    var rows := OwnRows(s, kind, classId, scopes);
    FetchAssocDistinct(rows, MemberKey);
    MergeRelatedDistinct(s, kind, classId, RelatedIds(s.relations, classId), scopes, FetchAssoc(rows, MemberKey));
  }

  lemma {:induction false} MergeRelatedDistinct(s: Snapshot, kind: MemberKind, classId: int, related: seq<int>, scopes: Option<set<int>>, acc: seq<Member>)
    requires Ranked(s)
    requires forall x :: x in related ==> x in RelatedIds(s.relations, classId)
    requires DistinctKeys(acc, MemberKey)
    ensures DistinctKeys(MergeRelated(s, kind, classId, related, scopes, acc), MemberKey)
    decreases |related|
  {
    if |related| > 0 {
      RelatedRankLower(s, classId, related[0]);
      var merged := MergeAbsent(acc, Recursive(s, kind, related[0], scopes), MemberKey);
      MergeAbsentDistinct(acc, Recursive(s, kind, related[0], scopes), MemberKey);
      MergeRelatedDistinct(s, kind, classId, related[1..], scopes, merged);
    }
  }

  /** `ORDER BY Position ASC`. */
  function PositionLe(a: Parameter, b: Parameter): bool {
    a.Position <= b.Position
  }

  lemma PositionOrder()
    ensures TotalPreorder(PositionLe)
  {
  }

  /** `SELECT * FROM ...Parameters WHERE OwnerId = :id ORDER BY Position ASC`. */
  function ParametersOf(rows: seq<Parameter>, ownerId: int): (r: seq<Parameter>)
    ensures multiset(r) == multiset(Filter(rows, (p: Parameter) => p.OwnerId == ownerId))
    ensures forall i, j :: 0 <= i < j < |r| ==> r[i].Position <= r[j].Position
  {
    PositionOrder();
    var r := SortBy(Filter(rows, (p: Parameter) => p.OwnerId == ownerId), PositionLe);
    assert forall i, j :: 0 <= i < j < |r| ==> r[i].Position <= r[j].Position by {
      forall i, j | 0 <= i < j < |r|
        ensures r[i].Position <= r[j].Position
      {
        SortedPairwise(r, PositionLe, i, j);
      }
    }
    r
  }
}

=== FILE: wrappers.dfy ===
/** Failure-compatible wrappers shared by the whole model. */
module Wrappers {

  /** A value that may be missing: PHP's `null` or an absent array key. */
  datatype Option<+T> = None | Some(value: T)

  /** The outcome of an operation that may throw; `Failure` carries the exception message. */
  datatype Result<+T> = Success(value: T) | Failure(error: string)
}
